=== FILE: README.md ===
# Infinity decision-table editor and DMN service, modelled in Dafny

This project models the logic of the Infinity rule-authoring tool. The tool has three parts:

- a React editor for DMN decision tables (`InfinityReactUI.jsx`): the table itself, its test suite, the repository/model workspace, the suggestion panel, the diagram canvas and the rule editor's save;
- the evaluation form (`DecisionForm.jsx`), which draws an input form from a model's expanded schema;
- the HTTP client (`droolsApi.js`) and the Spring controller behind it (`DecisionController.java`). The controller selects the DMN model to evaluate, lists models and decision tables, reads a decision table into labels, outputs and rules, expands item definitions into form schemas, and rebuilds the KIE module after a table update.

Every operation is a pure function, or a short method, over immutable data:

- columns and rows are sequences of strings;
- a test case records its inputs, expected value, result and status;
- a DMN document is an element tree (`Dmn.Node`);
- JavaScript values that matter (`undefined`, `null`, truthiness, a missing key, `String(undefined)`) are modelled explicitly.

Randomness, clocks, the XML parser, the KIE builder and the HTTP layer are parameters of the operations that use them. The modules follow the program:

- `Base` and `Text` hold sequence and string helpers;
- `Hash`, `Cells`, `Columns`, `TestCases`, `Realign`, `Runner`, `Generator`, `Cursor` and `Editor` model the table editor;
- `Conversion` and `Save` model the rule editor;
- `Workspace` and `Suggestions` model the workspace;
- `Graph` models the diagram;
- `Api` models the client;
- `Dmn` and `Controller` model the service;
- `Form` models the evaluation form;
- `Scenarios` applies the editor to the shape of the seed table.

Four behaviours of the code are worth noting:

- The negative test-case cap `maxNegativesPerRule` caps the whole suite, not each rule.
- A `'-'` cell is compared literally, so it is not a wildcard.
- The warning for a missing output column can only show when there are no columns.
- An update answers "Decision not found to update" for a decision whose first decision table is nested, for instance inside a context entry. The read endpoints still find that decision, but `replaceChild` refuses a table that is not a direct child.

All paths below are relative to the repository root.

## Model

| member | source | states |
|---|---|---|
| Hash.ToInt32 | Infinity-React-UI-main/src/components/InfinityReactUI.jsx:12-13 | the signed 32-bit integer congruent to its argument modulo 2^32, in [-2^31, 2^31) |
| Hash.ToInt32Congruent | Infinity-React-UI-main/src/components/InfinityReactUI.jsx:13 | `hash \|= 0` depends only on the value modulo 2^32 |
| Hash.Utf16 | Infinity-React-UI-main/src/components/InfinityReactUI.jsx:11 | a string has between one and two UTF-16 code units per character, and exactly one when every character is in the Basic Multilingual Plane |
| Hash.StepAgrees | Infinity-React-UI-main/src/components/InfinityReactUI.jsx:12-13 | one `(hash << 5) - hash + chr` step followed by `\|0` equals 31·hash + chr reduced to 32 bits |
| Hash.HashCode | Infinity-React-UI-main/src/components/InfinityReactUI.jsx:7-16 | the result is the Java-style polynomial hash Σ 31^(n-1-i)·c_i over the UTF-16 code units, reduced to a signed 32-bit integer |
| Hash.AaCollidesWithBB | Infinity-React-UI-main/src/components/InfinityReactUI.jsx:7-16 | "Aa" and "BB" hash alike, so two editors keyed by the hash of their content can share a key |
| Cells.NormalizeBooleanCell | Infinity-React-UI-main/src/components/InfinityReactUI.jsx:52 | `true` becomes 'TRUE', `false` becomes 'FALSE', and a string is upper-cased |
| Cells.NormalizeBooleanRows | Infinity-React-UI-main/src/components/InfinityReactUI.jsx:45-56 | every row keeps its length; exactly the cells under Boolean-typed columns are normalised, and all other cells are unchanged |
| Cells.NormalizeBooleanText | Infinity-React-UI-main/src/components/InfinityReactUI.jsx:45-56 | on rows of strings: every row keeps its length; cells outside Boolean columns are unchanged; a Boolean cell keeps its letters ignoring case and has no lower-case letter |
| Cells.NormalizeTextAgrees | Infinity-React-UI-main/src/components/InfinityReactUI.jsx:45-56 | on string cells the raw-cell normalisation and the string one agree |
| Cells.NormalizeTextFixesCanonical | Infinity-React-UI-main/src/components/InfinityReactUI.jsx:45-56 | rows whose Boolean cells are already upper case come back unchanged |
| Cells.NormalizeTextIdempotent | Infinity-React-UI-main/src/components/InfinityReactUI.jsx:60 | normalising the already-normalised rows on every render changes nothing |
| Cells.NormalizeTextSameTypes | Infinity-React-UI-main/src/components/InfinityReactUI.jsx:46-48 | the result depends on the columns only through which positions are Boolean-typed |
| Cells.CellOrEmpty | Infinity-React-UI-main/src/components/InfinityReactUI.jsx:339-340 | `row[i] ?? ''`: a missing cell reads as '' |
| Columns.FindOutput | Infinity-React-UI-main/src/components/InfinityReactUI.jsx:72 | the index of the first column whose trimmed, lower-cased name is result, output or decision; no earlier column has such a name; None when no column does |
| Columns.EnsureResultLast | Infinity-React-UI-main/src/components/InfinityReactUI.jsx:69-79 | the result is a permutation of the columns: the first output-named column moves last and the others keep their relative order; columns without an output name are returned unchanged |
| Columns.EnsureResultLastFixesOutputIsLast | Infinity-React-UI-main/src/components/InfinityReactUI.jsx:69-79 | columns whose first output-named column is already last, or that have none, are unchanged |
| Columns.EnsureResultLastPutsOutputLast | Infinity-React-UI-main/src/components/InfinityReactUI.jsx:69-79 | with at most one output-named column, that column stands last after the call |
| Columns.EnsureResultLastIdempotent | Infinity-React-UI-main/src/components/InfinityReactUI.jsx:69-79 | with at most one output-named column, a second call changes nothing |
| Columns.EnsureResultLastNotIdempotent | Infinity-React-UI-main/src/components/InfinityReactUI.jsx:71-72 | with two output-named columns, a second call reorders again: the two swap |
| Columns.InputColumns | Infinity-React-UI-main/src/components/InfinityReactUI.jsx:296-300 | one column fewer than the table (none for no columns), each one of the table's columns |
| Columns.InputNames | Infinity-React-UI-main/src/components/InfinityReactUI.jsx:88-91 | the input columns' names, in order |
| Columns.InputColumnsExcludeOutput | Infinity-React-UI-main/src/components/InfinityReactUI.jsx:296-300 | with exactly one output-named column, it is not among the input columns |
| Columns.NewColumnName | Infinity-React-UI-main/src/components/InfinityReactUI.jsx:222 | the name of an added column starts with "Condition " and continues with a number |
| Columns.NewColumnNameNotOutput | Infinity-React-UI-main/src/components/InfinityReactUI.jsx:222 | a new column's name is never an output name |
| Columns.LongNameNotOutput | Infinity-React-UI-main/src/components/InfinityReactUI.jsx:70-72 | a name that is longer than "decision" after trimming is not an output name |
| Columns.NewColumnNameTrimmed | Infinity-React-UI-main/src/components/InfinityReactUI.jsx:222 | a new column's name has no surrounding blanks |
| Columns.ResultIsOutputName | Infinity-React-UI-main/src/components/InfinityReactUI.jsx:42 | the default "Result" column is output-named |
| TestCases.Lookup | Infinity-React-UI-main/src/components/InfinityReactUI.jsx:100-105 | `inputMap[name]`: the value recorded at the last position carrying that name; Absent when the name is missing; Undefined when the position is past the inputs |
| TestCases.LookupDistinct | Infinity-React-UI-main/src/components/InfinityReactUI.jsx:100-105 | with distinct names, the lookup of the i-th name is the i-th input |
| Realign.Autofill | Infinity-React-UI-main/src/components/InfinityReactUI.jsx:113-136 | the cell at the new column's position in the first row that agrees with every known input; '' when no row agrees or the cell is empty |
| Realign.ResolveInput | Infinity-React-UI-main/src/components/InfinityReactUI.jsx:107-138 | a non-empty preserved value is kept; otherwise the autofilled value is used; otherwise '' |
| Realign.RealignCase | Infinity-React-UI-main/src/components/InfinityReactUI.jsx:98-142 | a realigned case has one input per new input column, resolved by name, and keeps its other fields |
| Realign.RealignTestCases | Infinity-React-UI-main/src/components/InfinityReactUI.jsx:82-147 | every case is realigned to one input per new input column; a non-empty value recorded under the same column name is kept, and every other input is that column's autofill value; the number of cases and their other fields are unchanged |
| Realign.RealignSameColumnsKeeps | Infinity-React-UI-main/src/components/InfinityReactUI.jsx:188-190 | against the same columns with distinct names, each non-empty input of a fitting case is kept |
| Realign.RealignSameColumnsCase | Infinity-React-UI-main/src/components/InfinityReactUI.jsx:188-190 | a case whose inputs are all non-empty and fit the columns is unchanged |
| Realign.RealignSameColumnsStable | Infinity-React-UI-main/src/components/InfinityReactUI.jsx:188-190 | a suite of such cases is left as it is by the realignment the column effect runs |
| Realign.RealignNewNameAutofills | Infinity-React-UI-main/src/components/InfinityReactUI.jsx:107-136 | an input whose column name is new is autofilled, whatever the case held at that position |
| Runner.ColumnIndexByName | Infinity-React-UI-main/src/components/InfinityReactUI.jsx:307 | the first column carrying a name; none when the name is missing |
| Runner.Stringified | Infinity-React-UI-main/src/components/InfinityReactUI.jsx:307 | `String(row[k])`: a cell past the end of the row reads as the text "undefined", an in-range cell as itself |
| Runner.OutputCell | Infinity-React-UI-main/src/components/InfinityReactUI.jsx:311 | the cell under the last column; absent when the row is shorter than the columns or there are none |
| Runner.Judge | Infinity-React-UI-main/src/components/InfinityReactUI.jsx:312-313 | no verdict when nothing is expected; otherwise Pass exactly when the result equals the expected value |
| Runner.RunCase | Infinity-React-UI-main/src/components/InfinityReactUI.jsx:304-314 | the matched row is the first row whose input cells all equal the case's inputs; its output cell is the result; with no match the result is "No match found"; the status compares result and expected |
| Runner.RunTestSuite | Infinity-React-UI-main/src/components/InfinityReactUI.jsx:303-317 | every case is run, in order: the k-th case is RunCase of the k-th input case (first matching rule, its output or "No match found"); it keeps its inputs, expected value, description and source row, and its status judges its result |
| Runner.RunTestSuiteIdempotent | Infinity-React-UI-main/src/components/InfinityReactUI.jsx:303-317 | running a suite a second time gives the same outcome |
| Runner.InputColumnPosition | Infinity-React-UI-main/src/components/InfinityReactUI.jsx:307 | with distinct names and the output last, the i-th input column is found at index i |
| Runner.RowMatchesItsOwnInputs | Infinity-React-UI-main/src/components/InfinityReactUI.jsx:306-308 | a case whose inputs are a row's input cells matches that row or an earlier one |
| Generator.InCount | Infinity-React-UI-main/src/components/InfinityReactUI.jsx:335 | the number of input columns, which is one less than the number of columns |
| Generator.RowInputs | Infinity-React-UI-main/src/components/InfinityReactUI.jsx:339 | a row's first n cells, fewer when the row is shorter |
| Generator.Positive | Infinity-React-UI-main/src/components/InfinityReactUI.jsx:338-342 | the positive case of a row: the row's input cells, the last-column cell as expected value ('' when missing), the source row and the description set, no result |
| Generator.ColumnCells | Infinity-React-UI-main/src/components/InfinityReactUI.jsx:348 | the cells of one input column, across the rows |
| Generator.ColumnValues | Infinity-React-UI-main/src/components/InfinityReactUI.jsx:346-350 | the distinct non-empty cells of an input column, without repetition, in the order they first appear down the rows |
| Generator.Candidates | Infinity-React-UI-main/src/components/InfinityReactUI.jsx:356 | the column values other than the row's own cell, in the order they first appear down the rows |
| Generator.FirstOtherRow | Infinity-React-UI-main/src/components/InfinityReactUI.jsx:346-356 | the first row whose cell in the column is neither empty nor the given value, present exactly when such a row exists |
| Generator.FirstCandidate | Infinity-React-UI-main/src/components/InfinityReactUI.jsx:346-357 | when another value exists, the first candidate is the cell of the first row holding one |
| Generator.CandidateFirstSeenAtOtherRow | Infinity-React-UI-main/src/components/InfinityReactUI.jsx:346-356 | a candidate first appears down the column in a row whose cell is neither empty nor the row's own value |
| Generator.Pick | Infinity-React-UI-main/src/components/InfinityReactUI.jsx:356-363 | the cell of the first row (in row order) holding a non-empty value other than the row's own cell when there is one, else "-" |
| Generator.Negative | Infinity-React-UI-main/src/components/InfinityReactUI.jsx:353-364 | the row's inputs with one column changed to the first other value down that column ("-" when there is none), expecting "No match found" |
| Generator.RowNegatives | Infinity-React-UI-main/src/components/InfinityReactUI.jsx:352-366 | one negative per input column of the row, in column order |
| Generator.NthNegative | Infinity-React-UI-main/src/components/InfinityReactUI.jsx:352-366 | the n-th negative overall is the negative of row n div InCount at column n mod InCount |
| Generator.NegativesUpToLayout | Infinity-React-UI-main/src/components/InfinityReactUI.jsx:352-366 | the negatives of the first k rows are exactly the first k·InCount negatives |
| Generator.Negatives | Infinity-React-UI-main/src/components/InfinityReactUI.jsx:354 | the first min(rows × inputs, cap) negatives in row-then-column order |
| Generator.CollectNegatives | Infinity-React-UI-main/src/components/InfinityReactUI.jsx:352-366 | the nested loops, which stop as soon as the cap is reached, yield exactly those negatives |
| Generator.CollectRow | Infinity-React-UI-main/src/components/InfinityReactUI.jsx:354-365 | the inner loop over a row's input columns extends the capped prefix by that row's negatives |
| Generator.AppendBelowCap | Infinity-React-UI-main/src/components/InfinityReactUI.jsx:354-365 | appending a row's items one at a time while fewer than the cap are kept turns the capped prefix of what came before into the capped prefix of it followed by the row |
| Generator.GenerateTestSuite | Infinity-React-UI-main/src/components/InfinityReactUI.jsx:325-371 | with no rows or no columns the cases are kept; otherwise one positive per row, then negatives expecting "No match found", min(rows × inputs, rows × maxNegativesPerRule) of them, none when the cap is not positive; the cases after the positives are exactly `Negatives`; nothing is run yet |
| Generator.GeneratedInputsFit | Infinity-React-UI-main/src/components/InfinityReactUI.jsx:339 | with rows wide enough, every generated case has one input per input column |
| Generator.PositivePasses | Infinity-React-UI-main/src/components/InfinityReactUI.jsx:338-342 | a positive case matches its own row when no earlier row has the same inputs, and never fails |
| Generator.MatchMeansSameInputs | Infinity-React-UI-main/src/components/InfinityReactUI.jsx:306-308 | a case matches a row exactly when the row's input cells are the case's inputs |
| Cursor.NextCell | Infinity-React-UI-main/src/components/InfinityReactUI.jsx:251-267 | arrows and Tab move one cell in their direction, stop at the table's edge, and leave the other coordinate alone; other keys stay put |
| Cursor.NextCellStaysInside | Infinity-React-UI-main/src/components/InfinityReactUI.jsx:254-266 | a cell inside the table stays inside the table |
| Cursor.NextCellInverse | Infinity-React-UI-main/src/components/InfinityReactUI.jsx:254-264 | away from the edge, Shift+Tab undoes Tab and ArrowUp undoes ArrowDown |
| Editor.View | Infinity-React-UI-main/src/components/InfinityReactUI.jsx:58-60 | the shown rows have the stored rows' shape and no lower-case letter in a Boolean column |
| Editor.ViewOfCanonical | Infinity-React-UI-main/src/components/InfinityReactUI.jsx:60 | already-normalised rows are shown as stored |
| Editor.InitialTable | Infinity-React-UI-main/src/components/InfinityReactUI.jsx:40-43 | the editor without properties: two columns with the output last and one row |
| Editor.DefaultColumnsOutputLast | Infinity-React-UI-main/src/components/InfinityReactUI.jsx:40-43 | the default columns have their output column last |
| Editor.DefaultConditionNotOutput | Infinity-React-UI-main/src/components/InfinityReactUI.jsx:41 | "Condition 1" is not an output name |
| Editor.InitialWellFormed | Infinity-React-UI-main/src/components/InfinityReactUI.jsx:40-65 | the default table is well formed: output last, one cell per column in every row, one input per input column in every case |
| Editor.ColumnsEffect | Infinity-React-UI-main/src/components/InfinityReactUI.jsx:188-190 | the column effect realigns the test cases against the current columns and touches nothing else |
| Editor.SetColumns | Infinity-React-UI-main/src/components/InfinityReactUI.jsx:150-156 | the new columns with the output moved last; each row keeps its width; the cases get one input per new input column |
| Editor.WidenRows | Infinity-React-UI-main/src/components/InfinityReactUI.jsx:229-233 | every row is one cell wider, with '' inserted at the insertion point |
| Editor.AddedColumns | Infinity-React-UI-main/src/components/InfinityReactUI.jsx:219-227 | the columns plus the new one; when the output was last, it stays last |
| Editor.AddColumnRows | Infinity-React-UI-main/src/components/InfinityReactUI.jsx:228-233 | every stored row is one cell wider |
| Editor.AddColumnCells | Infinity-React-UI-main/src/components/InfinityReactUI.jsx:220-233 | on a well-formed table, every row after addColumn is the shown row with an empty cell inserted at the new column's index |
| Editor.AddColumnRowCells | Infinity-React-UI-main/src/components/InfinityReactUI.jsx:228-233 | one row of the above |
| Editor.InsertedRowCells | Infinity-React-UI-main/src/components/InfinityReactUI.jsx:228-233 | cell by cell: normalising a row under the widened columns, inserting the empty cell and normalising again gives the shown row with the empty cell at the slot; cells before the slot are the shown ones and the cell after it is the shown output cell |
| Editor.AddColumnColumns | Infinity-React-UI-main/src/components/InfinityReactUI.jsx:228 | the columns plus the new one; when the output was last, the new column goes just before it |
| Editor.AddColumn | Infinity-React-UI-main/src/components/InfinityReactUI.jsx:217-234 | the new "Condition n+1" column is added, just before a last output column |
| Editor.AddColumnShape | Infinity-React-UI-main/src/components/InfinityReactUI.jsx:217-234 | the number of rows and cases is kept, and every row is one cell wider; on a well-formed table, each row is the shown row with an empty cell at the new column's index |
| Editor.AddColumnIsSetColumns | Infinity-React-UI-main/src/components/InfinityReactUI.jsx:228-233 | addColumn is setColumns on the extended list, then the widening of the rows and the column effect |
| Editor.RemainingColumns | Infinity-React-UI-main/src/components/InfinityReactUI.jsx:236 | the column at the index goes; an index outside keeps every column; a last output column stays last |
| Editor.RowsWithout | Infinity-React-UI-main/src/components/InfinityReactUI.jsx:237 | every row loses its cell at the index |
| Editor.RemoveColumn | Infinity-React-UI-main/src/components/InfinityReactUI.jsx:235-238 | the column and every shown row's cell at that position go; an index outside removes no column; a last output column stays last; the cases stay |
| Editor.WithField | Infinity-React-UI-main/src/components/InfinityReactUI.jsx:276 | `{...col, [field]: value}` changes only the named field |
| Editor.UpdatedColumns | Infinity-React-UI-main/src/components/InfinityReactUI.jsx:275-277 | only the column at the index changes |
| Editor.UpdateColumn | Infinity-React-UI-main/src/components/InfinityReactUI.jsx:274-279 | the edited columns with the output moved last; rows keep their shape and the cases stay |
| Editor.AddRow | Infinity-React-UI-main/src/components/InfinityReactUI.jsx:239-241 | a row of '' cells, one per column, is appended to the shown rows; columns and cases stay |
| Editor.RemoveRow | Infinity-React-UI-main/src/components/InfinityReactUI.jsx:242-244 | the row at the index goes and the others keep their order; an index out of range removes nothing |
| Editor.UpdateCell | Infinity-React-UI-main/src/components/InfinityReactUI.jsx:245-250 | the stored rows become the shown rows with only the addressed cell replaced; an address outside changes no cell |
| Editor.UpdateCellView | Infinity-React-UI-main/src/components/InfinityReactUI.jsx:245-250 | the edited cell shows the new value, upper-cased under a Boolean column |
| Editor.OnDragEnd | Infinity-React-UI-main/src/components/InfinityReactUI.jsx:282-291 | no move changes nothing; otherwise the shown rows are a permutation, and the dragged row lands at the destination, or last when the destination is past the end; taking it out again leaves the other rows in their old order |
| Editor.RunSuite | Infinity-React-UI-main/src/components/InfinityReactUI.jsx:303-317 | every case is run against the shown rows |
| Editor.AddTestCase | Infinity-React-UI-main/src/components/InfinityReactUI.jsx:320-322 | a blank case with one '' input per input column, an empty expected value, no result, status, description, source row or matched row, is appended after the unchanged cases |
| Editor.GenerateSuite | Infinity-React-UI-main/src/components/InfinityReactUI.jsx:325-371 | with rows and columns, the suite starts with one positive case per shown row, followed by exactly the capped negatives of the shown rows (none when the cap is not positive); otherwise nothing changes |
| Editor.UpdateTestCase | Infinity-React-UI-main/src/components/InfinityReactUI.jsx:374-384 | only the addressed case changes: one input, or one named field |
| Editor.RemoveTestCase | Infinity-React-UI-main/src/components/InfinityReactUI.jsx:387-389 | the case at the index goes; an index outside changes nothing |
| Editor.WellFormedAllowsGenerate | Infinity-React-UI-main/src/components/InfinityReactUI.jsx:339 | rows of a well-formed table are wide enough to generate from |
| Editor.ApplyKeepsWellFormed | Infinity-React-UI-main/src/components/InfinityReactUI.jsx:217-389 | every handler keeps the table well formed (output last, rows one cell per column, cases one input per input column); a rename keeps it when it names no second output column |
| Conversion.ParsedToTable | Infinity-React-UI-main/src/components/InfinityReactUI.jsx:952-966 | one String/Equals column per input label and per output name; one row per rule, its inputs then its outputs; a single blank row when there are no rules |
| Conversion.FullRulesFit | Infinity-React-UI-main/src/components/InfinityReactUI.jsx:957-964 | rules with one entry per column give rows as wide as the columns |
| Conversion.RuleRowMatchesItsInputs | Infinity-React-UI-main/src/components/InfinityReactUI.jsx:952-966 | with one output and distinct input labels that are not output names, the runner matches a rule's row against a case holding that rule's input entries |
| Conversion.ParsedInputColumns | Infinity-React-UI-main/src/components/InfinityReactUI.jsx:952-966 | the runner's input columns of such a converted table are its input columns in order |
| Conversion.LabelFoundAtItsPosition | Infinity-React-UI-main/src/components/InfinityReactUI.jsx:952-966 | with distinct labels, looking an input label up by name finds that input's own column |
| Conversion.NoRulesOneBlankRow | Infinity-React-UI-main/src/components/InfinityReactUI.jsx:966 | a table with no rules gets one row of '' cells |
| Save.ResponseBody | InfinityPROD_AUTHORIZATION_CSBD_DMN/src/main/java/com/infinity/controller/DecisionController.java:562-592 | the service answers a failed build with status "build_failed" and the builder's messages under `errors`, a failed rebuild with "rebuild_failed", an update with "ok"; the body never has a `build_failed` key |
| Save.Respond | Infinity-React-UI-main/src/services/droolsApi.js:68-79 | the request is answered exactly when the service returns a status; the body is that status's response |
| Save.RejectedView | Infinity-React-UI-main/src/components/InfinityReactUI.jsx:1013-1018 | a rejected save shows the error's message, or "Save failed", and shows the error data when there is any |
| Save.SaveAsWritten | Infinity-React-UI-main/src/components/InfinityReactUI.jsx:991-1022 | an answered save reports a failure exactly when the body has a truthy `build_failed` key; otherwise it says "Saved successfully", clears the errors and reloads |
| Save.BuildFailureShownAsSaved | Infinity-React-UI-main/src/components/InfinityReactUI.jsx:995-1002 | an update whose rebuild has error messages is answered as "build_failed", and the editor as written reports it "Saved successfully" |
| Save.SaveCorrected | Infinity-React-UI-main/src/components/InfinityReactUI.jsx:996-1003 | reading `status`: only "ok" counts as saved and reloads; "build_failed" shows the build-failure message and does not reload |
| Save.CorrectedSaveReportsFailures | Infinity-React-UI-main/src/components/InfinityReactUI.jsx:996-1003 | with the status read, a save is reported as saved exactly when the service updated the table, and a failed build shows the builder's messages |
| Graph.RemoveNode | Infinity-React-UI-main/src/components/InfinityReactUI.jsx:683-687 | the node and every edge touching it go; every other node and edge stays, every copy of it, in its old order; the selection is cleared |
| Graph.StartConnecting | Infinity-React-UI-main/src/components/InfinityReactUI.jsx:690-692 | only the pending connection changes |
| Graph.FinishConnecting | Infinity-React-UI-main/src/components/InfinityReactUI.jsx:694-699 | an edge from the start node is appended only when a connection is pending from another node (id 0 counts as none); the pending connection is dropped either way |
| Graph.RemoveNodeKeepsClosed | Infinity-React-UI-main/src/components/InfinityReactUI.jsx:683-687 | removing a node leaves no dangling edge |
| Graph.EditsKeepNoSelfLoops | Infinity-React-UI-main/src/components/InfinityReactUI.jsx:683-699 | no edit introduces a self-loop |
| Graph.FinishOnStartAddsNothing | Infinity-React-UI-main/src/components/InfinityReactUI.jsx:694-699 | finishing on the start node adds nothing |
| Graph.ConnectKeepsClosed | Infinity-React-UI-main/src/components/InfinityReactUI.jsx:690-699 | connecting two nodes of the diagram keeps every edge between nodes of the diagram |
| Workspace.ForRepoMembers | Infinity-React-UI-main/src/components/InfinityReactUI.jsx:1405 | a model is listed exactly when it is a model of that repository |
| Workspace.ActiveModel | Infinity-React-UI-main/src/components/InfinityReactUI.jsx:1446 | `modelsForRepo[activeModelIdx]`: a model of the selected repository when the index is in range, none otherwise |
| Workspace.ResetActive | Infinity-React-UI-main/src/components/InfinityReactUI.jsx:1407-1413 | the active index is brought into range; an in-range index of a non-empty repository is kept; an empty repository gets 0 |
| Workspace.MapModels | Infinity-React-UI-main/src/components/InfinityReactUI.jsx:1417 | the i-th model becomes the update of the i-th |
| Workspace.ForRepoMap | Infinity-React-UI-main/src/components/InfinityReactUI.jsx:1417-1422 | an update that keeps every model's repository keeps each repository's list in step |
| Workspace.LogChange | Infinity-React-UI-main/src/components/InfinityReactUI.jsx:1416-1423 | the change is prepended to the log of each model it is for; nothing else changes |
| Workspace.LogChangeActiveOnly | Infinity-React-UI-main/src/components/InfinityReactUI.jsx:1418 | without broadcast and with distinct ids, only the active model's history grows |
| Workspace.LogChangeBroadcast | Infinity-React-UI-main/src/components/InfinityReactUI.jsx:1415-1419 | with broadcast, every model of the selected repository logs the change and models of other repositories stay |
| Workspace.AddModel | Infinity-React-UI-main/src/components/InfinityReactUI.jsx:1426-1441 | the new default model is appended and becomes the active model of the repository |
| Workspace.AddModelKeepsInvariants | Infinity-React-UI-main/src/components/InfinityReactUI.jsx:1428-1440 | with a fresh id, the repository's ids stay distinct and the reset effect leaves the new active index alone |
| Workspace.WithoutMembers | Infinity-React-UI-main/src/components/InfinityReactUI.jsx:1447 | a model remains exactly when it was there and has another id |
| Workspace.ForRepoWithout | Infinity-React-UI-main/src/components/InfinityReactUI.jsx:1447 | removing by id commutes with listing a repository |
| Workspace.WithoutUnique | Infinity-React-UI-main/src/components/InfinityReactUI.jsx:1447 | with distinct ids, exactly one model goes |
| Workspace.DestroyModel | Infinity-React-UI-main/src/components/InfinityReactUI.jsx:1444-1450 | nothing changes for a repository with at most one model; an out-of-range index is an error (reading `id` of undefined); otherwise the active model goes and the index steps back, not below 0 |
| Workspace.DestroyModelRemovesActive | Infinity-React-UI-main/src/components/InfinityReactUI.jsx:1444-1450 | with distinct ids, exactly the active model leaves the repository's list, which stays non-empty, and the index stays in range |
| Workspace.Merge | Infinity-React-UI-main/src/components/InfinityReactUI.jsx:1458 | `{...m, ...updated}` keeps the id, repository and history; an empty patch changes nothing |
| Workspace.UpdateModel | Infinity-React-UI-main/src/components/InfinityReactUI.jsx:1453-1462 | the patch is merged into every model with the addressed model's id; an index out of range changes nothing |
| Workspace.UpdateModelReadBack | Infinity-React-UI-main/src/components/InfinityReactUI.jsx:1453-1462 | with distinct ids, the addressed model reads back merged and every other model of the repository is unchanged |
| Workspace.AddRepo | Infinity-React-UI-main/src/components/InfinityReactUI.jsx:1588-1596 | a new non-blank trimmed name is appended and selected, the form closes and the draft clears; otherwise nothing changes |
| Workspace.AddRepoKeepsGoodNames | Infinity-React-UI-main/src/components/InfinityReactUI.jsx:1587-1591 | repository names stay distinct, non-empty and trimmed |
| Workspace.AddRepoIdempotent | Infinity-React-UI-main/src/components/InfinityReactUI.jsx:1589-1595 | adding the same draft again changes nothing |
| Suggestions.CurrentInputNames | Infinity-React-UI-main/src/components/InfinityReactUI.jsx:2057 | the names of every column but the last |
| Suggestions.RemapInputs | Infinity-React-UI-main/src/components/InfinityReactUI.jsx:2059-2068 | one input per current input name; '' for a name the suggestion lacks; with distinct suggested names, the value under that name |
| Suggestions.RemapIdentity | Infinity-React-UI-main/src/components/InfinityReactUI.jsx:2059-2068 | inputs that already follow the current names come back unchanged |
| Suggestions.Remapped | Infinity-React-UI-main/src/components/InfinityReactUI.jsx:2076-2083 | a case keeps every field but its inputs, which become one per current input column |
| Suggestions.RemapAll | Infinity-React-UI-main/src/components/InfinityReactUI.jsx:2076-2083 | every incoming case is remapped, in order |
| Suggestions.MergeCases | Infinity-React-UI-main/src/components/InfinityReactUI.jsx:2085-2089 | the existing cases then the incoming ones, keeping the first case of each input key: keys are distinct, no key is lost, and every kept case comes from the inputs |
| Suggestions.KeepFirstOfDistinct | Infinity-React-UI-main/src/components/InfinityReactUI.jsx:2085-2089 | cases whose keys are already distinct are all kept |
| Suggestions.KeepFirstKnown | Infinity-React-UI-main/src/components/InfinityReactUI.jsx:2085-2089 | an incoming case whose key is already present is dropped |
| Suggestions.MergeCasesIdempotent | Infinity-React-UI-main/src/components/InfinityReactUI.jsx:2085-2091 | merging the same suggestion twice gives what merging it once gives |
| Suggestions.MergeCasesKeepsExisting | Infinity-React-UI-main/src/components/InfinityReactUI.jsx:2085-2089 | distinct existing cases stay first and unchanged |
| Suggestions.NewColumns | Infinity-React-UI-main/src/components/InfinityReactUI.jsx:2125-2127 | exactly the suggested columns whose names the table lacks |
| Suggestions.SpliceColumns | Infinity-React-UI-main/src/components/InfinityReactUI.jsx:2129-2138 | the new columns are inserted before the output column, or appended without one |
| Suggestions.MergeColumns | Infinity-React-UI-main/src/components/InfinityReactUI.jsx:2123-2148 | the existing columns plus the new ones, every existing column kept and every suggested name present |
| Suggestions.MergeColumnsKnown | Infinity-React-UI-main/src/components/InfinityReactUI.jsx:2123-2148 | suggesting only known columns leaves a table with its output last unchanged |
| Suggestions.MergeColumnsOutputLast | Infinity-React-UI-main/src/components/InfinityReactUI.jsx:2139-2148 | with at most one output-named column after splicing, the merged header ends with it |
| Suggestions.SuggestedOutputDemotes | Infinity-React-UI-main/src/components/InfinityReactUI.jsx:2123-2148 | a suggested output column added to a table that has one becomes an input column |
| Suggestions.SuggestedRow | Infinity-React-UI-main/src/components/InfinityReactUI.jsx:2157-2160 | each merged column takes, when the suggested names are distinct, the suggested row's cell for its name; '' when the suggestion lacks the column |
| Suggestions.SuggestedRows | Infinity-React-UI-main/src/components/InfinityReactUI.jsx:2154-2161 | every suggested row is realigned, in order |
| Suggestions.SuggestedRowSameHeader | Infinity-React-UI-main/src/components/InfinityReactUI.jsx:2151-2160 | under the suggested header itself, a row at least as wide keeps its leading cells |
| Suggestions.PadRow | Infinity-React-UI-main/src/components/InfinityReactUI.jsx:2165-2166 | a short row is padded with '' to the width; a wide row is kept |
| Suggestions.PadRows | Infinity-React-UI-main/src/components/InfinityReactUI.jsx:2164-2167 | every row is padded, in order |
| Suggestions.PadRowsIdempotent | Infinity-React-UI-main/src/components/InfinityReactUI.jsx:2164-2167 | padding twice is padding once |
| Suggestions.PadRowsFit | Infinity-React-UI-main/src/components/InfinityReactUI.jsx:2164-2167 | padded rows are at least as wide as the columns |
| Suggestions.SuggestionPatch | Infinity-React-UI-main/src/components/InfinityReactUI.jsx:2070-2169 | a suggestion never sets the title or the diagram; a value no branch accepts, an empty case list, or a table edit without columns, patches nothing |
| Suggestions.ApplySuggestion | Infinity-React-UI-main/src/components/InfinityReactUI.jsx:2047-2172 | a falsy or unparsable suggestion changes nothing; any other one, even one no branch accepts, fails reading the columns of a missing active model; otherwise the patch is merged into the active model, and a value no branch accepts leaves the state as it was |
| Suggestions.EmptyPatchChangesNothing | Infinity-React-UI-main/src/components/InfinityReactUI.jsx:1453-1462 | merging an empty patch leaves the models as they were |
| Suggestions.ApplyCasesTwice | Infinity-React-UI-main/src/components/InfinityReactUI.jsx:2070-2091 | applying the same test-case suggestion twice gives what applying it once gives |
| Suggestions.UpdateModelKeepsDistinct | Infinity-React-UI-main/src/components/InfinityReactUI.jsx:1453-1462 | a patch without an id keeps model ids distinct |
| Suggestions.ApplyColumnsPadsRows | Infinity-React-UI-main/src/components/InfinityReactUI.jsx:2162-2168 | a column suggestion without rows, on a rectangular table, leaves every row as wide as the merged columns |
| Scenarios.SeedTableMatch | Infinity-React-UI-main/src/components/InfinityReactUI.jsx:1232-1241 | on the seed table, inputs ['Y', 'TRUE'] match the first rule and pass |
| Scenarios.SeedTableDashIsLiteral | Infinity-React-UI-main/src/components/InfinityReactUI.jsx:1232-1251 | on the seed rules ['Y', ...] and ['-', ...], inputs ['N', ...] match nothing and fail with "No match found", even when they expect the '-' rule's result |
| Scenarios.NoRowMatchFails | Infinity-React-UI-main/src/components/InfinityReactUI.jsx:306-312 | when neither of two rules matches, the case has no matched row, its result is "No match found" and it fails whenever it expects some other value |
| Scenarios.FirstInputMismatch | Infinity-React-UI-main/src/components/InfinityReactUI.jsx:306-308 | a row whose first cell differs from the first input matches no such case |
| Scenarios.RenameKeepsRows | Infinity-React-UI-main/src/components/InfinityReactUI.jsx:150-156 | a rename rewrites no cell when no column is Boolean-typed |
| Scenarios.RenameToOutputMisaligns | Infinity-React-UI-main/src/components/InfinityReactUI.jsx:274-279 | renaming the first input column of the seed shape to an output name moves its header last while the rows stay put |
| Scenarios.OutputColumnIndex | Infinity-React-UI-main/src/components/InfinityReactUI.jsx:296-300 | the output index is -1 exactly for no columns, else the last index, which holds an output column when there is one |
| Api.NamePart | Infinity-React-UI-main/src/services/droolsApi.js:31 | `s.split('::')[0]`: the prefix of `s` before its first "::", or all of `s` when it has none |
| Api.NormalizeModelId | Infinity-React-UI-main/src/services/droolsApi.js:28-33 | falsy and non-string ids pass through; a string keeps what precedes its first "::" |
| Api.NormalizeIdempotent | Infinity-React-UI-main/src/services/droolsApi.js:28-33 | normalising twice is normalising once |
| Api.NormalizeComposite | Infinity-React-UI-main/src/services/droolsApi.js:26-33 | a `name::namespace` id normalises to the name when the name holds no "::" and does not end in ':' |
| Api.NormalizeCompositeColon | Infinity-React-UI-main/src/services/droolsApi.js:31 | a name ending in ':' loses that character: "a:" in namespace "ns" normalises to "a" |
| Api.UpdatePayload | Infinity-React-UI-main/src/services/droolsApi.js:71-72 | the XML always, and the test cases only when they are not `undefined` |
| Api.SentBody | Infinity-React-UI-main/src/services/droolsApi.js:73 | serialisation drops every key whose value is `undefined` |
| Dmn.Descendants | InfinityPROD_AUTHORIZATION_CSBD_DMN/src/main/java/com/infinity/controller/DecisionController.java:302 | every element returned carries the asked tag |
| Dmn.FirstBelow | InfinityPROD_AUTHORIZATION_CSBD_DMN/src/main/java/com/infinity/controller/DecisionController.java:308-309 | the first element below with that tag, present exactly when there is one |
| Dmn.HoldingChild | InfinityPROD_AUTHORIZATION_CSBD_DMN/src/main/java/com/infinity/controller/DecisionController.java:450-454 | the first child of the node that is or holds an element with that tag; every earlier child holds none |
| Dmn.DescendantsOfSkip | InfinityPROD_AUTHORIZATION_CSBD_DMN/src/main/java/com/infinity/controller/DecisionController.java:450 | children holding no element of the tag add nothing to `getElementsByTagNameNS`, which starts at the first child that does |
| Dmn.FirstBelowLiesInHoldingChild | InfinityPROD_AUTHORIZATION_CSBD_DMN/src/main/java/com/infinity/controller/DecisionController.java:450-452 | `item(0)` exists exactly when some child holds the tag; it is that child when the child has the tag, and otherwise the first such element inside that child, so not a child of the node |
| Controller.SelectModel | InfinityPROD_AUTHORIZATION_CSBD_DMN/src/main/java/com/infinity/controller/DecisionController.java:33-55 | a null or empty model list is an error; otherwise the first model named "quickwins" or in namespace "dmnRules" (ignoring case), else the first model |
| Controller.ReadableStep | InfinityPROD_AUTHORIZATION_CSBD_DMN/src/main/java/com/infinity/controller/DecisionController.java:85-127 | a resource that fails to parse is skipped and a readable one adds its model |
| Controller.ListModels | InfinityPROD_AUTHORIZATION_CSBD_DMN/src/main/java/com/infinity/controller/DecisionController.java:77-134 | the readable models in resource order, keeping the first of each `name::namespace` key; keys are distinct and none is lost |
| Controller.KeyCollision | InfinityPROD_AUTHORIZATION_CSBD_DMN/src/main/java/com/infinity/controller/DecisionController.java:118-124 | model "a::b" in namespace "c" hides model "a" in namespace "b::c" |
| Controller.FindDecision | InfinityPROD_AUTHORIZATION_CSBD_DMN/src/main/java/com/infinity/controller/DecisionController.java:302-306 | the first decision whose name matches ignoring case; none exactly when no decision matches |
| Controller.LocateDecision | InfinityPROD_AUTHORIZATION_CSBD_DMN/src/main/java/com/infinity/controller/DecisionController.java:291-306 | the first readable document of the model that holds the decision supplies it; a model without it does not stop the search |
| Controller.ListDecisionTables | InfinityPROD_AUTHORIZATION_CSBD_DMN/src/main/java/com/infinity/controller/DecisionController.java:248-284 | every decision of the first document of that model, with whether it holds a table; "Model not found", wrapped in a RuntimeException (282), without one |
| Controller.ListedTablesFetchable | InfinityPROD_AUTHORIZATION_CSBD_DMN/src/main/java/com/infinity/controller/DecisionController.java:264-306 | every listed decision can be fetched by its name |
| Controller.FirstNonEmpty | InfinityPROD_AUTHORIZATION_CSBD_DMN/src/main/java/com/infinity/controller/DecisionController.java:333-360 | the first non-empty candidate; "" exactly when all are empty |
| Controller.FirstNonEmptyAt | InfinityPROD_AUTHORIZATION_CSBD_DMN/src/main/java/com/infinity/controller/DecisionController.java:333-360 | the candidate after only empty ones is the one chosen |
| Controller.InputLabel | InfinityPROD_AUTHORIZATION_CSBD_DMN/src/main/java/com/infinity/controller/DecisionController.java:333-361 | the label attribute, else the expression text, else the name, else the variable's name, else "" |
| Controller.NamedInputHasLabel | InfinityPROD_AUTHORIZATION_CSBD_DMN/src/main/java/com/infinity/controller/DecisionController.java:348-352 | an input with a name always gets a non-empty label |
| Controller.EntryTexts | InfinityPROD_AUTHORIZATION_CSBD_DMN/src/main/java/com/infinity/controller/DecisionController.java:377-385 | one text per entry, in order: the entry's text content, trimmed |
| Controller.ParseTable | InfinityPROD_AUTHORIZATION_CSBD_DMN/src/main/java/com/infinity/controller/DecisionController.java:329-390 | in document order: each input's label by the fallback chain of `InputLabel`, each output's name attribute, and for each rule its input and output entries' trimmed texts |
| Controller.GetDecisionTable | InfinityPROD_AUTHORIZATION_CSBD_DMN/src/main/java/com/infinity/controller/DecisionController.java:287-411 | "Decision not found", wrapped in a RuntimeException (409), exactly when no document hosts the decision; otherwise its name, its first decision table and that table's parsed form, neither without a table |
| Controller.ItemDefs | InfinityPROD_AUTHORIZATION_CSBD_DMN/src/main/java/com/infinity/controller/DecisionController.java:154-162 | every named item definition is present under its name, and unnamed ones are left out |
| Controller.ItemDefsLast | InfinityPROD_AUTHORIZATION_CSBD_DMN/src/main/java/com/infinity/controller/DecisionController.java:156-161 | of several definitions with one name, the last one counts |
| Controller.ResolveType | InfinityPROD_AUTHORIZATION_CSBD_DMN/src/main/java/com/infinity/controller/DecisionController.java:165-207 | a missing type is "string", an unknown type stands for itself, and an item definition expands into one field per component |
| Controller.ResolveField | InfinityPROD_AUTHORIZATION_CSBD_DMN/src/main/java/com/infinity/controller/DecisionController.java:176-196 | a field's name, its `isCollection` flag ("true" ignoring case), its type ("string" when missing) and a nested schema exactly for item-definition types |
| Controller.ResolveFields | InfinityPROD_AUTHORIZATION_CSBD_DMN/src/main/java/com/infinity/controller/DecisionController.java:175-198 | the fields of every component, in order; the stack overflows exactly when one of them does |
| Controller.TypeFuelMono | InfinityPROD_AUTHORIZATION_CSBD_DMN/src/main/java/com/infinity/controller/DecisionController.java:165-207 | a deeper stack never changes a schema that resolved |
| Controller.SelfReferenceOverflows | InfinityPROD_AUTHORIZATION_CSBD_DMN/src/main/java/com/infinity/controller/DecisionController.java:189-192 | a definition with a component of its own type never resolves |
| Controller.InputSchemas | InfinityPROD_AUTHORIZATION_CSBD_DMN/src/main/java/com/infinity/controller/DecisionController.java:211-228 | each input's name, its variable's type and that type's expansion; an overflow in any one fails all of them |
| Controller.GetModelSchema | InfinityPROD_AUTHORIZATION_CSBD_DMN/src/main/java/com/infinity/controller/DecisionController.java:137-244 | "Model not found", wrapped in a RuntimeException (243), exactly when no readable document is of the model; otherwise the first such document decides: an unwrapped StackOverflowError exactly when expanding its inputs overflows, else its name, its namespace and its inputs expanded against its own item definitions |
| Controller.SchemaInputsFollowDocument | InfinityPROD_AUTHORIZATION_CSBD_DMN/src/main/java/com/infinity/controller/DecisionController.java:214-235 | the schema lists the inputData elements of the first document of the model in document order, each with its name and its variable's typeRef |
| Controller.UnderResources | InfinityPROD_AUTHORIZATION_CSBD_DMN/src/main/java/com/infinity/controller/DecisionController.java:555 | the path always starts with "src/main/resources/" and is only prefixed when it did not |
| Controller.UnderResourcesIdempotent | InfinityPROD_AUTHORIZATION_CSBD_DMN/src/main/java/com/infinity/controller/DecisionController.java:555 | prefixing twice is prefixing once |
| Controller.WritePath | InfinityPROD_AUTHORIZATION_CSBD_DMN/src/main/java/com/infinity/controller/DecisionController.java:545-556 | the part of the URI after "src/main/resources/", under that directory; the file name under it when the URI is missing, lacks the marker, or ends too soon for the substring (the exception is caught) |
| Controller.WritePathKeepsSuffix | InfinityPROD_AUTHORIZATION_CSBD_DMN/src/main/java/com/infinity/controller/DecisionController.java:545-556 | a write path is already under the resources directory and ends with the part of the URI after the marker |
| Controller.UpdateDecisionTable | InfinityPROD_AUTHORIZATION_CSBD_DMN/src/main/java/com/infinity/controller/DecisionController.java:414-598 | no XML is refused (unwrapped, 419); an unparsable table, or no readable document of the model whose first matching decision either has no table below it or has its first table as a direct child, gives "Decision not found to update" wrapped in a RuntimeException (596), and the update happens exactly otherwise; the status is "build_failed" exactly for error messages, carrying every message on its own line, "rebuild_failed" exactly for a thrown rebuild, carrying its message, and "ok" with the model and decision names |
| Controller.Lines | InfinityPROD_AUTHORIZATION_CSBD_DMN/src/main/java/com/infinity/controller/DecisionController.java:564-565 | the messages joined, each followed by a newline: empty exactly for no messages, else ending in a newline |
| Controller.LocatedReplaceableIsUpdated | InfinityPROD_AUTHORIZATION_CSBD_DMN/src/main/java/com/infinity/controller/DecisionController.java:425-461 | when the first document hosting the decision has a replaceable table, the update goes ahead |
| Controller.NestedTableNotUpdated | InfinityPROD_AUTHORIZATION_CSBD_DMN/src/main/java/com/infinity/controller/DecisionController.java:450-469 | a decision whose table sits inside a context entry is found by the read endpoints, but `replaceChild` fails on it and the update answers "Decision not found to update" |
| Controller.UndefinedXmlRefused | InfinityPROD_AUTHORIZATION_CSBD_DMN/src/main/java/com/infinity/controller/DecisionController.java:417-419 | a client call with undefined XML is refused before any lookup |
| Form.Kind | Infinity-React-UI-main/src/components/DecisionForm.jsx:9-49 | a sub-form exactly when the schema has a field list; a list input for a collection schema; a plain input otherwise |
| Form.ResolvedKind | Infinity-React-UI-main/src/components/DecisionForm.jsx:9 | an expanded type is drawn as a sub-form exactly when it is an item definition; a missing type as a plain input |
| Form.ChildSchema | Infinity-React-UI-main/src/components/DecisionForm.jsx:17 | as written: a field without an expanded schema is drawn from `{type}` alone, dropping `isCollection` |
| Form.CollectionFieldDrawnPlain | Infinity-React-UI-main/src/components/DecisionForm.jsx:17 | a string field the service marks as a collection is drawn as a plain input |
| Form.ChildSchemaKeepingCollection | Infinity-React-UI-main/src/components/DecisionForm.jsx:17 | the field's own collection flag is kept when it has no expanded schema |
| Form.KeptCollectionDrawnAsList | Infinity-React-UI-main/src/components/DecisionForm.jsx:31 | with the flag kept, such a field is drawn as a list input, and unmarked fields are drawn as before |
| Form.CollectionText | Infinity-React-UI-main/src/components/DecisionForm.jsx:32 | an array is shown joined with ','; a falsy value as '' |
| Form.ScalarText | Infinity-React-UI-main/src/components/DecisionForm.jsx:46 | null and undefined are shown as '', a string as itself |
| Form.ParseList | Infinity-React-UI-main/src/components/DecisionForm.jsx:37 | an empty text gives []; otherwise the comma-separated pieces, each trimmed |
| Form.ParseListOfJoin | Infinity-React-UI-main/src/components/DecisionForm.jsx:32-37 | a list of items without commas or surrounding blanks comes back from its shown text, unless it is [""] |
| Form.ParseListLosesEmptyItem | Infinity-React-UI-main/src/components/DecisionForm.jsx:32-37 | the list [""] comes back as [] |
| Form.ShowParsedText | Infinity-React-UI-main/src/components/DecisionForm.jsx:32-37 | a text whose pieces have no surrounding blanks is shown again as typed |
| Form.IndexEntries | Infinity-React-UI-main/src/components/DecisionForm.jsx:19 | an array-like value spreads its items under the keys "0", "1", ... and nothing else |
| Form.SpreadBase | Infinity-React-UI-main/src/components/DecisionForm.jsx:19 | the spread of the value: nothing for a falsy value, an object's own entries, a string's characters or an array's items under their indices |
| Form.EditField | Infinity-React-UI-main/src/components/DecisionForm.jsx:19 | the spread value with only the edited entry replaced; a falsy value gives an object with that entry alone |
| Form.FieldValue | Infinity-React-UI-main/src/components/DecisionForm.jsx:17 | undefined for a falsy value; an object's entry, or undefined when it has none |
| Form.EditThenRead | Infinity-React-UI-main/src/components/DecisionForm.jsx:18-19 | a sub-field shows what was entered in it and every other sub-field keeps its value |
| Form.DefaultModel | Infinity-React-UI-main/src/components/DecisionForm.jsx:64-67 | the first quickwins model, else the first model, else none |
| Form.QuickwinsPreferred | Infinity-React-UI-main/src/components/DecisionForm.jsx:65 | a model the form selects by name is one the evaluation endpoint prefers too |
| Form.InitialData | Infinity-React-UI-main/src/components/DecisionForm.jsx:82-86 | every top-level input name maps to an empty object; no inputs give no data |
| Form.PresetsFor | Infinity-React-UI-main/src/components/DecisionForm.jsx:168-192 | two presets for "quickwins" in any case and none for any other name; each payload is an object under "Data" |
| Form.PresetsIgnoreCase | Infinity-React-UI-main/src/components/DecisionForm.jsx:170 | two names equal once lower-cased get the same presets |
| Form.SelectedModelHasPresets | Infinity-React-UI-main/src/components/DecisionForm.jsx:64-67 | when the list holds a quickwins model, the model selected first is offered both presets |

## Left out

- Rendering, React state hooks, effects other than the column effect, and the prop synchronisation at InfinityReactUI.jsx:159-186 are not modelled. Each handler is modelled as a function from the state it reads to the state it sets.
- The HTTP requests (axios), `alert`, focus through `setTimeout`, `console` logging and browser storage are I/O. The client's effect is modelled as the body it sends and the response it receives.
- `Date.now()` and `Math.random()` are modelled as parameters:
  - the id of a new model is a parameter;
  - diagram node ids, which the source builds from both as floats, are integers here;
  - adding a node with a random position (InfinityReactUI.jsx:669-680) is not modelled.
- Canvas geometry, dragging a node and editing its properties (InfinityReactUI.jsx:702-709), and saving the diagram or table are not modelled; they are layout and I/O.
- The change-log entries are opaque values. The snapshot they hold is not modelled.
- Case mapping (`toLowerCase`, `toUpperCase`, `equalsIgnoreCase`) is ASCII only; the source maps all of Unicode.
- Cells are strings. Non-string cells other than `true`/`false` under a Boolean column are not modelled, and neither are NaN and floating-point numbers.
- Parsing a suggestion into its cases is not modelled; a `testCases` value that is a single object is taken as a batch of one, as the source wraps it in an array (InfinityReactUI.jsx:2072).
- Parsing and serialising JSON and XML are not modelled:
  - a DMN document that fails to parse is `None`;
  - whether a new table's XML parses is a parameter of the update;
  - a decision table's XML text is its element.
- Building the KIE module, writing the table back to the source file, the backup and the sidecar files, and swapping the controller's container (DecisionController.java:420-560) are I/O. The rebuild's outcome is a parameter; only the file path it writes to is modelled.
- Concurrent requests are not modelled.
- The DMN evaluation in `evaluate` (DecisionController.java:57-74) is not modelled; it runs the KIE engine. Only the choice of model is modelled.
- The form's submission (DecisionForm.jsx:94-105) is a request and its display.
- Form.FieldValue: a string's or an array's `length` and other inherited properties, and the keys of a number or a boolean, read as undefined here; only index keys and own entries are modelled. A number or a boolean is not a form value.
- `getModelSchema` in the client (droolsApi.js:36-44) does not normalise the model id. It adds nothing beyond the request.
- The rule editor's loading flows other than the conversion of the parsed table, and its mock data, are not modelled. The save does not send test cases (InfinityReactUI.jsx:995); that is covered by `Api.UpdatePayload`.
- Controller.ResolveType: the source recursion is unbounded; `fuel` stands for the stack depth, and `None` is the StackOverflowError. That error escapes the per-resource catch because it is not an `Exception`.
- Suggestions.SuggestedRow: a suggested row shorter than the suggestion's columns reads `undefined` in the source; the model gives ''.
- Suggestions.SuggestionPatch: requires a suggestion that reaches the branches. `Suggestions.ApplySuggestion` covers the dropped ones (a falsy value, or JSON text that does not parse), which change nothing even without an active model. A truthy value no branch accepts is `Inert` and reads the active model first. An empty array is `CaseList([])` and an object with only `rows` is a `TableEdit` without columns; both patch nothing.
- Generator.GenerateTestSuite: requires rows at least as wide as the input columns when negatives are asked for. Shorter rows give arrays with holes in the source.
- Editor.GenerateSuite: requires the same, which every well-formed table meets (`Editor.WellFormedAllowsGenerate`).
- Editor.UpdateTestCase: requires the input index of an input edit to be within the case's inputs. A larger index would grow the array with holes.
- Editor.OnDragEnd: requires a source index within the rows, as the drag library supplies.
- Save.AnsweredAlwaysSaved: the Findings exhibit for any service answer; Dafny proves it from the definitions alone.

## Findings

| source | as written | input that shows it | evidently intended | confidence | as-written member | corrected member |
|---|---|---|---|---|---|---|
| Infinity-React-UI-main/src/components/InfinityReactUI.jsx:998 | a failed build is detected by a truthy `build_failed` key, but the service reports it as `status: "build_failed"` with the messages under `errors` (DecisionController.java:568-571) | an update whose KIE build has error messages: the editor says "Saved successfully", clears the errors and reloads | read `status`: "build_failed" shows "Build failed" with `errors`, and only "ok" counts as saved | not executed | Save.BuildFailureShownAsSaved | Save.CorrectedSaveReportsFailures |
| Infinity-React-UI-main/src/components/DecisionForm.jsx:17 | a field without a nested schema is drawn from `{ type: f.type }`, losing the `isCollection` the service sets (DecisionController.java:188) | field `modifierCode` with `isCollection: true` and type "string": drawn as a plain input, so its value is sent as one string, not a list | keep the field's `isCollection` in the schema it is drawn from | not executed | Form.CollectionFieldDrawnPlain | Form.KeptCollectionDrawnAsList |

=== FILE: api.dfy ===
/** The decision-service client (droolsApi): the model-id normalisation every
    table request applies, and the body of the table-update request. */
module Api {
  import opened Base
  import opened Text

  /** A JavaScript value as the client passes it on; numbers are integers here. */
  datatype JsValue = JsUndefined | JsNull | JsBool(b: bool) | JsNumber(n: int) | JsString(s: string)

  /** JavaScript truthiness (NaN is not modelled). */
  predicate Truthy(v: JsValue)
  {
    match v
    case JsUndefined => false
    case JsNull => false
    case JsBool(b) => b
    case JsNumber(n) => n != 0
    case JsString(s) => s != ""
  }

  /** The separator of a composite `name::namespace` model id. */
  const Separator: string := "::"

  /** A composite id as the model picker builds it. */
  function CompositeId(name: string, namespace: string): string
  {
    name + Separator + namespace
  }

  /** `s.split('::')[0]`: the prefix of `s` before its first separator, or
      all of `s` when it has none. */
  function NamePart(s: string): (r: string)
    ensures StartsWith(s, r)
    ensures !Contains(r, Separator)
    ensures forall j :: 0 <= j < |r| ==> !StartsWith(s[j..], Separator)
    ensures r == s || StartsWith(s[|r|..], Separator)
    ensures !Contains(s, Separator) ==> r == s
  {
    match IndexOf(s, Separator)
    case None => s
    case Some(i) =>
      NoSeparatorBefore(s, i);
      s[..i]
  }

  /** A prefix of `s` that ends before the first separator holds none. */
  lemma NoSeparatorBefore(s: string, i: nat)
    requires i <= |s|
    requires forall j :: 0 <= j < i ==> !StartsWith(s[j..], Separator)
    ensures !Contains(s[..i], Separator)
  {
    var p := s[..i];
    forall j | 0 <= j <= |p| ensures !StartsWith(p[j..], Separator) {
      if j + 2 <= |p| {
        assert p[j..][..2] == s[j..][..2];
      }
    }
  }

  /** normalizeModelId: falsy and non-string ids pass through; a string
      keeps only what precedes its first separator. */
  function NormalizeModelId(id: JsValue): (r: JsValue)
    ensures !Truthy(id) || !id.JsString? ==> r == id
    ensures id.JsString? ==> r == JsString(NamePart(id.s))
  {
    if !Truthy(id) then id
    else match id
      case JsString(s) => if Contains(s, Separator) then JsString(NamePart(s)) else id
      case _ => id
  }

  /** Normalising twice is normalising once. */
  lemma NormalizeIdempotent(id: JsValue)
    ensures NormalizeModelId(NormalizeModelId(id)) == NormalizeModelId(id)
  {
    if id.JsString? {
      var p := NamePart(id.s);
      assert NamePart(p) == p;
    }
  }

  /** The name of a composite id comes back when it holds no separator and
      does not end in ':'. */
  lemma NormalizeComposite(name: string, namespace: string)
    requires !Contains(name, Separator)
    requires |name| == 0 || name[|name| - 1] != ':'
    ensures NormalizeModelId(JsString(CompositeId(name, namespace))) == JsString(name)
  {
    var s := CompositeId(name, namespace);
    assert s[..|name|] == name;
    assert StartsWith(s[|name|..], Separator) by {
      assert s[|name|..][..2] == Separator;
    }
    forall j | 0 <= j < |name| ensures !StartsWith(s[j..], Separator) {
      if j + 2 <= |name| {
        assert s[j..][..2] == name[j..][..2];
        assert !StartsWith(name[j..], Separator);
      } else {
        assert s[j] == name[j];
      }
    }
    assert IndexOf(s, Separator) == Some(|name|) by {
      IndexOfFirstAt(s, Separator, |name|);
    }
  }

  /** A name ending in ':' loses that character: "a:" with namespace "ns"
      normalises to "a". */
  lemma NormalizeCompositeColon()
    ensures NormalizeModelId(JsString(CompositeId("a:", "ns"))) == JsString("a")
  {
    var s := CompositeId("a:", "ns");
    assert !StartsWith(s[0..], Separator) by { assert s[0] == 'a'; }
    assert StartsWith(s[1..], Separator) by { assert s[1..][..2] == "::"; }
    IndexOfFirstAt(s, Separator, 1);
    assert s[..1] == "a";
  }

  /** The body of the table-update request: the XML always, the test cases
      only when the argument is not `undefined`. */
  datatype Payload = Payload(decisionTableXml: JsValue, testCases: Option<JsValue>)

  function UpdatePayload(xml: JsValue, testCases: JsValue): (r: Payload)
    ensures r.decisionTableXml == xml
    ensures r.testCases.Some? <==> testCases != JsUndefined
    ensures r.testCases.Some? ==> r.testCases.value == testCases
  {
    var payload := Payload(xml, None);
    if testCases != JsUndefined then payload.(testCases := Some(testCases)) else payload
  }

  /** The JSON object the server receives: serialisation drops every key
      whose value is `undefined`. */
  function SentBody(p: Payload): (r: map<string, JsValue>)
    ensures "decisionTableXml" in r <==> p.decisionTableXml != JsUndefined
    ensures "testCases" in r <==> p.testCases.Some? && p.testCases.value != JsUndefined
    ensures forall k :: k in r ==> r[k] != JsUndefined
  {
    var withXml: map<string, JsValue> :=
      if p.decisionTableXml != JsUndefined then map["decisionTableXml" := p.decisionTableXml] else map[];
    match p.testCases
    case Some(tc) => if tc != JsUndefined then withXml["testCases" := tc] else withXml
    case None => withXml
  }
}

=== FILE: base.dfy ===
/** Generic values and sequence operations shared by every part of the model:
    the optional value used for JavaScript's null/undefined, and the array
    methods the source leans on (findIndex, filter, splice, slice). */
module Base {

  /** A value that may be missing (null or undefined in the source). */
  datatype Option<T> = None | Some(value: T) {
    function GetOr(default: T): T {
      match this
      case Some(v) => v
      case None => default
    }
  }

  /** The outcome of an operation that either yields a value or fails with a
      message (a thrown exception in the source). */
  datatype Result<T> = Ok(value: T) | Error(message: string)

  function Min(a: int, b: int): int { if a <= b then a else b }

  function Max(a: int, b: int): int { if a <= b then b else a }

  /** Array.prototype.findIndex: the least index whose element satisfies `p`. */
  function FindIndex<T>(s: seq<T>, p: T -> bool): (r: Option<nat>)
    ensures r.Some? ==> r.value < |s| && p(s[r.value])
    ensures r.Some? ==> forall j :: 0 <= j < r.value ==> !p(s[j])
    ensures r.None? ==> forall j :: 0 <= j < |s| ==> !p(s[j])
  {
    FindIndexFrom(s, p, 0)
  }

  /** The least index at or after `i` whose element satisfies `p`. */
  function FindIndexFrom<T>(s: seq<T>, p: T -> bool, i: nat): (r: Option<nat>)
    requires i <= |s|
    ensures r.Some? ==> i <= r.value < |s| && p(s[r.value])
    ensures r.Some? ==> forall j :: i <= j < r.value ==> !p(s[j])
    ensures r.None? ==> forall j :: i <= j < |s| ==> !p(s[j])
    decreases |s| - i
  {
    if i == |s| then None
    else if p(s[i]) then Some(i)
    else FindIndexFrom(s, p, i + 1)
  }

  /** Array.prototype.find: the first element satisfying `p`. */
  function Find<T>(s: seq<T>, p: T -> bool): (r: Option<T>)
    ensures r.Some? <==> exists j :: 0 <= j < |s| && p(s[j])
    ensures r.Some? ==> exists j :: 0 <= j < |s| && s[j] == r.value && p(s[j]) &&
                                   forall k :: 0 <= k < j ==> !p(s[k])
  {
    match FindIndex(s, p)
    case None => None
    case Some(j) => Some(s[j])
  }

  /** The largest index whose element satisfies `p`. */
  function FindLastIndex<T>(s: seq<T>, p: T -> bool): (r: Option<nat>)
    ensures r.Some? ==> r.value < |s| && p(s[r.value])
    ensures r.Some? ==> forall j :: r.value < j < |s| ==> !p(s[j])
    ensures r.None? ==> forall j :: 0 <= j < |s| ==> !p(s[j])
    decreases |s|
  {
    if |s| == 0 then None
    else if p(s[|s| - 1]) then Some(|s| - 1)
    else FindLastIndex(s[..|s| - 1], p)
  }

  /** Array.prototype.filter with an element predicate. */
  function Filter<T(==)>(s: seq<T>, p: T -> bool): (r: seq<T>)
    ensures |r| <= |s|
    ensures forall x :: x in r ==> x in s && p(x)
    ensures forall x :: x in s && p(x) ==> x in r
    decreases |s|
  {
    if |s| == 0 then []
    else Filter(s[..|s| - 1], p) + (if p(s[|s| - 1]) then [s[|s| - 1]] else [])
  }

  /** `r` is `s` with some elements left out, the rest in their order: the
      last element of `r` is matched with the last of `s`, or the last of
      `s` is left out. */
  predicate SubsequenceOf<T(==)>(r: seq<T>, s: seq<T>)
    decreases |s|
  {
    |r| == 0 ||
    (|s| > 0 &&
     ((r[|r| - 1] == s[|s| - 1] && SubsequenceOf(r[..|r| - 1], s[..|s| - 1])) ||
      SubsequenceOf(r, s[..|s| - 1])))
  }

  /** filter leaves elements out without reordering the others. */
  lemma {:induction false} FilterSubsequence<T>(s: seq<T>, p: T -> bool)
    ensures SubsequenceOf(Filter(s, p), s)
    decreases |s|
  {
    if |s| > 0 {
      var n := |s| - 1;
      var prefix := s[..n];
      FilterSubsequence(prefix, p);
      var f := Filter(prefix, p);
      if p(s[n]) {
        var g := f + [s[n]];
        assert Filter(s, p) == g;
        assert g[|g| - 1] == s[|s| - 1] && g[..|g| - 1] == f && s[..|s| - 1] == prefix;
        assert SubsequenceOf(g, s);
      } else {
        assert Filter(s, p) == f;
        assert s[..|s| - 1] == prefix;
        assert SubsequenceOf(f, s);
      }
    }
  }

  /** filter keeps every copy of a kept element and none of the others. */
  lemma {:induction false} FilterCounts<T>(s: seq<T>, p: T -> bool)
    ensures forall x :: multiset(Filter(s, p))[x] == if p(x) then multiset(s)[x] else 0
    decreases |s|
  {
    if |s| > 0 {
      var n := |s| - 1;
      FilterCounts(s[..n], p);
      assert s == s[..n] + [s[n]];
      assert multiset(s) == multiset(s[..n]) + multiset{s[n]};
      var f := Filter(s[..n], p);
      assert multiset(Filter(s, p)) == multiset(f) + if p(s[n]) then multiset{s[n]} else multiset{};
    }
  }

  /** `s.filter((_, idx) => idx !== i)`: drops index `i`, or nothing when `i`
      is not an index of `s`. */
  function RemoveAt<T>(s: seq<T>, i: int): (r: seq<T>)
    ensures 0 <= i < |s| ==> |r| == |s| - 1
    ensures !(0 <= i < |s|) ==> r == s
    ensures forall j :: 0 <= j < i && j < |r| ==> r[j] == s[j]
    ensures 0 <= i ==> forall j :: i <= j < |r| ==> r[j] == s[j + 1]
  {
    if 0 <= i < |s| then s[..i] + s[i + 1..] else s
  }

  /** `s.splice(i, 0, x)` on a copy: `x` lands at index `i`. */
  function InsertAt<T>(s: seq<T>, i: nat, x: T): (r: seq<T>)
    requires i <= |s|
    ensures |r| == |s| + 1 && r[i] == x
    ensures forall j :: 0 <= j < i ==> r[j] == s[j]
    ensures forall j :: i < j < |r| ==> r[j] == s[j - 1]
  {
    s[..i] + [x] + s[i..]
  }

  lemma RemoveAtMultiset<T>(s: seq<T>, i: nat)
    requires i < |s|
    ensures multiset(RemoveAt(s, i)) + multiset{s[i]} == multiset(s)
  {
    assert s == s[..i] + [s[i]] + s[i + 1..];
  }

  lemma InsertAtMultiset<T>(s: seq<T>, i: nat, x: T)
    requires i <= |s|
    ensures multiset(InsertAt(s, i, x)) == multiset(s) + multiset{x}
  {
    assert s == s[..i] + s[i..];
  }

  /** `b` spliced into `a` at `i`: `a`'s prefix, then `b`, then `a`'s suffix. */
  lemma SpliceParts<T>(a: seq<T>, i: nat, b: seq<T>)
    requires i <= |a|
    ensures (a[..i] + b + a[i..])[..i] == a[..i]
    ensures (a[..i] + b + a[i..])[i..i + |b|] == b
    ensures (a[..i] + b + a[i..])[i + |b|..] == a[i..]
    ensures multiset(a[..i] + b + a[i..]) == multiset(a + b)
  {
    assert a == a[..i] + a[i..];
  }

  /** A three-element sequence is determined by its three one-element slices. */
  lemma ThreeParts<T>(r: seq<T>, a: T, x: T, b: T)
    requires |r| == 3 && r[..1] == [a] && r[1..2] == [x] && r[2..] == [b]
    ensures r == [a, x, b]
  {
    assert r[0] == r[..1][0] && r[1] == r[1..2][0] && r[2] == r[2..][0];
  }

  /** Taking out what was just inserted gives back the original sequence. */
  lemma RemoveInsertedAt<T>(s: seq<T>, i: nat, x: T)
    requires i <= |s|
    ensures RemoveAt(InsertAt(s, i, x), i) == s
  {
    assert InsertAt(s, i, x)[..i] == s[..i];
    assert InsertAt(s, i, x)[i + 1..] == s[i..];
  }

  /** Moves the first element satisfying `p` to the end, keeping the other
      elements in order; without such an element `s` is returned as it is. */
  function MoveFirstToEnd<T>(s: seq<T>, p: T -> bool): (r: seq<T>)
    ensures |r| == |s| && multiset(r) == multiset(s)
    ensures FindIndex(s, p).None? ==> r == s
    ensures FindIndex(s, p).Some? ==> r[|r| - 1] == s[FindIndex(s, p).value]
    ensures FindIndex(s, p).Some? ==>
              forall j :: 0 <= j < FindIndex(s, p).value ==> r[j] == s[j]
    ensures FindIndex(s, p).Some? ==>
              forall j :: FindIndex(s, p).value <= j < |r| - 1 ==> r[j] == s[j + 1]
  {
    match FindIndex(s, p)
    case None => s
    case Some(i) =>
      RemoveAtMultiset(s, i);
      RemoveAt(s, i) + [s[i]]
  }

  /** The first element satisfying `p`, if any, is the last element. */
  predicate FirstIsLast<T>(s: seq<T>, p: T -> bool)
  {
    FindIndex(s, p).None? || FindIndex(s, p).value == |s| - 1
  }

  /** At most one element satisfies `p`. */
  predicate AtMostOne<T>(s: seq<T>, p: T -> bool)
  {
    forall i, j :: 0 <= i < j < |s| ==> !(p(s[i]) && p(s[j]))
  }

  lemma FindIndexAt<T>(s: seq<T>, p: T -> bool, k: nat)
    requires k < |s| && p(s[k])
    requires forall j :: 0 <= j < k ==> !p(s[j])
    ensures FindIndex(s, p) == Some(k)
  {
  }

  lemma FirstIsLastOfTwo<T>(s: seq<T>, p: T -> bool)
    requires |s| == 2 && !p(s[0]) && p(s[1])
    ensures FirstIsLast(s, p)
  {
    FindIndexAt(s, p, 1);
  }

  lemma MoveFirstToEndFixes<T>(s: seq<T>, p: T -> bool)
    requires FirstIsLast(s, p)
    ensures MoveFirstToEnd(s, p) == s
  {
    if FindIndex(s, p).Some? {
      var n := |s| - 1;
      assert RemoveAt(s, n) == s[..n];
      assert s[..n] + [s[n]] == s;
    }
  }

  lemma MoveFirstToEndPutsLast<T>(s: seq<T>, p: T -> bool)
    requires AtMostOne(s, p)
    ensures FirstIsLast(MoveFirstToEnd(s, p), p)
  {
    var r := MoveFirstToEnd(s, p);
    match FindIndex(s, p)
    case None =>
    case Some(i) =>
      forall j | 0 <= j < |r| - 1 ensures !p(r[j]) {
        if j >= i {
          assert r[j] == s[j + 1];
        }
      }
      FindIndexAt(r, p, |r| - 1);
  }

  /** When a second, different element satisfies `p`, moving twice moves
      that second element to the end. */
  lemma MoveFirstToEndSecond<T>(s: seq<T>, p: T -> bool, k: nat)
    requires FindIndex(s, p).Some?
    requires FindIndex(s, p).value < k < |s| && p(s[k])
    requires forall j :: FindIndex(s, p).value < j < k ==> !p(s[j])
    ensures MoveFirstToEnd(MoveFirstToEnd(s, p), p)[|s| - 1] == s[k]
  {
    var i := FindIndex(s, p).value;
    var r := MoveFirstToEnd(s, p);
    assert r[k - 1] == s[k];
    forall j | 0 <= j < k - 1 ensures !p(r[j]) {
      if j < i {
        assert r[j] == s[j];
      } else {
        assert r[j] == s[j + 1];
      }
    }
    FindIndexAt(r, p, k - 1);
  }

  /** Removing any element keeps the first element satisfying `p` last. */
  lemma FirstIsLastRemoveAt<T>(s: seq<T>, p: T -> bool, i: int)
    requires FirstIsLast(s, p)
    ensures FirstIsLast(RemoveAt(s, i), p)
  {
    var r := RemoveAt(s, i);
    if FindIndex(s, p).Some? && 0 <= i < |s| {
      var n := |s| - 1;
      if i == n {
        forall j | 0 <= j < |r| ensures !p(r[j]) {
          assert r[j] == s[j];
        }
      } else {
        forall j | 0 <= j < |r| - 1 ensures !p(r[j]) {
          if j < i {
            assert r[j] == s[j];
          } else {
            assert r[j] == s[j + 1];
          }
        }
        assert r[|r| - 1] == s[n];
        FindIndexAt(r, p, |r| - 1);
      }
    }
  }

  /** Where a new element goes so that it lands before the first element
      satisfying `p`: that element's index, or the end. */
  function InsertSlot<T>(s: seq<T>, p: T -> bool): (r: nat)
    ensures r <= |s|
    ensures FindIndex(s, p).Some? ==> r == FindIndex(s, p).value
    ensures FindIndex(s, p).None? ==> r == |s|
  {
    match FindIndex(s, p)
    case None => |s|
    case Some(i) => i
  }

  /** Inserting an element that does not satisfy `p` at the slot keeps the
      first element satisfying `p` last. */
  lemma FirstIsLastInsert<T>(s: seq<T>, p: T -> bool, x: T)
    requires FirstIsLast(s, p) && !p(x)
    ensures FirstIsLast(InsertAt(s, InsertSlot(s, p), x), p)
  {
    var k := InsertSlot(s, p);
    var r := InsertAt(s, k, x);
    if FindIndex(s, p).Some? {
      forall j | 0 <= j < |r| - 1 ensures !p(r[j]) {
        if j < k {
          assert r[j] == s[j];
        }
      }
      FindIndexAt(r, p, |r| - 1);
    } else {
      forall j | 0 <= j < |r| ensures !p(r[j]) {
        if j < k {
          assert r[j] == s[j];
        }
      }
    }
  }

  /** When the first element satisfying `p` is last, no other element satisfies it. */
  lemma FirstIsLastAtMostOne<T>(s: seq<T>, p: T -> bool)
    requires FirstIsLast(s, p)
    ensures AtMostOne(s, p)
  {
  }

  /** The first `n` elements, as a loop that stops once `n` items were taken. */
  function Take<T>(s: seq<T>, n: int): (r: seq<T>)
    ensures |r| == Min(|s|, Max(n, 0))
    ensures forall j :: 0 <= j < |r| ==> r[j] == s[j]
  {
    s[..Min(|s|, Max(n, 0))]
  }

  lemma TakeSaturated<T>(a: seq<T>, b: seq<T>, n: int)
    requires |a| >= n
    ensures Take(a + b, n) == Take(a, n)
  {
  }

  /** Concatenation of a sequence of sequences. */
  function Flatten<T>(ss: seq<seq<T>>): (r: seq<T>)
    decreases |ss|
  {
    if |ss| == 0 then [] else Flatten(ss[..|ss| - 1]) + ss[|ss| - 1]
  }

  /** True when no element before index `i` has the key of `s[i]`. */
  predicate FirstOfKey<T, K(==)>(s: seq<T>, key: T -> K, i: nat)
    requires i < |s|
  {
    forall k :: 0 <= k < i ==> key(s[k]) != key(s[i])
  }

  /** The keys occurring in `s`. */
  function KeysOf<T(==), K>(s: seq<T>, key: T -> K): set<K>
  {
    set x | x in s :: key(x)
  }

  /** `s.filter((x, i) => s.findIndex(y => key(y) === key(x)) === i)`: keeps
      the first element of each key, in their original order. */
  function KeepFirstByKey<T(==), K(==)>(s: seq<T>, key: T -> K): (r: seq<T>)
    ensures |r| <= |s|
    ensures forall x :: x in r ==> x in s
    decreases |s|
  {
    if |s| == 0 then []
    else
      var n := |s| - 1;
      KeepFirstByKey(s[..n], key) + (if FirstOfKey(s, key, n) then [s[n]] else [])
  }

  lemma FirstOfKeyPrefix<T, K>(s: seq<T>, key: T -> K, n: nat)
    requires n <= |s|
    ensures forall i :: 0 <= i < n ==> (FirstOfKey(s, key, i) <==> FirstOfKey(s[..n], key, i))
  {
  }

  /** `a + b` split before the last element of `b`. */
  lemma AppendSplit<T>(a: seq<T>, b: seq<T>)
    requires |b| > 0
    ensures a + b == (a + b[..|b| - 1]) + [b[|b| - 1]]
  {
  }

  lemma KeysOfAppend<T, K>(a: seq<T>, x: T, key: T -> K)
    ensures KeysOf(a + [x], key) == KeysOf(a, key) + {key(x)}
  {
    assert forall y :: y in a + [x] <==> y in a || y == x;
  }

  /** Appending one element keeps it exactly when its key is new. */
  lemma KeepFirstStep<T, K>(s: seq<T>, x: T, key: T -> K)
    ensures KeepFirstByKey(s + [x], key) ==
            KeepFirstByKey(s, key) + (if key(x) in KeysOf(s, key) then [] else [x])
  {
    var t := s + [x];
    assert t[..|s|] == s;
    if key(x) in KeysOf(s, key) {
      var y :| y in s && key(y) == key(x);
      var k :| 0 <= k < |s| && s[k] == y;
      assert t[k] == y;
    } else {
      forall k | 0 <= k < |s| ensures key(t[k]) != key(x) {
        assert t[k] == s[k] && s[k] in s;
      }
    }
  }

  /** No two elements of `s` share a key. */
  predicate DistinctKeys<T, K(==)>(s: seq<T>, key: T -> K)
  {
    forall i, j :: 0 <= i < j < |s| ==> key(s[i]) != key(s[j])
  }

  /** No two kept elements share a key. */
  lemma {:induction false} KeepFirstDistinct<T, K>(s: seq<T>, key: T -> K)
    ensures DistinctKeys(KeepFirstByKey(s, key), key)
    decreases |s|
  {
    if |s| > 0 {
      var n := |s| - 1;
      var rest := KeepFirstByKey(s[..n], key);
      KeepFirstDistinct(s[..n], key);
      if FirstOfKey(s, key, n) {
        forall x | x in rest ensures key(x) != key(s[n]) {
          assert x in s[..n];
          var k :| 0 <= k < n && s[..n][k] == x;
          assert s[k] == x;
        }
        var r := rest + [s[n]];
        assert KeepFirstByKey(s, key) == r;
        forall i, j | 0 <= i < j < |r| ensures key(r[i]) != key(r[j]) {
          if j == |rest| {
            assert r[i] == rest[i] && r[i] in rest;
          } else {
            assert r[i] == rest[i] && r[j] == rest[j];
          }
        }
      } else {
        assert KeepFirstByKey(s, key) == rest;
      }
    }
  }

  /** The first element of each key is kept. */
  lemma {:induction false} KeepFirstKeepsFirsts<T, K>(s: seq<T>, key: T -> K)
    ensures forall i :: 0 <= i < |s| && FirstOfKey(s, key, i) ==> s[i] in KeepFirstByKey(s, key)
    decreases |s|
  {
    if |s| > 0 {
      var n := |s| - 1;
      var prefix := s[..n];
      var rest := KeepFirstByKey(prefix, key);
      var r := KeepFirstByKey(s, key);
      KeepFirstKeepsFirsts(prefix, key);
      FirstOfKeyPrefix(s, key, n);
      assert r == rest + (if FirstOfKey(s, key, n) then [s[n]] else []);
      forall i | 0 <= i < |s| && FirstOfKey(s, key, i) ensures s[i] in r {
        if i < n {
          assert prefix[i] == s[i];
          assert FirstOfKey(prefix, key, i);
          assert s[i] in rest;
        }
      }
    }
  }

  /** Every key of the input survives de-duplication. */
  lemma {:induction false} KeepFirstKeys<T, K>(s: seq<T>, key: T -> K)
    ensures KeysOf(KeepFirstByKey(s, key), key) == KeysOf(s, key)
    decreases |s|
  {
    if |s| > 0 {
      var n := |s| - 1;
      var prefix := s[..n];
      var rest := KeepFirstByKey(prefix, key);
      KeepFirstKeys(prefix, key);
      assert s == prefix + [s[n]];
      KeysOfAppend(prefix, s[n], key);
      if FirstOfKey(s, key, n) {
        KeysOfAppend(rest, s[n], key);
      } else {
        var k :| 0 <= k < n && key(s[k]) == key(s[n]);
        assert s[k] in prefix;
        assert key(s[n]) in KeysOf(prefix, key);
        assert KeepFirstByKey(s, key) == rest;
      }
    }
  }

  /** The index of the first occurrence of `v` in `s`. */
  function FirstPos<T(==)>(s: seq<T>, v: T): (r: nat)
    requires v in s
    ensures r < |s| && s[r] == v
    ensures forall j :: 0 <= j < r ==> s[j] != v
    decreases |s|
  {
    if s[0] == v then 0
    else
      var r := 1 + FirstPos(s[1..], v);
      assert forall j :: 1 <= j < r ==> s[j] == s[1..][j - 1];
      r
  }

  /** Appending after `s` moves no first occurrence within `s`. */
  lemma FirstPosAppend<T>(s: seq<T>, x: T, v: T)
    requires v in s
    ensures FirstPos(s + [x], v) == FirstPos(s, v)
  {
    var t := s + [x];
    assert t[FirstPos(s, v)] == v;
    assert forall j :: 0 <= j < |s| ==> t[j] == s[j];
  }

  /** The elements of `r` occur in `s`, ordered by their first occurrences
      there. */
  predicate InFirstSeenOrder<T(==)>(r: seq<T>, s: seq<T>)
  {
    (forall i :: 0 <= i < |r| ==> r[i] in s) &&
    forall i, j :: 0 <= i < j < |r| ==> FirstPos(s, r[i]) < FirstPos(s, r[j])
  }

  lemma FilterConcatOne<T>(a: seq<T>, x: T, p: T -> bool)
    ensures Filter(a + [x], p) == Filter(a, p) + (if p(x) then [x] else [])
  {
    assert (a + [x])[..|a|] == a;
  }

  lemma OrderPrefix<T>(r: seq<T>, s: seq<T>, n: nat)
    requires n <= |r| && InFirstSeenOrder(r, s)
    ensures InFirstSeenOrder(r[..n], s)
  {
    var q := r[..n];
    assert forall i :: 0 <= i < |q| ==> q[i] == r[i];
  }

  /** An element first seen after every element of an ordered sequence
      extends it. */
  lemma OrderSnoc<T>(f: seq<T>, s: seq<T>, x: T)
    requires InFirstSeenOrder(f, s) && x in s
    requires forall y :: y in f ==> y in s && FirstPos(s, y) < FirstPos(s, x)
    ensures InFirstSeenOrder(f + [x], s)
  {
    var g := f + [x];
    assert forall i :: 0 <= i < |f| ==> g[i] == f[i] && f[i] in f;
  }

  /** Appending to `s` keeps an order taken from `s`. */
  lemma OrderExtend<T>(f: seq<T>, s: seq<T>, x: T)
    requires InFirstSeenOrder(f, s)
    ensures InFirstSeenOrder(f, s + [x])
  {
    forall i | 0 <= i < |f| ensures FirstPos(s + [x], f[i]) == FirstPos(s, f[i]) {
      FirstPosAppend(s, x, f[i]);
    }
  }

  /** Filtering a sequence ordered by first occurrence keeps that order. */
  lemma {:induction false} FilterKeepsOrder<T>(r: seq<T>, s: seq<T>, p: T -> bool)
    requires InFirstSeenOrder(r, s)
    ensures InFirstSeenOrder(Filter(r, p), s)
    decreases |r|
  {
    if |r| > 0 {
      var n := |r| - 1;
      var prefix := r[..n];
      OrderPrefix(r, s, n);
      FilterKeepsOrder(prefix, s, p);
      assert r == prefix + [r[n]];
      FilterConcatOne(prefix, r[n], p);
      var f := Filter(prefix, p);
      assert Filter(r, p) == f + (if p(r[n]) then [r[n]] else []);
      if p(r[n]) {
        forall y | y in f ensures y in s && FirstPos(s, y) < FirstPos(s, r[n]) {
          var m :| 0 <= m < n && prefix[m] == y;
          assert r[m] == y;
        }
        OrderSnoc(f, s, r[n]);
      }
    }
  }

  /** De-duplicating by identity, then filtering, lists values in the order
      in which they first occur. */
  lemma {:induction false} KeptInFirstSeenOrder<T>(s: seq<T>, key: T -> T, p: T -> bool)
    requires forall v :: key(v) == v
    ensures InFirstSeenOrder(Filter(KeepFirstByKey(s, key), p), s)
    decreases |s|
  {
    if |s| > 0 {
      var n := |s| - 1;
      var prefix := s[..n];
      assert s == prefix + [s[n]];
      KeptInFirstSeenOrder(prefix, key, p);
      var kept := KeepFirstByKey(prefix, key);
      var f := Filter(kept, p);
      OrderExtend(f, prefix, s[n]);
      if FirstOfKey(s, key, n) {
        assert KeepFirstByKey(s, key) == kept + [s[n]];
        FilterConcatOne(kept, s[n], p);
        if p(s[n]) {
          forall k | 0 <= k < n ensures prefix[k] != s[n] {
            assert key(s[k]) != key(s[n]);
          }
          forall y | y in f ensures y in s && FirstPos(s, y) < FirstPos(s, s[n]) {
            FirstPosAppend(prefix, s[n], y);
          }
          OrderSnoc(f, s, s[n]);
        }
      } else {
        assert KeepFirstByKey(s, key) == kept;
      }
    }
  }
}

=== FILE: cells.dfy ===
/** Cell values of a decision table and normalizeBooleanRows, which spells
    the cells of Boolean-typed columns in upper case. */
module Cells {
  import opened Base
  import opened Text
  import opened Columns

  /** A raw cell: the editor writes strings, a table handed in from outside
      may carry JSON booleans. */
  datatype Cell = Str(s: string) | Flag(b: bool)

  /** A row of a decision table as the editor holds it. */
  type Row = seq<string>

  predicate IsBooleanColumn(c: Column)
  {
    ToLower(c.dataType) == "boolean"
  }

  /** Column `j` exists and is Boolean-typed; a cell past the last column
      belongs to no column. */
  predicate IsBooleanAt(cols: seq<Column>, j: int)
  {
    0 <= j < |cols| && IsBooleanColumn(cols[j])
  }

  /** No lower-case ASCII letter occurs in `s`. */
  predicate NoLowerCase(s: string)
  {
    forall i :: 0 <= i < |s| ==> !('a' <= s[i] <= 'z')
  }

  /** Upper-casing leaves a string without lower-case letters as it is. */
  lemma NoLowerCaseUpper(s: string)
    requires NoLowerCase(s)
    ensures ToUpper(s) == s
  {
    assert forall i :: 0 <= i < |s| ==> UpperChar(s[i]) == s[i];
  }

  /** The canonical spelling of a Boolean-column cell. */
  function NormalizeBooleanCell(v: Cell): (r: Cell)
    ensures r.Str? && NoLowerCase(r.s)
    ensures v.Flag? ==> r.s == (if v.b then "TRUE" else "FALSE")
    ensures v.Str? ==> EqualsIgnoreCase(r.s, v.s)
  {
    match v
    case Flag(b) => Str(if b then "TRUE" else "FALSE")
    case Str(s) => Str(ToUpper(s))
  }

  /** normalizeBooleanRows on raw cells. */
  function NormalizeBooleanRows(cols: seq<Column>, rows: seq<seq<Cell>>): (r: seq<seq<Cell>>)
    ensures |r| == |rows|
    ensures forall k :: 0 <= k < |r| ==> |r[k]| == |rows[k]|
    ensures forall k, j :: 0 <= k < |r| && 0 <= j < |r[k]| && !IsBooleanAt(cols, j) ==>
              r[k][j] == rows[k][j]
    ensures forall k, j :: 0 <= k < |r| && 0 <= j < |r[k]| && IsBooleanAt(cols, j) ==>
              r[k][j].Str? && NoLowerCase(r[k][j].s)
  {
    seq(|rows|, k requires 0 <= k < |rows| =>
      seq(|rows[k]|, j requires 0 <= j < |rows[k]| =>
        if IsBooleanAt(cols, j) then NormalizeBooleanCell(rows[k][j]) else rows[k][j]))
  }

  /** normalizeBooleanRows on rows of strings, the form the editor keeps. */
  function NormalizeBooleanText(cols: seq<Column>, rows: seq<Row>): (r: seq<Row>)
    ensures |r| == |rows|
    ensures forall k :: 0 <= k < |r| ==> |r[k]| == |rows[k]|
    ensures forall k, j :: 0 <= k < |r| && 0 <= j < |r[k]| && !IsBooleanAt(cols, j) ==>
              r[k][j] == rows[k][j]
    ensures forall k, j :: 0 <= k < |r| && 0 <= j < |r[k]| && IsBooleanAt(cols, j) ==>
              NoLowerCase(r[k][j]) && EqualsIgnoreCase(r[k][j], rows[k][j])
  {
    seq(|rows|, k requires 0 <= k < |rows| =>
      seq(|rows[k]|, j requires 0 <= j < |rows[k]| =>
        if IsBooleanAt(cols, j) then ToUpper(rows[k][j]) else rows[k][j]))
  }

  function LiftRows(rows: seq<Row>): (r: seq<seq<Cell>>)
    ensures |r| == |rows|
    ensures forall k :: 0 <= k < |r| ==> |r[k]| == |rows[k]|
    ensures forall k, j :: 0 <= k < |r| && 0 <= j < |r[k]| ==> r[k][j] == Str(rows[k][j])
  {
    seq(|rows|, k requires 0 <= k < |rows| =>
      seq(|rows[k]|, j requires 0 <= j < |rows[k]| => Str(rows[k][j])))
  }

  /** On string cells the two forms agree. */
  lemma NormalizeTextAgrees(cols: seq<Column>, rows: seq<Row>)
    ensures NormalizeBooleanRows(cols, LiftRows(rows)) == LiftRows(NormalizeBooleanText(cols, rows))
  {
    var a := NormalizeBooleanRows(cols, LiftRows(rows));
    var b := LiftRows(NormalizeBooleanText(cols, rows));
    forall k | 0 <= k < |a| ensures a[k] == b[k] {
    }
  }

  /** Rows whose Boolean-column cells contain no lower-case letter are left
      as they are. */
  lemma NormalizeTextFixesCanonical(cols: seq<Column>, rows: seq<Row>)
    requires forall k, j :: 0 <= k < |rows| && 0 <= j < |rows[k]| && IsBooleanAt(cols, j) ==>
               NoLowerCase(rows[k][j])
    ensures NormalizeBooleanText(cols, rows) == rows
  {
    var r := NormalizeBooleanText(cols, rows);
    forall k | 0 <= k < |r| ensures r[k] == rows[k] {
      forall j | 0 <= j < |r[k]| ensures r[k][j] == rows[k][j] {
        if IsBooleanAt(cols, j) {
          NoLowerCaseUpper(rows[k][j]);
        }
      }
    }
  }

  lemma NormalizeTextIdempotent(cols: seq<Column>, rows: seq<Row>)
    ensures NormalizeBooleanText(cols, NormalizeBooleanText(cols, rows)) ==
            NormalizeBooleanText(cols, rows)
  {
    NormalizeTextFixesCanonical(cols, NormalizeBooleanText(cols, rows));
  }

  /** Normalizing depends on the columns only through which positions are
      Boolean-typed. */
  lemma NormalizeTextSameTypes(c1: seq<Column>, c2: seq<Column>, rows: seq<Row>)
    requires forall j :: 0 <= j ==> (IsBooleanAt(c1, j) <==> IsBooleanAt(c2, j))
    ensures NormalizeBooleanText(c1, rows) == NormalizeBooleanText(c2, rows)
  {
    var a := NormalizeBooleanText(c1, rows);
    var b := NormalizeBooleanText(c2, rows);
    forall k | 0 <= k < |a| ensures a[k] == b[k] {
    }
  }

  /** `row[k]`, with a cell past either end of the row read as `missing`. */
  function CellOr(row: Row, k: int, missing: string): (r: string)
    ensures 0 <= k < |row| ==> r == row[k]
    ensures !(0 <= k < |row|) ==> r == missing
  {
    if 0 <= k < |row| then row[k] else missing
  }

  /** `row[k]` read as a string with a missing cell as the empty string
      (`r[k] == null ? '' : String(r[k])`). */
  function CellOrEmpty(row: Row, k: int): (r: string)
    ensures 0 <= k < |row| ==> r == row[k]
    ensures !(0 <= k < |row|) ==> r == ""
  {
    CellOr(row, k, "")
  }
}

=== FILE: columns.dfy ===
/** Column definitions of a decision table and the rule that keeps the output
    column (named Result, Output or Decision) in the last position. */
module Columns {
  import opened Base
  import opened Text

  /** A column header: its name, data type ('String', 'Number', 'Boolean',
      'Date') and condition ('Equals', ...); the editor stores any text there. */
  datatype Column = Column(name: string, dataType: string, condition: string)

  /** A name marks the output column when, trimmed and lower-cased, it is
      "result", "output" or "decision". */
  predicate IsOutputName(name: string)
  {
    var key := ToLower(JsTrim(name));
    key == "result" || key == "output" || key == "decision"
  }

  predicate IsOutputColumn(c: Column)
  {
    IsOutputName(c.name)
  }

  /** The index of the first output-named column. */
  function FindOutput(cols: seq<Column>): (r: Option<nat>)
    ensures r.Some? ==> r.value < |cols| && IsOutputColumn(cols[r.value])
    ensures r.Some? ==> forall j :: 0 <= j < r.value ==> !IsOutputColumn(cols[j])
    ensures r.None? ==> forall j :: 0 <= j < |cols| ==> !IsOutputColumn(cols[j])
  {
    FindIndex(cols, IsOutputColumn)
  }

  /** ensureResultLast: moves the first output-named column to the end and
      keeps every other column in its relative order; with no output-named
      column the list is returned as it is. */
  function EnsureResultLast(cols: seq<Column>): (r: seq<Column>)
    ensures |r| == |cols| && multiset(r) == multiset(cols)
    ensures FindOutput(cols).None? ==> r == cols
    ensures FindOutput(cols).Some? ==>
              r[|r| - 1] == cols[FindOutput(cols).value] && IsOutputColumn(r[|r| - 1])
    ensures FindOutput(cols).Some? ==>
              forall j :: 0 <= j < FindOutput(cols).value ==> r[j] == cols[j]
    ensures FindOutput(cols).Some? ==>
              forall j :: FindOutput(cols).value <= j < |r| - 1 ==> r[j] == cols[j + 1]
  {
    MoveFirstToEnd(cols, IsOutputColumn)
  }

  /** The output column, when there is one, is the last column. */
  predicate OutputIsLast(cols: seq<Column>)
  {
    FirstIsLast(cols, IsOutputColumn)
  }

  /** At most one column carries an output name. */
  predicate AtMostOneOutput(cols: seq<Column>)
  {
    AtMostOne(cols, IsOutputColumn)
  }

  lemma EnsureResultLastFixesOutputIsLast(cols: seq<Column>)
    requires OutputIsLast(cols)
    ensures EnsureResultLast(cols) == cols
  {
    MoveFirstToEndFixes(cols, IsOutputColumn);
  }

  /** With at most one output-named column, ensureResultLast leaves it last. */
  lemma EnsureResultLastPutsOutputLast(cols: seq<Column>)
    requires AtMostOneOutput(cols)
    ensures OutputIsLast(EnsureResultLast(cols))
  {
    MoveFirstToEndPutsLast(cols, IsOutputColumn);
  }

  /** With at most one output-named column, ensureResultLast is idempotent. */
  lemma EnsureResultLastIdempotent(cols: seq<Column>)
    requires AtMostOneOutput(cols)
    ensures EnsureResultLast(EnsureResultLast(cols)) == EnsureResultLast(cols)
  {
    EnsureResultLastPutsOutputLast(cols);
    EnsureResultLastFixesOutputIsLast(EnsureResultLast(cols));
  }

  /** With two different output-named columns, a second call moves the other
      one to the end, so ensureResultLast is not idempotent. */
  lemma EnsureResultLastNotIdempotent(cols: seq<Column>, k: nat)
    requires FindOutput(cols).Some?
    requires FindOutput(cols).value < k < |cols| && IsOutputColumn(cols[k])
    requires forall j :: FindOutput(cols).value < j < k ==> !IsOutputColumn(cols[j])
    requires cols[k] != cols[FindOutput(cols).value]
    ensures EnsureResultLast(EnsureResultLast(cols)) != EnsureResultLast(cols)
  {
    MoveFirstToEndSecond(cols, IsOutputColumn, k);
  }

  /** The input columns: everything before the last column once the output
      column has been moved last (`slice(0, length - 1)`). */
  function InputColumns(cols: seq<Column>): (r: seq<Column>)
    ensures |r| == Max(0, |cols| - 1)
    ensures forall c :: c in r ==> c in cols
    ensures forall i :: 0 <= i < |r| ==> r[i] == EnsureResultLast(cols)[i]
  {
    var n := EnsureResultLast(cols);
    if |n| == 0 then []
    else
      var r := n[..|n| - 1];
      assert forall c :: c in r ==> c in cols by {
        forall c | c in r ensures c in cols {
          assert c in n;
          assert c in multiset(n);
        }
      }
      r
  }

  /** The names of the input columns, in order. */
  function InputNames(cols: seq<Column>): (r: seq<string>)
    ensures |r| == |InputColumns(cols)|
    ensures forall j :: 0 <= j < |r| ==> r[j] == InputColumns(cols)[j].name
  {
    var ins := InputColumns(cols);
    seq(|ins|, j requires 0 <= j < |ins| => ins[j].name)
  }

  /** With a single output-named column, no input column is output-named. */
  lemma InputColumnsExcludeOutput(cols: seq<Column>)
    requires AtMostOneOutput(cols)
    ensures forall c :: c in InputColumns(cols) ==> !IsOutputColumn(c) || FindOutput(cols).None?
  {
    EnsureResultLastPutsOutputLast(cols);
  }

  /** The name addColumn gives a new column when `count` columns exist. */
  function NewColumnName(count: nat): (r: string)
    ensures |r| > |"Condition "| && r[..|"Condition "|] == "Condition "
  {
    "Condition " + NatToString(count + 1)
  }

  /** A column added by addColumn is never taken for the output column. */
  lemma NewColumnNameNotOutput(count: nat)
    ensures !IsOutputName(NewColumnName(count))
  {
    NewColumnNameTrimmed(count);
    LongNameNotOutput(NewColumnName(count));
  }

  /** No output name is longer than eight characters once trimmed. */
  lemma LongNameNotOutput(name: string)
    requires |JsTrim(name)| > 8
    ensures !IsOutputName(name)
  {
    var key := ToLower(JsTrim(name));
    assert |key| > 8;
    assert |key| != |"result"| && |key| != |"output"| && |key| != |"decision"|;
  }

  /** A new column's name starts with a letter and ends with a digit. */
  lemma NewColumnNameTrimmed(count: nat)
    ensures JsTrim(NewColumnName(count)) == NewColumnName(count)
  {
    var s := NewColumnName(count);
    assert s[0] == 'C';
    assert '0' <= s[|s| - 1] <= '9';
    TrimOfTrimmed(s, IsJsSpace);
  }

  /** "Result" marks the output column. */
  lemma ResultIsOutputName()
    ensures IsOutputName("Result")
  {
    ResultIsTrimmed();
    ResultLowered();
  }

  lemma ResultIsTrimmed()
    ensures JsTrim("Result") == "Result"
  {
    var s := "Result";
    assert !IsJsSpace(s[0]) && !IsJsSpace(s[|s| - 1]);
    TrimOfTrimmed(s, IsJsSpace);
  }

  lemma ResultLowered()
    ensures ToLower("Result") == "result"
  {
    var key := ToLower("Result");
    assert key[0] == 'r' && key[1] == 'e' && key[2] == 's' && key[3] == 'u' && key[4] == 'l' && key[5] == 't';
  }
}

=== FILE: controller.dfy ===
/** The decision service's own rules (DecisionController), over the element
    tree of its DMN documents: the model `evaluate` runs, the de-duplicated
    model list, case-insensitive name matching, how a decision table is read
    into labels, outputs and rules, the expansion of item-definition types
    into form schemas, the path under which a DMN file is rebuilt, and the
    status a table update reports. The XML parser, the KIE builder and the
    file system are parameters: a document that failed to parse is `None`,
    the outcome of a rebuild is an argument. */
module Controller {
  import opened Base
  import opened Text
  import opened Dmn
  import opened Api

  // ---------------------------------------------------------------- evaluate

  /** A model of the DMN runtime; its name and namespace may be null. */
  datatype RuntimeModel = RuntimeModel(name: Option<string>, namespace: Option<string>)

  /** Named "quickwins" or in namespace "dmnRules", both ignoring case; a
      null name or namespace matches nothing. */
  predicate Preferred(m: RuntimeModel)
  {
    (m.name.Some? && EqualsIgnoreCase("quickwins", m.name.value)) ||
    (m.namespace.Some? && EqualsIgnoreCase("dmnRules", m.namespace.value))
  }

  const NoModels: string := "No DMN models available"

  /** The model `evaluate` runs: the first preferred model, otherwise the
      first model; a null or empty list is an error. */
  method SelectModel(models: Option<seq<RuntimeModel>>) returns (r: Result<RuntimeModel>)
    ensures r.Error? <==> models.None? || |models.value| == 0
    ensures r.Error? ==> r.message == NoModels
    ensures r.Ok? ==> (exists k :: 0 <= k < |models.value| && models.value[k] == r.value &&
                        (forall j :: 0 <= j < k ==> !Preferred(models.value[j])) &&
                        (Preferred(r.value) ||
                         (k == 0 && forall j :: 0 <= j < |models.value| ==> !Preferred(models.value[j]))))
  {
    if models.None? || |models.value| == 0 {
      return Error(NoModels);
    }
    var ms := models.value;
    var chosen: Option<nat> := None;
    var i := 0;
    while i < |ms| && chosen.None?
      invariant 0 <= i <= |ms|
      invariant chosen.None? ==> forall j :: 0 <= j < i ==> !Preferred(ms[j])
      invariant chosen.Some? ==> chosen.value < |ms| && Preferred(ms[chosen.value]) &&
                                 forall j :: 0 <= j < chosen.value ==> !Preferred(ms[j])
    {
      if Preferred(ms[i]) {
        chosen := Some(i);
      }
      i := i + 1;
    }
    match chosen
    case Some(k) =>
      r := Ok(ms[k]);
    case None =>
      r := Ok(ms[0]);
  }

  // -------------------------------------------------------------- listModels

  datatype InputInfo = InputInfo(name: string, typeRef: string)

  /** One entry of the model list: the definitions' name and namespace and
      the model's inputs. */
  datatype ModelInfo = ModelInfo(name: string, namespace: string, inputs: seq<InputInfo>)

  /** The typeRef of the first `variable` element below an input, "" without one. */
  function VariableType(input: Node): string
  {
    match FirstBelow(input, "variable")
    case Some(v) => Attr(v, "typeRef")
    case None => ""
  }

  function DescribeModel(defs: Node): ModelInfo
  {
    var ds := Descendants(defs, "inputData");
    ModelInfo(Attr(defs, "name"), Attr(defs, "namespace"),
              seq(|ds|, i requires 0 <= i < |ds| => InputInfo(Attr(ds[i], "name"), VariableType(ds[i]))))
  }

  /** The key duplicates are detected by: `name + "::" + namespace`. */
  function ModelKey(m: ModelInfo): string
  {
    CompositeId(m.name, m.namespace)
  }

  /** The models of the documents that could be read, in resource order; a
      resource that failed to parse (`None`) is skipped. */
  function Readable(docs: seq<Option<Node>>): seq<ModelInfo>
    decreases |docs|
  {
    if |docs| == 0 then []
    else
      var last := docs[|docs| - 1];
      Readable(docs[..|docs| - 1]) + (if last.Some? then [DescribeModel(last.value)] else [])
  }

  lemma ReadableStep(docs: seq<Option<Node>>, i: nat)
    requires i < |docs|
    ensures Readable(docs[..i + 1]) ==
            Readable(docs[..i]) + (if docs[i].Some? then [DescribeModel(docs[i].value)] else [])
  {
    assert docs[..i + 1][..i] == docs[..i];
  }

  /** One more resource: a readable one adds its model to the kept list
      unless its key was seen, and adds its key to the seen keys. */
  lemma ListModelsStep(docs: seq<Option<Node>>, i: nat)
    requires i < |docs|
    ensures docs[i].None? ==> Readable(docs[..i + 1]) == Readable(docs[..i])
    ensures docs[i].Some? ==>
              var mi := DescribeModel(docs[i].value);
              KeepFirstByKey(Readable(docs[..i + 1]), ModelKey) ==
                KeepFirstByKey(Readable(docs[..i]), ModelKey) +
                (if ModelKey(mi) in KeysOf(Readable(docs[..i]), ModelKey) then [] else [mi]) &&
              KeysOf(Readable(docs[..i + 1]), ModelKey) == KeysOf(Readable(docs[..i]), ModelKey) + {ModelKey(mi)}
  {
    ReadableStep(docs, i);
    if docs[i].Some? {
      var mi := DescribeModel(docs[i].value);
      KeepFirstStep(Readable(docs[..i]), mi, ModelKey);
      KeysOfAppend(Readable(docs[..i]), mi, ModelKey);
    }
  }

  /** listModels: the first model of each key, in resource order. */
  method ListModels(docs: seq<Option<Node>>) returns (out: seq<ModelInfo>)
    ensures out == KeepFirstByKey(Readable(docs), ModelKey)
    ensures DistinctKeys(out, ModelKey)
    ensures KeysOf(out, ModelKey) == KeysOf(Readable(docs), ModelKey)
  {
    var seen: set<string> := {};
    out := [];
    var i := 0;
    while i < |docs|
      invariant 0 <= i <= |docs|
      invariant out == KeepFirstByKey(Readable(docs[..i]), ModelKey)
      invariant seen == KeysOf(Readable(docs[..i]), ModelKey)
    {
      ListModelsStep(docs, i);
      if docs[i].Some? {
        var mi := DescribeModel(docs[i].value);
        var key := ModelKey(mi);
        if key !in seen {
          seen := seen + {key};
          out := out + [mi];
        }
      }
      i := i + 1;
    }
    assert docs[..|docs|] == docs;
    KeepFirstDistinct(Readable(docs), ModelKey);
    KeepFirstKeys(Readable(docs), ModelKey);
  }

  /** The key joins name and namespace without escaping, so a model named
      "a::b" in namespace "c" hides a later one named "a" in namespace "b::c". */
  lemma KeyCollision(first: seq<InputInfo>, second: seq<InputInfo>)
    ensures KeepFirstByKey([ModelInfo("a::b", "c", first), ModelInfo("a", "b::c", second)], ModelKey) ==
            [ModelInfo("a::b", "c", first)]
  {
    var m1 := ModelInfo("a::b", "c", first);
    var m2 := ModelInfo("a", "b::c", second);
    assert ModelKey(m1) == ModelKey(m2);
    KeepFirstStep([], m1, ModelKey);
    KeepFirstStep([m1], m2, ModelKey);
    assert [m1] + [m2] == [m1, m2];
    assert KeysOf([m1], ModelKey) == {ModelKey(m1)} by {
      assert forall y :: y in [m1] <==> y == m1;
    }
  }

  // -------------------------------------------------------- name matching

  /** A document is the model named `modelName`, ignoring case. */
  predicate IsModel(doc: Node, modelName: string)
  {
    EqualsIgnoreCase(Attr(doc, "name"), modelName)
  }

  predicate IsDecision(dec: Node, decisionName: string)
  {
    EqualsIgnoreCase(decisionName, Attr(dec, "name"))
  }

  /** The first decision of a document whose name matches, ignoring case. */
  function FindDecision(doc: Node, decisionName: string): (r: Option<Node>)
    ensures r.None? <==> forall d :: d in Descendants(doc, "decision") ==> !IsDecision(d, decisionName)
    ensures r.Some? ==> (exists k :: 0 <= k < |Descendants(doc, "decision")| &&
                          Descendants(doc, "decision")[k] == r.value && IsDecision(r.value, decisionName) &&
                          forall j :: 0 <= j < k ==> !IsDecision(Descendants(doc, "decision")[j], decisionName))
  {
    Find(Descendants(doc, "decision"), d => IsDecision(d, decisionName))
  }

  /** A readable document of that model holding a decision of that name. */
  predicate Hosts(doc: Option<Node>, modelName: string, decisionName: string)
  {
    doc.Some? && IsModel(doc.value, modelName) && FindDecision(doc.value, decisionName).Some?
  }

  /** The decision the table endpoints act on: resources are searched in
      order, and a model of the right name without that decision does not
      stop the search. */
  function LocateDecision(docs: seq<Option<Node>>, modelName: string, decisionName: string): (r: Option<Node>)
    ensures r.None? <==> forall i :: 0 <= i < |docs| ==> !Hosts(docs[i], modelName, decisionName)
    ensures r.Some? ==> (exists i :: 0 <= i < |docs| && Hosts(docs[i], modelName, decisionName) &&
                          (forall j :: 0 <= j < i ==> !Hosts(docs[j], modelName, decisionName)) &&
                          r == FindDecision(docs[i].value, decisionName))
  {
    match FindIndex(docs, doc => Hosts(doc, modelName, decisionName))
    case None => None
    case Some(i) => FindDecision(docs[i].value, decisionName)
  }

  /** The first readable document of the model named `modelName`, ignoring case. */
  predicate FirstModelAt(docs: seq<Option<Node>>, modelName: string, i: nat)
  {
    i < |docs| && docs[i].Some? && IsModel(docs[i].value, modelName) &&
    forall j :: 0 <= j < i ==> !(docs[j].Some? && IsModel(docs[j].value, modelName))
  }

  /** One entry of the table list: a decision's name and whether it holds a
      decision table. */
  datatype TableEntry = TableEntry(name: string, hasDecisionTable: bool)

  function Entry(dec: Node): TableEntry
  {
    TableEntry(Attr(dec, "name"), FirstBelow(dec, "decisionTable").Some?)
  }

  /** `throw new RuntimeException(e)`: the table and schema endpoints catch
      every exception at their end and throw it again wrapped, and the
      wrapper's message is the cause's class name followed by its message. */
  function Rethrown(message: string): string
  {
    "java.lang.RuntimeException: " + message
  }

  function ModelNotFound(modelName: string): string
  {
    Rethrown("Model not found: " + modelName)
  }

  /** listDecisionTables: every decision of the first readable document of
      that model, in document order; without one, "Model not found". */
  function ListDecisionTables(docs: seq<Option<Node>>, modelName: string): (r: Result<seq<TableEntry>>)
    ensures r.Error? <==> forall i :: 0 <= i < |docs| ==> !(docs[i].Some? && IsModel(docs[i].value, modelName))
    ensures r.Error? ==> r.message == ModelNotFound(modelName)
    ensures r.Ok? ==> (exists i: nat :: FirstModelAt(docs, modelName, i) &&
                        |r.value| == |Descendants(docs[i].value, "decision")| &&
                        forall k :: 0 <= k < |r.value| ==> r.value[k] == Entry(Descendants(docs[i].value, "decision")[k]))
  {
    match FindIndex(docs, (doc: Option<Node>) => doc.Some? && IsModel(doc.value, modelName))
    case None => Error(ModelNotFound(modelName))
    case Some(i) =>
      assert FirstModelAt(docs, modelName, i);
      var decs := Descendants(docs[i].value, "decision");
      Ok(seq(|decs|, k requires 0 <= k < |decs| => Entry(decs[k])))
  }

  /** Every decision the list shows can be fetched by its name: the first
      document of the model hosts a decision of that name, and no earlier
      document is of that model. */
  lemma ListedTablesFetchable(docs: seq<Option<Node>>, modelName: string, k: nat)
    requires ListDecisionTables(docs, modelName).Ok?
    requires k < |ListDecisionTables(docs, modelName).value|
    ensures GetDecisionTable(docs, modelName, ListDecisionTables(docs, modelName).value[k].name).Ok?
  {
    var entries := ListDecisionTables(docs, modelName).value;
    var i: nat :| FirstModelAt(docs, modelName, i) &&
                  |entries| == |Descendants(docs[i].value, "decision")| &&
                  forall k :: 0 <= k < |entries| ==> entries[k] == Entry(Descendants(docs[i].value, "decision")[k]);
    var decs := Descendants(docs[i].value, "decision");
    assert entries[k] == Entry(decs[k]);
    assert IsDecision(decs[k], entries[k].name);
    assert decs[k] in decs;
    assert FindDecision(docs[i].value, entries[k].name).Some?;
    assert Hosts(docs[i], modelName, entries[k].name);
  }

  // -------------------------------------------------------- decision tables

  /** The choice of an input column's label, as a list of candidates: the
      `label` attribute; the inputExpression's text; the `name` attribute;
      the name of the input's variable. */
  function LabelCandidates(input: Node): seq<string>
  {
    var expression := match FirstBelow(input, "inputExpression")
      case Some(ie) => ExpressionText(ie)
      case None => "";
    var variable := match FirstBelow(input, "variable")
      case Some(v) => Attr(v, "name")
      case None => "";
    [Attr(input, "label"), expression, Attr(input, "name"), variable]
  }

  /** The first non-empty string, "" when there is none. */
  function FirstNonEmpty(xs: seq<string>): (r: string)
    ensures r == "" <==> forall i :: 0 <= i < |xs| ==> xs[i] == ""
    ensures r != "" ==> exists k :: 0 <= k < |xs| && xs[k] == r && forall j :: 0 <= j < k ==> xs[j] == ""
  {
    match FindIndex(xs, (x: string) => x != "")
    case None => ""
    case Some(k) => xs[k]
  }

  /** The text an inputExpression gives: the content of its first `text`
      element as it is, otherwise its own content trimmed. */
  function ExpressionText(ie: Node): string
  {
    match FirstBelow(ie, "text")
    case Some(t) => TextContent(t)
    case None => JavaTrim(TextContent(ie))
  }

  /** The first non-empty candidate is at `k`. */
  lemma FirstNonEmptyAt(xs: seq<string>, k: nat)
    requires k < |xs| && xs[k] != "" && forall j :: 0 <= j < k ==> xs[j] == ""
    ensures FirstNonEmpty(xs) == xs[k]
  {
    FindIndexAt(xs, (x: string) => x != "", k);
  }

  /** The label of an input column: each fallback is tried only while the
      label so far is empty, and the result is never null. */
  function InputLabel(input: Node): (r: string)
    ensures r == FirstNonEmpty(LabelCandidates(input))
  {
    var c := LabelCandidates(input);
    var given := Attr(input, "label");
    var ie := FirstBelow(input, "inputExpression");
    var text := if given == "" && ie.Some? then ExpressionText(ie.value) else given;
    if text != "" then
      if given != "" then FirstNonEmptyAt(c, 0); text
      else FirstNonEmptyAt(c, 1); text
    else if Attr(input, "name") != "" then
      FirstNonEmptyAt(c, 2); Attr(input, "name")
    else
      var v := FirstBelow(input, "variable");
      if v.Some? && Attr(v.value, "name") != "" then
        FirstNonEmptyAt(c, 3); Attr(v.value, "name")
      else text
  }

  /** An input with a non-empty `name` attribute always gets a non-empty label. */
  lemma NamedInputHasLabel(input: Node)
    requires Attr(input, "name") != ""
    ensures InputLabel(input) != ""
  {
    assert LabelCandidates(input)[2] == Attr(input, "name");
  }

  /** A rule's entries: each entry's text content, trimmed. */
  datatype Rule = Rule(inputs: seq<string>, outputs: seq<string>)

  /** The parsed form of a decision table: input labels, output names, rules. */
  datatype Parsed = Parsed(inputs: seq<string>, outputs: seq<string>, rules: seq<Rule>)

  function EntryTexts(entries: seq<Node>): (r: seq<string>)
    ensures |r| == |entries|
    ensures forall i :: 0 <= i < |entries| ==> r[i] == JavaTrim(TextContent(entries[i]))
  {
    seq(|entries|, i requires 0 <= i < |entries| => JavaTrim(TextContent(entries[i])))
  }

  function ParseRule(rule: Node): Rule
  {
    Rule(EntryTexts(Descendants(rule, "inputEntry")), EntryTexts(Descendants(rule, "outputEntry")))
  }

  /** The parsed form of a decisionTable element: one label per `input`,
      one name per `output`, one entry list per `rule`. */
  function ParseTable(dt: Node): (r: Parsed)
    ensures |r.inputs| == |Descendants(dt, "input")| && |r.outputs| == |Descendants(dt, "output")|
    ensures |r.rules| == |Descendants(dt, "rule")|
    ensures forall i :: 0 <= i < |r.inputs| ==> r.inputs[i] == InputLabel(Descendants(dt, "input")[i])
    ensures forall i :: 0 <= i < |r.outputs| ==> r.outputs[i] == Attr(Descendants(dt, "output")[i], "name")
    ensures forall i :: 0 <= i < |r.rules| ==>
              r.rules[i].inputs == EntryTexts(Descendants(Descendants(dt, "rule")[i], "inputEntry")) &&
              r.rules[i].outputs == EntryTexts(Descendants(Descendants(dt, "rule")[i], "outputEntry"))
  {
    var ins := Descendants(dt, "input");
    var outs := Descendants(dt, "output");
    var rules := Descendants(dt, "rule");
    Parsed(seq(|ins|, i requires 0 <= i < |ins| => InputLabel(ins[i])),
           seq(|outs|, i requires 0 <= i < |outs| => Attr(outs[i], "name")),
           seq(|rules|, i requires 0 <= i < |rules| => ParseRule(rules[i])))
  }

  /** What getDecisionTable returns: the decision's name, its decisionTable
      element (standing for the XML text it is serialised to) and the parsed
      form; a decision without a table has neither. */
  datatype TableView = TableView(name: string, table: Option<Node>, parsed: Option<Parsed>)

  function NotFound(decisionName: string, modelName: string): string
  {
    Rethrown("Decision not found: " + decisionName + " in model " + modelName)
  }

  function GetDecisionTable(docs: seq<Option<Node>>, modelName: string, decisionName: string): (r: Result<TableView>)
    ensures r.Error? <==> LocateDecision(docs, modelName, decisionName).None?
    ensures r.Error? ==> r.message == NotFound(decisionName, modelName)
    ensures r.Ok? ==> var dec := LocateDecision(docs, modelName, decisionName).value;
              r.value.name == Attr(dec, "name") && r.value.table == FirstBelow(dec, "decisionTable") &&
              (r.value.table.None? ==> r.value.parsed.None?) &&
              (r.value.table.Some? ==> r.value.parsed == Some(ParseTable(r.value.table.value)))
  {
    match LocateDecision(docs, modelName, decisionName)
    case None => Error(NotFound(decisionName, modelName))
    case Some(dec) =>
      match FirstBelow(dec, "decisionTable")
      case None => Ok(TableView(Attr(dec, "name"), None, None))
      case Some(dt) => Ok(TableView(Attr(dec, "name"), Some(dt), Some(ParseTable(dt))))
  }

  // ------------------------------------------------------------ resolveType

  /** The item definitions of a document by name; unnamed ones are left out. */
  function ItemDefs(ds: seq<Node>): (r: map<string, Node>)
    ensures forall k :: k in r ==> k != "" && Attr(r[k], "name") == k
    ensures forall i :: 0 <= i < |ds| && Attr(ds[i], "name") != "" ==> Attr(ds[i], "name") in r
    decreases |ds|
  {
    if |ds| == 0 then map[]
    else
      var n := |ds| - 1;
      var rest := ItemDefs(ds[..n]);
      var name := Attr(ds[n], "name");
      assert forall i :: 0 <= i < n ==> ds[..n][i] == ds[i];
      if name != "" then rest[name := ds[n]] else rest
  }

  /** Of several definitions with one name, the last one counts. */
  lemma {:induction false} ItemDefsLast(ds: seq<Node>, i: nat)
    requires i < |ds| && Attr(ds[i], "name") != ""
    requires forall j :: i < j < |ds| ==> Attr(ds[j], "name") != Attr(ds[i], "name")
    ensures ItemDefs(ds)[Attr(ds[i], "name")] == ds[i]
    decreases |ds|
  {
    var n := |ds| - 1;
    if i < n {
      assert ds[..n][i] == ds[i];
      ItemDefsLast(ds[..n], i);
    }
  }

  /** The expanded schema of a type: its name and, for an item definition,
      its fields. */
  datatype TypeSchema = TypeSchema(typ: string, fields: Option<seq<FieldSchema>>)

  /** One field of an item definition; `schema` only for item-definition types. */
  datatype FieldSchema = FieldSchema(name: string, isCollection: bool, typ: string, schema: Option<TypeSchema>)

  /** The text of a component's first `typeRef` element, "" without one. */
  function ComponentType(comp: Node): string
  {
    match FirstBelow(comp, "typeRef")
    case Some(t) => TextContent(t)
    case None => ""
  }

  /** A component refers to an item definition and is expanded recursively. */
  predicate Nested(defs: map<string, Node>, comp: Node)
  {
    ComponentType(comp) != "" && ComponentType(comp) in defs
  }

  function Components(defs: map<string, Node>, typeRef: string): seq<Node>
    requires typeRef in defs
  {
    Descendants(defs[typeRef], "itemComponent")
  }

  /** resolveType. The source recurses without a bound; `fuel` is the depth
      of nested expansions the stack allows, and `None` is the overflow. */
  function ResolveType(defs: map<string, Node>, typeRef: string, fuel: nat): (r: Option<TypeSchema>)
    ensures typeRef == "" ==> r == Some(TypeSchema("string", None))
    ensures typeRef != "" && typeRef !in defs ==> r == Some(TypeSchema(typeRef, None))
    ensures typeRef != "" && typeRef in defs && r.Some? ==>
              r.value.typ == typeRef && r.value.fields.Some? &&
              |r.value.fields.value| == |Components(defs, typeRef)|
    decreases fuel, 1, 0
  {
    if typeRef == "" then Some(TypeSchema("string", None))
    else if typeRef in defs then
      match ResolveFields(defs, Components(defs, typeRef), fuel)
      case None => None
      case Some(fields) => Some(TypeSchema(typeRef, Some(fields)))
    else Some(TypeSchema(typeRef, None))
  }

  /** The field one itemComponent contributes: its name, whether
      `isCollection` is "true" ignoring case, its type ("string" when none
      is given) and, for an item-definition type, the nested schema. */
  function ResolveField(defs: map<string, Node>, comp: Node, fuel: nat): (r: Option<FieldSchema>)
    ensures r.Some? ==> (r.value.name == Attr(comp, "name") &&
                         r.value.isCollection == EqualsIgnoreCase("true", Attr(comp, "isCollection")))
    ensures r.Some? ==> (r.value.schema.Some? <==> Nested(defs, comp))
    ensures r.Some? ==> r.value.typ == if ComponentType(comp) == "" then "string" else ComponentType(comp)
    ensures !Nested(defs, comp) ==> r.Some?
    decreases fuel, 0, 0
  {
    var ftype := ComponentType(comp);
    var name := Attr(comp, "name");
    var collection := EqualsIgnoreCase("true", Attr(comp, "isCollection"));
    if Nested(defs, comp) then
      if fuel == 0 then None
      else match ResolveType(defs, ftype, fuel - 1)
        case None => None
        case Some(s) => Some(FieldSchema(name, collection, ftype, Some(s)))
    else Some(FieldSchema(name, collection, if ftype == "" then "string" else ftype, None))
  }

  function ResolveFields(defs: map<string, Node>, comps: seq<Node>, fuel: nat): (r: Option<seq<FieldSchema>>)
    ensures r.None? <==> exists i :: 0 <= i < |comps| && ResolveField(defs, comps[i], fuel).None?
    ensures r.Some? ==> (|r.value| == |comps| &&
                         forall i :: 0 <= i < |comps| ==> ResolveField(defs, comps[i], fuel) == Some(r.value[i]))
    decreases fuel, 0, |comps| + 1
  {
    if |comps| == 0 then Some([])
    else
      match ResolveField(defs, comps[0], fuel)
      case None => None
      case Some(f) =>
        match ResolveFields(defs, comps[1..], fuel)
        case None =>
          assert exists i :: 0 <= i < |comps| && ResolveField(defs, comps[i], fuel).None? by {
            var j :| 0 <= j < |comps| - 1 && ResolveField(defs, comps[1..][j], fuel).None?;
            assert comps[1..][j] == comps[j + 1];
          }
          None
        case Some(rest) =>
          var fields := [f] + rest;
          assert forall i :: 0 <= i < |comps| ==> ResolveField(defs, comps[i], fuel) == Some(fields[i]) by {
            forall i | 0 <= i < |comps| ensures ResolveField(defs, comps[i], fuel) == Some(fields[i]) {
              if i > 0 {
                assert comps[i] == comps[1..][i - 1] && fields[i] == rest[i - 1];
              }
            }
          }
          Some(fields)
  }

  /** More stack never changes a schema that resolved. */
  lemma {:induction false} TypeFuelMono(defs: map<string, Node>, typeRef: string, fuel: nat)
    requires ResolveType(defs, typeRef, fuel).Some?
    ensures ResolveType(defs, typeRef, fuel + 1) == ResolveType(defs, typeRef, fuel)
    decreases fuel, 1, 0
  {
    if typeRef != "" && typeRef in defs {
      FieldsFuelMono(defs, Components(defs, typeRef), fuel);
    }
  }

  lemma {:induction false} FieldFuelMono(defs: map<string, Node>, comp: Node, fuel: nat)
    requires ResolveField(defs, comp, fuel).Some?
    ensures ResolveField(defs, comp, fuel + 1) == ResolveField(defs, comp, fuel)
    decreases fuel, 0, 0
  {
    if Nested(defs, comp) {
      var ftype := ComponentType(comp);
      assert fuel > 0;
      TypeFuelMono(defs, ftype, fuel - 1);
      assert ResolveType(defs, ftype, fuel) == ResolveType(defs, ftype, fuel - 1);
    }
  }

  lemma {:induction false} FieldsFuelMono(defs: map<string, Node>, comps: seq<Node>, fuel: nat)
    requires ResolveFields(defs, comps, fuel).Some?
    ensures ResolveFields(defs, comps, fuel + 1) == ResolveFields(defs, comps, fuel)
    decreases fuel, 0, |comps| + 1
  {
    if |comps| > 0 {
      FieldFuelMono(defs, comps[0], fuel);
      FieldsFuelMono(defs, comps[1..], fuel);
    }
  }

  /** A definition with a component of its own type never resolves: the
      source's recursion on it does not terminate. */
  lemma {:induction false} SelfReferenceOverflows(defs: map<string, Node>, typeRef: string, fuel: nat, k: nat)
    requires typeRef != "" && typeRef in defs
    requires k < |Components(defs, typeRef)| && ComponentType(Components(defs, typeRef)[k]) == typeRef
    ensures ResolveType(defs, typeRef, fuel).None?
    decreases fuel
  {
    var comp := Components(defs, typeRef)[k];
    assert Nested(defs, comp);
    if fuel > 0 {
      SelfReferenceOverflows(defs, typeRef, fuel - 1, k);
    }
    assert ResolveField(defs, comp, fuel).None?;
  }

  /** One input of a model schema: its name, its variable's typeRef and the
      expanded schema of that type. */
  datatype InputSchema = InputSchema(name: string, typeRef: string, schema: TypeSchema)

  datatype ModelSchema = ModelSchema(name: string, namespace: string, inputs: seq<InputSchema>)

  const StackOverflow: string := "StackOverflowError"

  function InputSchemas(defs: map<string, Node>, ins: seq<Node>, fuel: nat): (r: Option<seq<InputSchema>>)
    ensures r.Some? ==> |r.value| == |ins| && forall i :: 0 <= i < |ins| ==>
              r.value[i].name == Attr(ins[i], "name") && r.value[i].typeRef == VariableType(ins[i]) &&
              ResolveType(defs, VariableType(ins[i]), fuel) == Some(r.value[i].schema)
    ensures r.None? ==> exists i :: 0 <= i < |ins| && ResolveType(defs, VariableType(ins[i]), fuel).None?
    decreases |ins|
  {
    if |ins| == 0 then Some([])
    else
      var n := |ins| - 1;
      match InputSchemas(defs, ins[..n], fuel)
      case None => None
      case Some(rest) =>
        match ResolveType(defs, VariableType(ins[n]), fuel)
        case None => None
        case Some(s) => Some(rest + [InputSchema(Attr(ins[n], "name"), VariableType(ins[n]), s)])
  }

  /** The inputs of a model document with their expanded types, against the
      document's own item definitions; `None` when an expansion overflows. */
  function DocInputs(doc: Node, fuel: nat): Option<seq<InputSchema>>
  {
    InputSchemas(ItemDefs(Descendants(doc, "itemDefinition")), Descendants(doc, "inputData"), fuel)
  }

  /** getModelSchema: the first readable document of that model, ignoring
      case; its name and namespace and every input with its expanded type.
      A document of another model, or one that does not parse, is skipped;
      an overflowing expansion is not caught per resource and ends the
      request. */
  function GetModelSchema(docs: seq<Option<Node>>, modelName: string, fuel: nat): (r: Result<ModelSchema>)
    ensures (forall i :: 0 <= i < |docs| ==> !(docs[i].Some? && IsModel(docs[i].value, modelName))) <==>
              r == Error(ModelNotFound(modelName))
    ensures forall i: nat :: FirstModelAt(docs, modelName, i) ==>
              (r.Error? <==> DocInputs(docs[i].value, fuel).None?) &&
              (r.Error? ==> r.message == StackOverflow)
    ensures r.Ok? ==> (exists i: nat :: FirstModelAt(docs, modelName, i) &&
                        r.value.name == Attr(docs[i].value, "name") &&
                        r.value.namespace == Attr(docs[i].value, "namespace") &&
                        DocInputs(docs[i].value, fuel) == Some(r.value.inputs))
  {
    match FindIndex(docs, (doc: Option<Node>) => doc.Some? && IsModel(doc.value, modelName))
    case None => Error(ModelNotFound(modelName))
    case Some(i) =>
      assert FirstModelAt(docs, modelName, i);
      FirstModelAtUnique(docs, modelName, i);
      assert StackOverflow != ModelNotFound(modelName) by {
        assert StackOverflow[0] != ModelNotFound(modelName)[0];
      }
      var doc := docs[i].value;
      match DocInputs(doc, fuel)
      case None => Error(StackOverflow)
      case Some(ins) => Ok(ModelSchema(Attr(doc, "name"), Attr(doc, "namespace"), ins))
  }

  /** Only one index is the first document of a model. */
  lemma FirstModelAtUnique(docs: seq<Option<Node>>, modelName: string, i: nat)
    requires FirstModelAt(docs, modelName, i)
    ensures forall j: nat :: FirstModelAt(docs, modelName, j) ==> j == i
  {
    forall j: nat | FirstModelAt(docs, modelName, j) ensures j == i {
      assert !(j < i) && !(i < j);
    }
  }

  /** The schema's inputs are the inputData elements of the first document of
      the model, in document order: one entry per element, with its name and
      the typeRef of its variable. */
  lemma SchemaInputsFollowDocument(docs: seq<Option<Node>>, modelName: string, fuel: nat)
    requires GetModelSchema(docs, modelName, fuel).Ok?
    ensures var r := GetModelSchema(docs, modelName, fuel).value;
            exists i: nat :: FirstModelAt(docs, modelName, i) &&
              |r.inputs| == |Descendants(docs[i].value, "inputData")| &&
              forall k :: 0 <= k < |r.inputs| ==>
                r.inputs[k].name == Attr(Descendants(docs[i].value, "inputData")[k], "name") &&
                r.inputs[k].typeRef == VariableType(Descendants(docs[i].value, "inputData")[k])
  {
    var r := GetModelSchema(docs, modelName, fuel).value;
    var i: nat :| FirstModelAt(docs, modelName, i) && DocInputs(docs[i].value, fuel) == Some(r.inputs);
    var doc := docs[i].value;
    assert InputSchemas(ItemDefs(Descendants(doc, "itemDefinition")), Descendants(doc, "inputData"), fuel) == Some(r.inputs);
  }

  // ------------------------------------------------------------- writePath

  const ResourcesDir: string := "src/main/resources/"

  /** Prefixes the resources directory unless the path already starts with it. */
  function UnderResources(p: string): (r: string)
    ensures StartsWith(r, ResourcesDir)
    ensures StartsWith(p, ResourcesDir) ==> r == p
    ensures !StartsWith(p, ResourcesDir) ==> r == ResourcesDir + p
  {
    if StartsWith(p, ResourcesDir) then p
    else
      assert (ResourcesDir + p)[..|ResourcesDir|] == ResourcesDir;
      ResourcesDir + p
  }

  lemma UnderResourcesIdempotent(p: string)
    ensures UnderResources(UnderResources(p)) == UnderResources(p)
  {
  }

  /** The path a DMN resource is written to in the KIE file system. `uriPath`
      is the resource's URI path, `None` when it cannot be had. The part
      after "src/main/resources" is used when the URI holds it; taking it
      fails (and the file name is used) when the URI ends right there. */
  function WritePath(filename: string, uriPath: Option<string>): (r: string)
    ensures StartsWith(r, ResourcesDir)
    ensures (uriPath.None? || !Contains(uriPath.value, "src/main/resources")) ==>
              r == ResourcesDir + filename
    ensures uriPath.Some? && IndexOf(uriPath.value, "src/main/resources").Some? &&
            IndexOf(uriPath.value, "src/main/resources").value + |ResourcesDir| <= |uriPath.value| ==>
              r == UnderResources(uriPath.value[IndexOf(uriPath.value, "src/main/resources").value + |ResourcesDir|..])
    ensures uriPath.Some? && IndexOf(uriPath.value, "src/main/resources").Some? &&
            IndexOf(uriPath.value, "src/main/resources").value + |ResourcesDir| > |uriPath.value| ==>
              r == ResourcesDir + filename
  {
    var fallback := ResourcesDir + filename;
    var path := match uriPath
      case None => fallback
      case Some(uri) =>
        match IndexOf(uri, "src/main/resources")
        case None => fallback
        case Some(idx) => if idx + |ResourcesDir| <= |uri| then uri[idx + |ResourcesDir|..] else fallback;
    UnderResources(path)
  }

  /** A write path is already under the resources directory, and it ends
      with what the URI holds after "src/main/resources/" when that part is
      taken. */
  lemma WritePathKeepsSuffix(filename: string, uri: string)
    requires IndexOf(uri, "src/main/resources").Some?
    requires IndexOf(uri, "src/main/resources").value + |ResourcesDir| <= |uri|
    ensures var r := WritePath(filename, Some(uri));
            var tail := uri[IndexOf(uri, "src/main/resources").value + |ResourcesDir|..];
            UnderResources(r) == r && |tail| <= |r| && r[|r| - |tail|..] == tail
  {
    var tail := uri[IndexOf(uri, "src/main/resources").value + |ResourcesDir|..];
    var r := WritePath(filename, Some(uri));
    assert r == tail || r == ResourcesDir + tail;
    assert r[|r| - |tail|..] == tail by {
      if r != tail {
        assert r[|ResourcesDir|..] == tail;
      }
    }
  }

  // ------------------------------------------------------ updateDecisionTable

  /** `body.get("decisionTableXml")`, null when absent or null, else its
      toString. */
  function BodyXml(body: map<string, JsValue>): Option<string>
  {
    if "decisionTableXml" !in body then None
    else match body["decisionTableXml"]
      case JsString(s) => Some(s)
      case JsBool(b) => Some(if b then "true" else "false")
      case JsNumber(n) => Some(if n < 0 then "-" + NatToString(-n) else NatToString(n))
      case _ => None
  }

  /** What rebuilding the KIE module reports: whether it has error-level
      messages and every message, or the message of an exception. */
  datatype Rebuild = Built(hasErrors: bool, messages: seq<string>) | RebuildThrew(message: string)

  datatype UpdateStatus = BuildFailed(errors: string) | RebuildFailed(error: string) | Updated(model: string, decision: string)

  const XmlRequired: string := "decisionTableXml is required in body"

  function NotFoundToUpdate(modelName: string, decisionName: string): string
  {
    Rethrown("Decision not found to update: " + decisionName + " in model " + modelName)
  }

  /** Every message followed by a newline. */
  function Lines(ms: seq<string>): (r: string)
    ensures |r| >= |ms|
    ensures |ms| == 0 <==> r == ""
    ensures |ms| > 0 ==> r[|r| - 1] == '\n'
    decreases |ms|
  {
    if |ms| == 0 then "" else Lines(ms[..|ms| - 1]) + ms[|ms| - 1] + "\n"
  }

  /** Whether the new table can go into `dec`: it has no decision table
      below it (the new one is appended), or the first one in document order
      is its own child (replaceChild needs that; otherwise it throws). */
  predicate TableReplaceable(dec: Node)
  {
    FirstBelow(dec, "decisionTable").None? || FirstBelowIsChild(dec, "decisionTable")
  }

  /** A document the update can act on: it hosts the decision, and the
      table of its first decision of that name can be replaced. */
  predicate Updatable(doc: Option<Node>, modelName: string, decisionName: string)
  {
    Hosts(doc, modelName, decisionName) && TableReplaceable(FindDecision(doc.value, decisionName).value)
  }

  /** updateDecisionTable. The new table XML must parse (`parses`) for the
      decision to be replaced; a parse failure, and a replaceChild whose old
      table is not a child of the decision, are caught per resource, so the
      search goes on and may end as "not found". Writing files back is not
      modelled. */
  function UpdateDecisionTable(docs: seq<Option<Node>>, modelName: string, decisionName: string,
                               body: map<string, JsValue>, parses: bool, rebuild: Rebuild): (r: Result<UpdateStatus>)
    ensures BodyXml(body).None? ==> r == Error(XmlRequired)
    ensures BodyXml(body).Some? &&
            (!parses || forall i :: 0 <= i < |docs| ==> !Updatable(docs[i], modelName, decisionName)) ==>
              r == Error(NotFoundToUpdate(modelName, decisionName))
    ensures r.Ok? <==> BodyXml(body).Some? && parses &&
                       exists i :: 0 <= i < |docs| && Updatable(docs[i], modelName, decisionName)
    ensures r.Ok? ==> (r.value.BuildFailed? <==> rebuild.Built? && rebuild.hasErrors)
    ensures r.Ok? ==> (r.value.RebuildFailed? <==> rebuild.RebuildThrew?)
    ensures r.Ok? && r.value.Updated? ==> r.value == Updated(modelName, decisionName)
    ensures r.Ok? && r.value.BuildFailed? ==> r.value.errors == Lines(rebuild.messages)
    ensures r.Ok? && r.value.RebuildFailed? ==> r.value.error == rebuild.message
  {
    if BodyXml(body).None? then Error(XmlRequired)
    else if !parses || FindIndex(docs, doc => Updatable(doc, modelName, decisionName)).None? then
      Error(NotFoundToUpdate(modelName, decisionName))
    else match rebuild
      case Built(hasErrors, messages) =>
        if hasErrors then Ok(BuildFailed(Lines(messages))) else Ok(Updated(modelName, decisionName))
      case RebuildThrew(message) => Ok(RebuildFailed(message))
  }

  /** The first document hosting the decision is the one updated when its
      decision's table can be replaced. */
  lemma LocatedReplaceableIsUpdated(docs: seq<Option<Node>>, modelName: string, decisionName: string,
                                    body: map<string, JsValue>, rebuild: Rebuild)
    requires BodyXml(body).Some?
    requires LocateDecision(docs, modelName, decisionName).Some?
    requires TableReplaceable(LocateDecision(docs, modelName, decisionName).value)
    ensures UpdateDecisionTable(docs, modelName, decisionName, body, true, rebuild).Ok?
  {
    var i :| 0 <= i < |docs| && Hosts(docs[i], modelName, decisionName) &&
             LocateDecision(docs, modelName, decisionName) == FindDecision(docs[i].value, decisionName);
    assert Updatable(docs[i], modelName, decisionName);
  }

  /** A decision whose table sits inside a context entry is found by the
      read endpoints, but replaceChild refuses the nested table, so the
      update reports the decision as not found. */
  lemma NestedTableNotUpdated(body: map<string, JsValue>, rebuild: Rebuild)
    requires BodyXml(body).Some?
    ensures var table := Element("decisionTable", map[], []);
            var dec := Element("decision", map["name" := "d"],
                               [Element("context", map[], [Element("contextEntry", map[], [table])])]);
            var docs := [Some(Element("definitions", map["name" := "m"], [dec]))];
            LocateDecision(docs, "m", "d") == Some(dec) &&
            FirstBelow(dec, "decisionTable") == Some(table) &&
            UpdateDecisionTable(docs, "m", "d", body, true, rebuild) == Error(NotFoundToUpdate("m", "d"))
  {
    var table := Element("decisionTable", map[], []);
    var entry := Element("contextEntry", map[], [table]);
    var context := Element("context", map[], [entry]);
    var dec := Element("decision", map["name" := "d"], [context]);
    var doc := Element("definitions", map["name" := "m"], [dec]);
    NestedDecision(table, entry, context, dec, doc);
    assert !Updatable(Some(doc), "m", "d");
  }

  /** The element lists of the tree in NestedTableNotUpdated: a decision
      holding a context entry that holds a decision table. */
  lemma NestedTree(table: Node, entry: Node, context: Node, dec: Node, doc: Node)
    requires table == Element("decisionTable", map[], [])
    requires entry == Element("contextEntry", map[], [table])
    requires context == Element("context", map[], [entry])
    requires dec == Element("decision", map["name" := "d"], [context])
    requires doc == Element("definitions", map["name" := "m"], [dec])
    ensures Descendants(dec, "decisionTable") == [table]
    ensures Descendants(doc, "decision") == [dec]
    ensures Holds(context, "decisionTable")
  {
    assert Descendants(table, "decisionTable") == [];
    assert DescendantsOf(entry, [table], "decisionTable") == [table] + [] + DescendantsOf(entry, [], "decisionTable");
    assert DescendantsOf(context, [entry], "decisionTable") == [] + [table] + DescendantsOf(context, [], "decisionTable");
    assert DescendantsOf(dec, [context], "decisionTable") == [] + [table] + DescendantsOf(dec, [], "decisionTable");
    assert Descendants(table, "decision") == [];
    assert DescendantsOf(entry, [table], "decision") == [] + [] + DescendantsOf(entry, [], "decision");
    assert DescendantsOf(context, [entry], "decision") == [] + [] + DescendantsOf(context, [], "decision");
    assert DescendantsOf(dec, [context], "decision") == [] + [] + DescendantsOf(dec, [], "decision");
    assert DescendantsOf(doc, [dec], "decision") == [dec] + [] + DescendantsOf(doc, [], "decision");
  }

  /** The decision of that tree is found, and its table is not its child. */
  lemma NestedDecision(table: Node, entry: Node, context: Node, dec: Node, doc: Node)
    requires table == Element("decisionTable", map[], [])
    requires entry == Element("contextEntry", map[], [table])
    requires context == Element("context", map[], [entry])
    requires dec == Element("decision", map["name" := "d"], [context])
    requires doc == Element("definitions", map["name" := "m"], [dec])
    ensures FirstBelow(dec, "decisionTable") == Some(table)
    ensures Hosts(Some(doc), "m", "d") && FindDecision(doc, "d") == Some(dec)
    ensures !TableReplaceable(dec)
  {
    NestedTree(table, entry, context, dec, doc);
    assert HoldingChild(dec, "decisionTable") == Some(0);
    assert IsModel(doc, "m") && IsDecision(dec, "d");
  }

  /** The client's request with an undefined XML argument is refused before
      any lookup: the key is dropped when the body is serialised. */
  lemma UndefinedXmlRefused(docs: seq<Option<Node>>, modelName: string, decisionName: string,
                            testCases: JsValue, parses: bool, rebuild: Rebuild)
    ensures UpdateDecisionTable(docs, modelName, decisionName,
                                SentBody(UpdatePayload(JsUndefined, testCases)), parses, rebuild) == Error(XmlRequired)
  {
  }
}

=== FILE: conversion.dfy ===
/** The conversion of a decision table parsed by the server (input labels,
    output names, rule entries) into the editor's columns and rows. */
module Conversion {
  import opened Base
  import opened Columns
  import opened Cells
  import opened Controller
  import opened Runner

  /** A column named `name`, of type String with condition Equals. */
  function PlainColumn(name: string): Column
  {
    Column(name, "String", "Equals")
  }

  function RuleRow(rule: Rule): Row
  {
    rule.inputs + rule.outputs
  }

  /** The editor's columns and rows for a parsed table; `None` stands for a
      response without a parsed table (read as `{}`, so every list is
      empty). */
  function ParsedToTable(p: Option<Parsed>): (r: (seq<Column>, seq<Row>))
    ensures var ps := p.GetOr(Parsed([], [], []));
            |r.0| == |ps.inputs| + |ps.outputs| &&
            (forall i :: 0 <= i < |ps.inputs| ==> r.0[i] == PlainColumn(ps.inputs[i])) &&
            (forall j :: 0 <= j < |ps.outputs| ==> r.0[|ps.inputs| + j] == PlainColumn(ps.outputs[j]))
    ensures var ps := p.GetOr(Parsed([], [], []));
            |ps.rules| > 0 ==>
              |r.1| == |ps.rules| &&
              forall k :: 0 <= k < |ps.rules| ==> r.1[k] == ps.rules[k].inputs + ps.rules[k].outputs
    ensures var ps := p.GetOr(Parsed([], [], []));
            |ps.rules| == 0 ==> r.1 == [seq(|r.0|, _ => "")]
  {
    var ps := p.GetOr(Parsed([], [], []));
    var names := ps.inputs + ps.outputs;
    var cols := seq(|names|, i requires 0 <= i < |names| => PlainColumn(names[i]));
    var rows := seq(|ps.rules|, k requires 0 <= k < |ps.rules| => RuleRow(ps.rules[k]));
    (cols, if |rows| > 0 then rows else [seq(|cols|, _ => "")])
  }

  /** A rule with one entry per input and one per output. */
  predicate FullRule(ps: Parsed, rule: Rule)
  {
    |rule.inputs| == |ps.inputs| && |rule.outputs| == |ps.outputs|
  }

  /** When every rule carries one entry per input and per output, every row
      has one cell per column, and reading a row back by position gives the
      rule's input entries then its output entries. */
  lemma FullRulesFit(ps: Parsed)
    requires forall k :: 0 <= k < |ps.rules| ==> FullRule(ps, ps.rules[k])
    ensures var r := ParsedToTable(Some(ps));
            forall k :: 0 <= k < |r.1| ==> |r.1[k]| == |r.0|
    ensures var r := ParsedToTable(Some(ps));
            forall k, i :: 0 <= k < |ps.rules| && FullRule(ps, ps.rules[k]) && 0 <= i < |ps.inputs| ==> r.1[k][i] == ps.rules[k].inputs[i]
    ensures var r := ParsedToTable(Some(ps));
            forall k, j :: 0 <= k < |ps.rules| && FullRule(ps, ps.rules[k]) && 0 <= j < |ps.outputs| ==>
              r.1[k][|ps.inputs| + j] == ps.rules[k].outputs[j]
  {
  }

  /** With one output, input labels that are distinct and none of them an
      output name, a full rule's row is matched by a test case holding that
      rule's input entries: the runner finds each input column by its label
      at the rule's own position. */
  lemma RuleRowMatchesItsInputs(ps: Parsed, k: nat)
    requires |ps.outputs| == 1 && k < |ps.rules| && FullRule(ps, ps.rules[k])
    requires forall i :: 0 <= i < |ps.inputs| ==> !IsOutputName(ps.inputs[i])
    requires forall i, j :: 0 <= i < j < |ps.inputs| ==> ps.inputs[i] != ps.inputs[j]
    ensures var r := ParsedToTable(Some(ps));
            k < |r.1| && RowMatchesCase(r.0, r.1[k], ps.rules[k].inputs)
  {
    var r := ParsedToTable(Some(ps));
    var cols, row := r.0, r.1[k];
    ParsedInputColumns(ps);
    var ins := InputColumns(cols);
    forall idx | 0 <= idx < |ins|
      ensures idx < |ps.rules[k].inputs| && Stringified(row, ColumnIndexByName(cols, ins[idx].name)) == ps.rules[k].inputs[idx]
    {
      LabelFoundAtItsPosition(ps, idx);
      assert row[idx] == ps.rules[k].inputs[idx];
    }
  }

  /** The runner's input columns of a converted table with one output whose
      input labels are not output names are the input columns, in order. */
  lemma ParsedInputColumns(ps: Parsed)
    requires |ps.outputs| == 1
    requires forall i :: 0 <= i < |ps.inputs| ==> !IsOutputName(ps.inputs[i])
    ensures var cols := ParsedToTable(Some(ps)).0;
            |InputColumns(cols)| == |ps.inputs| &&
            forall i :: 0 <= i < |ps.inputs| ==> InputColumns(cols)[i] == cols[i] == PlainColumn(ps.inputs[i])
  {
    var cols := ParsedToTable(Some(ps)).0;
    var n := |ps.inputs|;
    assert forall j :: 0 <= j < n ==> !IsOutputColumn(cols[j]);
    var m := EnsureResultLast(cols);
    assert FindOutput(cols).None? || FindOutput(cols).value == n;
    assert forall i :: 0 <= i < n ==> m[i] == cols[i];
  }

  /** With distinct input labels, looking up an input label finds that
      input's own column. */
  lemma LabelFoundAtItsPosition(ps: Parsed, idx: nat)
    requires idx < |ps.inputs|
    requires forall i, j :: 0 <= i < j < |ps.inputs| ==> ps.inputs[i] != ps.inputs[j]
    ensures ColumnIndexByName(ParsedToTable(Some(ps)).0, ps.inputs[idx]) == idx
  {
    var cols := ParsedToTable(Some(ps)).0;
    var c := ColumnIndexByName(cols, ps.inputs[idx]);
    assert cols[idx].name == ps.inputs[idx];
    assert 0 <= c <= idx;
    assert cols[c].name == ps.inputs[c];
  }

  /** A table with no rules becomes one blank row. */
  lemma NoRulesOneBlankRow(ps: Parsed)
    requires ps.rules == []
    ensures |ParsedToTable(Some(ps)).1| == 1
    ensures forall c :: c in ParsedToTable(Some(ps)).1[0] ==> c == ""
  {
  }
}

=== FILE: cursor.dfy ===
/** Keyboard navigation in the table grid (handleCellKeyDown): arrow keys
    and Tab move the selected cell one step, and a step that would leave the
    grid keeps the cell where it is. */
module Cursor {

  datatype Key = ArrowRight | ArrowLeft | ArrowDown | ArrowUp | Tab(shift: bool) | OtherKey

  /** The selected cell `{ row, col }`. */
  datatype Position = Position(row: int, col: int)

  predicate Forward(k: Key) { k == ArrowRight || k == Tab(false) }

  predicate Backward(k: Key) { k == ArrowLeft || k == Tab(true) }

  predicate Inside(p: Position, columns: nat, rows: nat)
  {
    0 <= p.row < rows && 0 <= p.col < columns
  }

  /** The cell selected after a key press on `p` in a grid of `columns`
      columns and `rows` rows. */
  function NextCell(p: Position, k: Key, columns: nat, rows: nat): (r: Position)
    ensures (Forward(k) || Backward(k)) ==> r.row == p.row
    ensures (k == ArrowDown || k == ArrowUp || k == OtherKey) ==> r.col == p.col
    ensures Forward(k) ==> (r.col == p.col + 1 <==> p.col + 1 < columns) && (r.col == p.col || r.col == p.col + 1)
    ensures Backward(k) ==> (r.col == p.col - 1 <==> p.col >= 1) && (r.col == p.col || r.col == p.col - 1)
    ensures k == ArrowDown ==> (r.row == p.row + 1 <==> p.row + 1 < rows) && (r.row == p.row || r.row == p.row + 1)
    ensures k == ArrowUp ==> (r.row == p.row - 1 <==> p.row >= 1) && (r.row == p.row || r.row == p.row - 1)
    ensures k == OtherKey ==> r == p
  {
    match k
    case ArrowRight => p.(col := if p.col + 1 < columns then p.col + 1 else p.col)
    case Tab(shift) =>
      if !shift then p.(col := if p.col + 1 < columns then p.col + 1 else p.col)
      else p.(col := if p.col - 1 >= 0 then p.col - 1 else p.col)
    case ArrowLeft => p.(col := if p.col - 1 >= 0 then p.col - 1 else p.col)
    case ArrowDown => p.(row := if p.row + 1 < rows then p.row + 1 else p.row)
    case ArrowUp => p.(row := if p.row - 1 >= 0 then p.row - 1 else p.row)
    case OtherKey => p
  }

  /** A cell inside the grid stays inside whatever key is pressed. */
  lemma NextCellStaysInside(p: Position, k: Key, columns: nat, rows: nat)
    requires Inside(p, columns, rows)
    ensures Inside(NextCell(p, k, columns, rows), columns, rows)
  {
  }

  /** Forward then backward, and down then up, return to the start when the
      first step moved. */
  lemma NextCellInverse(p: Position, columns: nat, rows: nat)
    requires Inside(p, columns, rows)
    ensures p.col + 1 < columns ==>
              NextCell(NextCell(p, Tab(false), columns, rows), Tab(true), columns, rows) == p
    ensures p.row + 1 < rows ==>
              NextCell(NextCell(p, ArrowDown, columns, rows), ArrowUp, columns, rows) == p
  {
  }
}

=== FILE: dmn.dfy ===
/** The part of a DMN document the service reads: elements with a local tag
    name, attributes and children, and the two DOM queries it uses. */
module Dmn {
  import opened Base

  /** A DOM node: a text node, or an element with its tag (the local name in
      the DMN namespace), attributes and children in document order. */
  datatype Node = TextNode(text: string) | Element(tag: string, attrs: map<string, string>, children: seq<Node>)

  /** Element.getAttribute: the empty string when the attribute is absent. */
  function Attr(n: Node, name: string): string
  {
    if n.Element? && name in n.attrs then n.attrs[name] else ""
  }

  /** getElementsByTagNameNS: the elements strictly below `n` with that tag,
      in document order. */
  function Descendants(n: Node, tag: string): (r: seq<Node>)
    ensures forall d :: d in r ==> d.Element? && d.tag == tag
    decreases n, 1, 0
  {
    match n
    case TextNode(_) => []
    case Element(_, _, children) => DescendantsOf(n, children, tag)
  }

  /** The elements with that tag at or below any of `cs`, children of `parent`. */
  function DescendantsOf(parent: Node, cs: seq<Node>, tag: string): (r: seq<Node>)
    requires forall c :: c in cs ==> c < parent
    ensures forall d :: d in r ==> d.Element? && d.tag == tag
    decreases parent, 0, |cs|
  {
    if |cs| == 0 then []
    else
      var c := cs[0];
      assert c in cs;
      assert forall x :: x in cs[1..] ==> x in cs;
      var self := if c.Element? && c.tag == tag then [c] else [];
      self + Descendants(c, tag) + DescendantsOf(parent, cs[1..], tag)
  }

  /** The first element below `n` with that tag. */
  function FirstBelow(n: Node, tag: string): (r: Option<Node>)
    ensures r.Some? <==> |Descendants(n, tag)| > 0
    ensures r.Some? ==> r.value == Descendants(n, tag)[0] && r.value.Element? && r.value.tag == tag
  {
    var ds := Descendants(n, tag);
    if |ds| == 0 then None else Some(ds[0])
  }

  /** Whether `c` is, or has below it, an element with that tag. */
  predicate Holds(c: Node, tag: string)
  {
    (c.Element? && c.tag == tag) || |Descendants(c, tag)| > 0
  }

  /** The position of the first child of `n` that is or holds an element
      with that tag: the child under which the first such element lies. */
  function HoldingChild(n: Node, tag: string): (r: Option<nat>)
    ensures r.Some? ==> n.Element? && r.value < |n.children| && Holds(n.children[r.value], tag)
    ensures r.Some? ==> forall j :: 0 <= j < r.value ==> !Holds(n.children[j], tag)
    ensures r.None? && n.Element? ==> forall j :: 0 <= j < |n.children| ==> !Holds(n.children[j], tag)
  {
    if n.TextNode? then None else FindIndex(n.children, c => Holds(c, tag))
  }

  /** Node.replaceChild(new, old) with `old` the first element below `n`
      with that tag succeeds only when `old` is a child of `n`: the child
      holding it is that element itself. */
  predicate FirstBelowIsChild(n: Node, tag: string)
  {
    var h := HoldingChild(n, tag);
    h.Some? && n.children[h.value].Element? && n.children[h.value].tag == tag
  }

  /** Children holding no element of the tag contribute nothing to the
      document-order list: it starts at the first child that does. */
  lemma {:induction false} DescendantsOfSkip(parent: Node, cs: seq<Node>, tag: string, j: nat)
    requires forall c :: c in cs ==> c < parent
    requires j <= |cs|
    requires forall i :: 0 <= i < j ==> !Holds(cs[i], tag)
    ensures forall c :: c in cs[j..] ==> c < parent
    ensures DescendantsOf(parent, cs, tag) == DescendantsOf(parent, cs[j..], tag)
    decreases j
  {
    if j > 0 {
      assert !Holds(cs[0], tag);
      assert forall x :: x in cs[1..] ==> x in cs;
      assert DescendantsOf(parent, cs, tag) == DescendantsOf(parent, cs[1..], tag);
      DescendantsOfSkip(parent, cs[1..], tag, j - 1);
      assert cs[1..][j - 1..] == cs[j..];
    }
  }

  /** Where getElementsByTagName(..).item(0) lies: below `n` there is such an
      element exactly when some child holds one; it is the holding child
      itself when that child has the tag, and otherwise it lies strictly
      inside that child, so it is not a child of `n`. */
  lemma FirstBelowLiesInHoldingChild(n: Node, tag: string)
    ensures FirstBelow(n, tag).None? <==> HoldingChild(n, tag).None?
    ensures FirstBelowIsChild(n, tag) ==> FirstBelow(n, tag) == Some(n.children[HoldingChild(n, tag).value])
    ensures HoldingChild(n, tag).Some? && !FirstBelowIsChild(n, tag) ==>
              FirstBelow(n, tag) == FirstBelow(n.children[HoldingChild(n, tag).value], tag)
  {
    if n.Element? {
      var cs := n.children;
      match HoldingChild(n, tag)
      case None =>
        DescendantsOfSkip(n, cs, tag, |cs|);
        assert cs[|cs|..] == [];
      case Some(j) =>
        DescendantsOfSkip(n, cs, tag, j);
        var c := cs[j];
        assert c in cs;
        assert forall x :: x in cs[j..][1..] ==> x in cs;
        var self := if c.Element? && c.tag == tag then [c] else [];
        assert Descendants(n, tag) == self + Descendants(c, tag) + DescendantsOf(n, cs[j..][1..], tag);
    }
  }

  /** Node.getTextContent: the text of every text node at or below `n`, in
      document order. */
  function TextContent(n: Node): string
    decreases n, 1, 0
  {
    match n
    case TextNode(t) => t
    case Element(_, _, children) => TextContentOf(n, children)
  }

  function TextContentOf(parent: Node, cs: seq<Node>): string
    requires forall c :: c in cs ==> c < parent
    decreases parent, 0, |cs|
  {
    if |cs| == 0 then ""
    else
      assert cs[0] in cs;
      assert forall x :: x in cs[1..] ==> x in cs;
      TextContent(cs[0]) + TextContentOf(parent, cs[1..])
  }
}

=== FILE: editor.dfy ===
/** The decision-table editor (DecisionTableIDE): its state and the
    handlers that change it. Each handler is one function from the state
    before to the state after the render it causes, with React's queued
    updates applied in order and the effect that realigns test cases after
    every change of columns. */
module Editor {
  import opened Base
  import opened Text
  import opened Columns
  import opened Cells
  import opened TestCases
  import opened Realign
  import opened Runner
  import opened Generator

  /** The editor's state. `rows` are the rows as stored; the editor shows
      and works on `View`, where Boolean columns are normalized. */
  datatype Table = Table(columns: seq<Column>, rows: seq<Row>, testCases: seq<TestCase>, suiteRun: bool)

  /** `rows = normalizeBooleanRows(columns, rawRows)`. */
  function View(t: Table): (r: seq<Row>)
    ensures Canonical(t.columns, r)
    ensures |r| == |t.rows| && forall k :: 0 <= k < |r| ==> |r[k]| == |t.rows[k]|
  {
    NormalizeBooleanText(t.columns, t.rows)
  }

  /** No cell of a Boolean column holds a lower-case letter. */
  predicate Canonical(cols: seq<Column>, rows: seq<Row>)
  {
    forall k, j :: 0 <= k < |rows| && 0 <= j < |rows[k]| && IsBooleanAt(cols, j) ==> NoLowerCase(rows[k][j])
  }

  lemma ViewOfCanonical(cols: seq<Column>, rows: seq<Row>)
    requires Canonical(cols, rows)
    ensures NormalizeBooleanText(cols, rows) == rows
  {
    NormalizeTextFixesCanonical(cols, rows);
  }

  /** The columns a new editor starts with. */
  const DefaultColumns: seq<Column> :=
    [Column("Condition 1", "String", "Equals"), Column("Result", "String", "Equals")]

  /** The state before any property arrives: default columns, one empty
      row, no test cases. */
  function InitialTable(): (r: Table)
    ensures OutputIsLast(r.columns) && |r.columns| == 2 && |r.rows| == 1
  {
    DefaultColumnsOutputLast();
    Table(DefaultColumns, [["", ""]], [], false)
  }

  lemma DefaultColumnsOutputLast()
    ensures OutputIsLast(DefaultColumns)
  {
    DefaultConditionNotOutput();
    ResultIsOutputName();
    OutputLastOfTwo(DefaultColumns);
  }

  /** "Condition 1" is the name addColumn would give the first column. */
  lemma DefaultConditionNotOutput()
    ensures !IsOutputColumn(DefaultColumns[0])
  {
    assert NatToString(1) == "1";
    assert NewColumnName(0) == "Condition 1";
    NewColumnNameNotOutput(0);
  }

  lemma OutputLastOfTwo(cols: seq<Column>)
    requires |cols| == 2 && !IsOutputColumn(cols[0]) && IsOutputColumn(cols[1])
    ensures OutputIsLast(cols)
  {
    FirstIsLastOfTwo(cols, IsOutputColumn);
  }

  /** The editor's invariant: the output column is last, every stored row
      has one cell per column, every test case one input per input column. */
  predicate WellFormed(t: Table)
  {
    OutputIsLast(t.columns) &&
    (forall k :: 0 <= k < |t.rows| ==> |t.rows[k]| == |t.columns|) &&
    (forall k :: 0 <= k < |t.testCases| ==> |t.testCases[k].inputs| == |InputColumns(t.columns)|)
  }

  lemma InitialWellFormed()
    ensures WellFormed(InitialTable())
  {
    var t := InitialTable();
    assert t.rows[0] == ["", ""] && t.testCases == [];
  }

  /** The effect that runs after every change of columns: the test cases
      are realigned against the columns they already follow, reading the
      rows now shown. */
  function ColumnsEffect(t: Table): (r: Table)
    ensures r.columns == t.columns && r.rows == t.rows && r.suiteRun == t.suiteRun
    ensures |r.testCases| == |t.testCases|
    ensures forall k :: 0 <= k < |r.testCases| ==>
              |r.testCases[k].inputs| == |InputColumns(t.columns)| &&
              r.testCases[k] == t.testCases[k].(inputs := r.testCases[k].inputs)
  {
    t.(testCases := RealignTestCases(t.columns, t.columns, t.testCases, View(t)))
  }

  /** setColumns(newCols) as a handler calls it: the output column moved
      last, test cases realigned from the old columns against the rows shown
      before the change, stored rows re-normalized. */
  function SetColumns(t: Table, newCols: seq<Column>): (r: Table)
    ensures r.columns == EnsureResultLast(newCols)
    ensures |r.rows| == |t.rows| && forall k :: 0 <= k < |r.rows| ==> |r.rows[k]| == |t.rows[k]|
    ensures |r.testCases| == |t.testCases|
    ensures forall k :: 0 <= k < |r.testCases| ==> |r.testCases[k].inputs| == |InputColumns(newCols)|
  {
    var cols := EnsureResultLast(newCols);
    assert |InputColumns(cols)| == |InputColumns(newCols)|;
    Table(cols, NormalizeBooleanText(cols, t.rows),
          RealignTestCases(cols, t.columns, t.testCases, View(t)), t.suiteRun)
  }

  // ---- Columns ----

  /** The column addColumn inserts. */
  function NewColumn(t: Table): Column
  {
    Column(NewColumnName(|t.columns|), "String", "Equals")
  }

  /** Where addColumn inserts: before the first output column, else at the end. */
  function AddColumnSlot(t: Table): (r: nat)
    ensures r <= |t.columns|
  {
    InsertSlot(t.columns, IsOutputColumn)
  }

  /** `prevRows.map(row => { newRow.splice(slot, 0, ''); })`: an empty cell
      at `slot`, or at the end of a shorter row. */
  function WidenRows(rows: seq<Row>, slot: nat): (r: seq<Row>)
    ensures |r| == |rows|
    ensures forall k :: 0 <= k < |r| ==> |r[k]| == |rows[k]| + 1
    ensures forall k :: 0 <= k < |r| && slot <= |rows[k]| ==> r[k] == InsertAt(rows[k], slot, "")
  {
    seq(|rows|, k requires 0 <= k < |rows| => InsertAt(rows[k], Min(slot, |rows[k]|), ""))
  }

  /** The column list addColumn hands to setColumns. */
  function AddedColumns(t: Table): (r: seq<Column>)
    ensures multiset(r) == multiset(t.columns) + multiset{NewColumn(t)}
    ensures OutputIsLast(t.columns) ==> OutputIsLast(r) && EnsureResultLast(r) == r
  {
    var r := InsertAt(t.columns, AddColumnSlot(t), NewColumn(t));
    InsertAtMultiset(t.columns, AddColumnSlot(t), NewColumn(t));
    assert OutputIsLast(t.columns) ==> OutputIsLast(r) && EnsureResultLast(r) == r by {
      if OutputIsLast(t.columns) {
        NewColumnNameNotOutput(|t.columns|);
        FirstIsLastInsert(t.columns, IsOutputColumn, NewColumn(t));
        EnsureResultLastFixesOutputIsLast(r);
      }
    }
    r
  }

  /** The rows after addColumn's two queued updates: setColumns' re-normalization
      against the columns it stores, then the widening, normalized against
      the column list addColumn built. */
  function AddColumnRows(t: Table): (r: seq<Row>)
    ensures |r| == |t.rows|
    ensures forall k :: 0 <= k < |r| ==> |r[k]| == |t.rows[k]| + 1
  {
    var newColumns := AddedColumns(t);
    var stored := NormalizeBooleanText(EnsureResultLast(newColumns), t.rows);
    NormalizeBooleanText(newColumns, WidenRows(stored, AddColumnSlot(t)))
  }

  /** The columns setColumns stores for addColumn's list. */
  function AddColumnColumns(t: Table): (r: seq<Column>)
    ensures multiset(r) == multiset(t.columns) + multiset{NewColumn(t)}
    ensures OutputIsLast(t.columns) ==>
              r == InsertAt(t.columns, AddColumnSlot(t), NewColumn(t)) && OutputIsLast(r)
  {
    EnsureResultLast(AddedColumns(t))
  }

  /** addColumn: a "Condition n" column goes just before the output column,
      and every row gets an empty cell there. */
  function AddColumn(t: Table): (r: Table)
    ensures multiset(r.columns) == multiset(t.columns) + multiset{NewColumn(t)}
    ensures OutputIsLast(t.columns) ==>
              r.columns == InsertAt(t.columns, AddColumnSlot(t), NewColumn(t)) && OutputIsLast(r.columns)
  {
    var cols := AddColumnColumns(t);
    var s := Table(cols, AddColumnRows(t), RealignTestCases(cols, t.columns, t.testCases, View(t)), t.suiteRun);
    ColumnsEffect(s)
  }

  /** addColumn widens every row by one cell and keeps the test cases. */
  lemma AddColumnShape(t: Table)
    ensures |AddColumn(t).rows| == |t.rows|
    ensures forall k :: 0 <= k < |t.rows| ==> |AddColumn(t).rows[k]| == |t.rows[k]| + 1
    ensures |AddColumn(t).testCases| == |t.testCases|
    ensures WellFormed(t) ==>
              forall k :: 0 <= k < |t.rows| ==> AddColumn(t).rows[k] == InsertAt(View(t)[k], AddColumnSlot(t), "")
  {
    if WellFormed(t) {
      AddColumnCells(t);
    }
  }

  /** On a table that keeps the invariant, addColumn gives every shown row
      an empty cell at the insertion slot and keeps the other cells as they
      were shown. */
  lemma AddColumnCells(t: Table)
    requires WellFormed(t)
    ensures forall k :: 0 <= k < |t.rows| ==> AddColumn(t).rows[k] == InsertAt(View(t)[k], AddColumnSlot(t), "")
  {
    var slot := AddColumnSlot(t);
    var nc := NewColumn(t);
    var newColumns := AddedColumns(t);
    assert newColumns == InsertAt(t.columns, slot, nc);
    assert !IsBooleanColumn(nc) by {
      assert |ToLower(nc.dataType)| == 6;
    }
    assert slot == |t.columns| || slot + 1 == |t.columns|;
    assert EnsureResultLast(newColumns) == newColumns;
    var stored := NormalizeBooleanText(newColumns, t.rows);
    var widened := WidenRows(stored, slot);
    var rows := AddColumn(t).rows;
    assert rows == NormalizeBooleanText(newColumns, widened);
    forall k | 0 <= k < |t.rows| ensures rows[k] == InsertAt(View(t)[k], slot, "") {
      AddColumnRowCells(t, newColumns, slot, stored, widened, rows, k);
    }
  }

  /** One row of AddColumnCells. */
  lemma AddColumnRowCells(t: Table, newColumns: seq<Column>, slot: nat, stored: seq<Row>, widened: seq<Row>,
                          rows: seq<Row>, k: nat)
    requires WellFormed(t) && k < |t.rows|
    requires slot <= |t.columns| && (slot == |t.columns| || slot + 1 == |t.columns|)
    requires newColumns == InsertAt(t.columns, slot, NewColumn(t)) && !IsBooleanColumn(NewColumn(t))
    requires stored == NormalizeBooleanText(newColumns, t.rows)
    requires widened == WidenRows(stored, slot)
    requires rows == NormalizeBooleanText(newColumns, widened)
    ensures rows[k] == InsertAt(View(t)[k], slot, "")
  {
    assert widened[k] == InsertAt(stored[k], slot, "");
    InsertedRowCells(t.columns, newColumns, slot, t.rows[k], stored[k], rows[k], View(t)[k]);
  }

  /** A row normalised under `cols`: Boolean-column cells upper-cased, the
      others as they are. */
  predicate NormalizedRow(cols: seq<Column>, raw: Row, out: Row)
  {
    |out| == |raw| && forall j :: 0 <= j < |out| ==> out[j] == (if IsBooleanAt(cols, j) then ToUpper(raw[j]) else raw[j])
  }

  /** Cell by cell: normalising a row under the widened columns, widening it
      with an empty cell at the slot and normalising again gives the row as
      shown under the old columns with that empty cell inserted. */
  lemma InsertedRowCells(cols: seq<Column>, newColumns: seq<Column>, slot: nat, raw: Row, stored: Row, out: Row, view: Row)
    requires |raw| == |cols| && slot <= |cols| && (slot == |cols| || slot + 1 == |cols|)
    requires |newColumns| == |cols| + 1 && !IsBooleanAt(newColumns, slot)
    requires forall j :: 0 <= j < slot ==> newColumns[j] == cols[j]
    requires forall j :: slot < j < |newColumns| ==> newColumns[j] == cols[j - 1]
    requires NormalizedRow(newColumns, raw, stored)
    requires NormalizedRow(newColumns, InsertAt(stored, slot, ""), out)
    requires NormalizedRow(cols, raw, view)
    ensures out == InsertAt(view, slot, "")
  {
    var target := InsertAt(view, slot, "");
    var widened := InsertAt(stored, slot, "");
    forall j | 0 <= j < |out| ensures out[j] == target[j] {
      if j < slot {
        assert IsBooleanAt(newColumns, j) == IsBooleanAt(cols, j);
        ToUpperIdempotent(raw[j]);
      } else if j == slot {
        assert ToUpper("") == "";
      } else {
        assert j == |cols| && j - 1 == slot;
        assert widened[j] == stored[j - 1] == raw[j - 1];
        assert IsBooleanAt(newColumns, j) == IsBooleanAt(cols, j - 1);
      }
    }
  }

  /** addColumn is setColumns on the extended list, followed by the widening
      of the rows and the columns effect. */
  lemma AddColumnIsSetColumns(t: Table)
    ensures AddColumn(t) == ColumnsEffect(SetColumns(t, AddedColumns(t)).(rows := AddColumnRows(t)))
  {
  }

  /** The column list removeColumn hands to setColumns. */
  function RemainingColumns(t: Table, colIdx: int): (r: seq<Column>)
    ensures 0 <= colIdx < |t.columns| ==> multiset(r) + multiset{t.columns[colIdx]} == multiset(t.columns)
    ensures !(0 <= colIdx < |t.columns|) ==> r == t.columns
    ensures OutputIsLast(t.columns) ==> OutputIsLast(r) && EnsureResultLast(r) == r
  {
    var r := RemoveAt(t.columns, colIdx);
    assert 0 <= colIdx < |t.columns| ==> multiset(r) + multiset{t.columns[colIdx]} == multiset(t.columns) by {
      if 0 <= colIdx < |t.columns| {
        RemoveAtMultiset(t.columns, colIdx);
      }
    }
    assert OutputIsLast(t.columns) ==> OutputIsLast(r) && EnsureResultLast(r) == r by {
      if OutputIsLast(t.columns) {
        FirstIsLastRemoveAt(t.columns, IsOutputColumn, colIdx);
        EnsureResultLastFixesOutputIsLast(r);
      }
    }
    r
  }

  /** Every row with its cell at `colIdx` filtered out. */
  function RowsWithout(rows: seq<Row>, colIdx: int): (r: seq<Row>)
    ensures |r| == |rows|
    ensures forall k :: 0 <= k < |r| ==> r[k] == RemoveAt(rows[k], colIdx)
  {
    seq(|rows|, k requires 0 <= k < |rows| => RemoveAt(rows[k], colIdx))
  }

  /** removeColumn(colIdx): the column and every row's cell at that
      position go; an index that is not a column removes nothing. The
      rows are set to a plain value, which replaces setColumns' queued
      re-normalization. */
  function RemoveColumn(t: Table, colIdx: int): (r: Table)
    ensures 0 <= colIdx < |t.columns| ==>
              multiset(r.columns) + multiset{t.columns[colIdx]} == multiset(t.columns)
    ensures !(0 <= colIdx < |t.columns|) ==> multiset(r.columns) == multiset(t.columns)
    ensures OutputIsLast(t.columns) ==>
              r.columns == RemoveAt(t.columns, colIdx) && OutputIsLast(r.columns)
    ensures |r.rows| == |t.rows|
    ensures forall k :: 0 <= k < |r.rows| ==> r.rows[k] == RemoveAt(View(t)[k], colIdx)
    ensures |r.testCases| == |t.testCases|
  {
    var s := SetColumns(t, RemainingColumns(t, colIdx));
    ColumnsEffect(s.(rows := RowsWithout(View(t), colIdx)))
  }

  /** The column property `updateColumn` sets. */
  datatype ColumnField = NameField | TypeField | ConditionField

  function WithField(c: Column, field: ColumnField, value: string): (r: Column)
    ensures field.NameField? ==> r == c.(name := value)
    ensures field.TypeField? ==> r == c.(dataType := value)
    ensures field.ConditionField? ==> r == c.(condition := value)
  {
    match field
    case NameField => c.(name := value)
    case TypeField => c.(dataType := value)
    case ConditionField => c.(condition := value)
  }

  /** The column list with one field of column `colIdx` replaced. */
  function UpdatedColumns(cols: seq<Column>, colIdx: int, field: ColumnField, value: string): (r: seq<Column>)
    ensures |r| == |cols|
    ensures forall j :: 0 <= j < |cols| && j != colIdx ==> r[j] == cols[j]
    ensures 0 <= colIdx < |cols| ==> r[colIdx] == WithField(cols[colIdx], field, value)
  {
    seq(|cols|, j requires 0 <= j < |cols| => if j == colIdx then WithField(cols[j], field, value) else cols[j])
  }

  /** updateColumn(colIdx, field, value). The rows are not reordered: when
      a rename makes another column the first output column, that column
      moves last and its cells stay where they were. */
  function UpdateColumn(t: Table, colIdx: int, field: ColumnField, value: string): (r: Table)
    ensures r.columns == EnsureResultLast(UpdatedColumns(t.columns, colIdx, field, value))
    ensures |r.rows| == |t.rows| && forall k :: 0 <= k < |r.rows| ==> |r.rows[k]| == |t.rows[k]|
    ensures |r.testCases| == |t.testCases|
  {
    ColumnsEffect(SetColumns(t, UpdatedColumns(t.columns, colIdx, field, value)))
  }

  // ---- Rows ----

  /** addRow: an empty row as wide as the column list, after the rows shown. */
  function AddRow(t: Table): (r: Table)
    ensures r.columns == t.columns && r.testCases == t.testCases
    ensures View(r) == View(t) + [seq(|t.columns|, _ => "")]
  {
    var blank := seq(|t.columns|, _ => "");
    var rows := View(t) + [blank];
    ViewOfCanonical(t.columns, rows);
    t.(rows := rows)
  }

  /** removeRow(rowIdx): the row shown at `rowIdx` goes, the others keep
      their order; an index that is not a row removes nothing. */
  function RemoveRow(t: Table, rowIdx: int): (r: Table)
    ensures r.columns == t.columns && r.testCases == t.testCases
    ensures 0 <= rowIdx < |t.rows| ==> multiset(View(r)) + multiset{View(t)[rowIdx]} == multiset(View(t))
    ensures !(0 <= rowIdx < |t.rows|) ==> View(r) == View(t)
    ensures 0 <= rowIdx < |t.rows| ==>
              |View(r)| == |View(t)| - 1 &&
              (forall k :: 0 <= k < rowIdx ==> View(r)[k] == View(t)[k]) &&
              (forall k :: rowIdx <= k < |View(r)| ==> View(r)[k] == View(t)[k + 1])
  {
    var rows := RemoveAt(View(t), rowIdx);
    assert 0 <= rowIdx < |t.rows| ==> multiset(rows) + multiset{View(t)[rowIdx]} == multiset(View(t)) by {
      if 0 <= rowIdx < |t.rows| {
        RemoveAtMultiset(View(t), rowIdx);
      }
    }
    ViewOfCanonical(t.columns, rows);
    t.(rows := rows)
  }

  /** updateCell(rowIdx, colIdx, value): the rows shown, with that one cell
      replaced, are stored as they are. */
  function UpdateCell(t: Table, rowIdx: int, colIdx: int, value: string): (r: Table)
    ensures r.columns == t.columns && r.testCases == t.testCases
    ensures |r.rows| == |t.rows|
    ensures forall k :: 0 <= k < |r.rows| ==> |r.rows[k]| == |t.rows[k]|
    ensures forall k, j :: 0 <= k < |r.rows| && 0 <= j < |r.rows[k]| && (k != rowIdx || j != colIdx) ==>
              r.rows[k][j] == View(t)[k][j]
    ensures 0 <= rowIdx < |r.rows| && 0 <= colIdx < |r.rows[rowIdx]| ==> r.rows[rowIdx][colIdx] == value
  {
    var shown := View(t);
    t.(rows := seq(|shown|, k requires 0 <= k < |shown| =>
                 if k == rowIdx then seq(|shown[k]|, j requires 0 <= j < |shown[k]| =>
                                         if j == colIdx then value else shown[k][j])
                 else shown[k]))
  }

  /** What the editor shows after updateCell: only the one cell changes,
      and in a Boolean column it shows the value upper-cased. */
  lemma UpdateCellView(t: Table, rowIdx: int, colIdx: int, value: string)
    ensures |View(UpdateCell(t, rowIdx, colIdx, value))| == |View(t)|
    ensures forall k :: 0 <= k < |View(t)| ==> |View(UpdateCell(t, rowIdx, colIdx, value))[k]| == |View(t)[k]|
    ensures forall k, j :: 0 <= k < |View(t)| && 0 <= j < |View(t)[k]| && (k != rowIdx || j != colIdx) ==>
              View(UpdateCell(t, rowIdx, colIdx, value))[k][j] == View(t)[k][j]
    ensures 0 <= rowIdx < |View(t)| && 0 <= colIdx < |View(t)[rowIdx]| ==>
              EqualsIgnoreCase(View(UpdateCell(t, rowIdx, colIdx, value))[rowIdx][colIdx], value) &&
              (!IsBooleanAt(t.columns, colIdx) ==> View(UpdateCell(t, rowIdx, colIdx, value))[rowIdx][colIdx] == value)
  {
    var shown := View(t);
    var r := UpdateCell(t, rowIdx, colIdx, value);
    var after := View(r);
    forall k, j | 0 <= k < |shown| && 0 <= j < |shown[k]| && (k != rowIdx || j != colIdx)
      ensures after[k][j] == shown[k][j]
    {
      if IsBooleanAt(t.columns, j) {
        assert NoLowerCase(shown[k][j]);
        NoLowerCaseUpper(shown[k][j]);
      }
    }
    if 0 <= rowIdx < |shown| && 0 <= colIdx < |shown[rowIdx]| && IsBooleanAt(t.columns, colIdx) {
      ToUpperIdempotent(value);
    }
  }

  /** The outcome of a drag in the row list: the source index and, when the
      row was dropped on the list, the destination index. */
  datatype DragResult = DragResult(source: nat, destination: Option<nat>)

  /** The drag moves a row: it ended on the list at another position. */
  predicate Moves(drag: Option<DragResult>)
  {
    drag.Some? && drag.value.destination.Some? && drag.value.source != drag.value.destination.value
  }

  /** onDragEnd: the dragged row is taken out and put back at the
      destination (the end when the destination is past it); nothing
      happens for a drop outside the list or on the same position. */
  function OnDragEnd(t: Table, drag: Option<DragResult>): (r: Table)
    requires Moves(drag) ==> drag.value.source < |t.rows|
    ensures r.columns == t.columns && r.testCases == t.testCases
    ensures multiset(View(r)) == multiset(View(t))
    ensures !Moves(drag) ==> r == t
    ensures |View(r)| == |t.rows|
    ensures Moves(drag) ==>
              View(r)[Min(drag.value.destination.value, |t.rows| - 1)] == View(t)[drag.value.source]
    ensures Moves(drag) ==>
              RemoveAt(View(r), Min(drag.value.destination.value, |t.rows| - 1)) ==
              RemoveAt(View(t), drag.value.source)
  {
    if !Moves(drag) then t
    else
      var shown := View(t);
      var src := drag.value.source;
      var rest := RemoveAt(shown, src);
      var dst := Min(drag.value.destination.value, |rest|);
      var rows := InsertAt(rest, dst, shown[src]);
      RemoveAtMultiset(shown, src);
      InsertAtMultiset(rest, dst, shown[src]);
      forall k, j | 0 <= k < |rows| && 0 <= j < |rows[k]| && IsBooleanAt(t.columns, j)
        ensures NoLowerCase(rows[k][j])
      {
        assert rows[k] in multiset(shown);
        var k' :| 0 <= k' < |shown| && shown[k'] == rows[k];
      }
      ViewOfCanonical(t.columns, rows);
      RemoveInsertedAt(rest, dst, shown[src]);
      t.(rows := rows)
  }

  // ---- Test cases ----

  /** runTestSuite on the rows shown. */
  function RunSuite(t: Table): (r: Table)
    ensures r.columns == t.columns && r.rows == t.rows && r.suiteRun
    ensures |r.testCases| == |t.testCases|
    ensures forall k :: 0 <= k < |r.testCases| ==> r.testCases[k] == RunCase(t.columns, View(t), t.testCases[k])
  {
    t.(testCases := RunTestSuite(t.columns, View(t), t.testCases), suiteRun := true)
  }

  /** addTestCase: an empty test case with one empty input per input column. */
  function AddTestCase(t: Table): (r: Table)
    ensures r.columns == t.columns && r.rows == t.rows
    ensures |r.testCases| == |t.testCases| + 1 && r.testCases[..|t.testCases|] == t.testCases
    ensures var tc := r.testCases[|t.testCases|];
            |tc.inputs| == |InputColumns(t.columns)| && (forall j :: 0 <= j < |tc.inputs| ==> tc.inputs[j] == "") &&
            tc.expected == "" && tc.result.None? && tc.status.None? && tc.description.None? &&
            tc.sourceRowIndex.None? && tc.matchedRow.None?
  {
    var blank := TestCase(seq(|InputColumns(t.columns)|, _ => ""), "", None, None, None, None, None);
    t.(testCases := t.testCases + [blank])
  }

  /** generateTestSuite(options) on the rows shown. */
  function GenerateSuite(t: Table, opts: Options): (r: Table)
    requires |t.rows| > 0 && |t.columns| > 0 && NegativeCap(t.rows, opts) > 0 ==> WideRows(t.columns, View(t))
    ensures r.columns == t.columns && r.rows == t.rows && r.suiteRun == t.suiteRun
    ensures (|t.rows| == 0 || |t.columns| == 0) ==> r == t
    ensures |t.rows| > 0 && |t.columns| > 0 ==>
              |r.testCases| >= |t.rows| &&
              forall ri :: 0 <= ri < |t.rows| ==> r.testCases[ri] == Positive(t.columns, View(t), ri)
    ensures |t.rows| > 0 && |t.columns| > 0 && NegativeCap(t.rows, opts) > 0 ==>
              r.testCases[|t.rows|..] == Negatives(t.columns, View(t), opts)
    ensures |t.rows| > 0 && |t.columns| > 0 && NegativeCap(t.rows, opts) <= 0 ==> |r.testCases| == |t.rows|
  {
    t.(testCases := GenerateTestSuite(t.columns, View(t), opts, t.testCases))
  }

  /** The test case field `updateTestCase` sets. */
  datatype TestCaseEdit = SetInput(inputIdx: nat, value: string) | SetExpected(value: string)

  /** updateTestCase(idx, field, value, inputIdx): one input or the
      expected value of test case `idx` changes; nothing else does. */
  function UpdateTestCase(t: Table, idx: int, edit: TestCaseEdit): (r: Table)
    requires edit.SetInput? && 0 <= idx < |t.testCases| ==> edit.inputIdx < |t.testCases[idx].inputs|
    ensures r.columns == t.columns && r.rows == t.rows
    ensures |r.testCases| == |t.testCases|
    ensures forall k :: 0 <= k < |r.testCases| && k != idx ==> r.testCases[k] == t.testCases[k]
    ensures 0 <= idx < |t.testCases| && edit.SetExpected? ==>
              r.testCases[idx] == t.testCases[idx].(expected := edit.value)
    ensures 0 <= idx < |t.testCases| && edit.SetInput? ==>
              |r.testCases[idx].inputs| == |t.testCases[idx].inputs| &&
              r.testCases[idx].inputs[edit.inputIdx] == edit.value &&
              (forall j :: 0 <= j < |r.testCases[idx].inputs| && j != edit.inputIdx ==>
                 r.testCases[idx].inputs[j] == t.testCases[idx].inputs[j]) &&
              r.testCases[idx] == t.testCases[idx].(inputs := r.testCases[idx].inputs)
  {
    var tcs := t.testCases;
    t.(testCases := seq(|tcs|, k requires 0 <= k < |tcs| =>
      if k != idx then tcs[k]
      else match edit
        case SetInput(i, v) => tcs[k].(inputs := tcs[k].inputs[i := v])
        case SetExpected(v) => tcs[k].(expected := v)))
  }

  /** removeTestCase(idx). */
  function RemoveTestCase(t: Table, idx: int): (r: Table)
    ensures r.columns == t.columns && r.rows == t.rows
    ensures 0 <= idx < |t.testCases| ==> multiset(r.testCases) + multiset{t.testCases[idx]} == multiset(t.testCases)
    ensures !(0 <= idx < |t.testCases|) ==> r.testCases == t.testCases
  {
    assert 0 <= idx < |t.testCases| ==>
             multiset(RemoveAt(t.testCases, idx)) + multiset{t.testCases[idx]} == multiset(t.testCases) by {
      if 0 <= idx < |t.testCases| {
        RemoveAtMultiset(t.testCases, idx);
      }
    }
    t.(testCases := RemoveAt(t.testCases, idx))
  }

  // ---- Every handler ----

  /** The user actions of the editor. */
  datatype Action =
    | AddColumnAction
    | RemoveColumnAction(colIdx: int)
    | UpdateColumnAction(colIdx: int, field: ColumnField, value: string)
    | AddRowAction
    | RemoveRowAction(rowIdx: int)
    | UpdateCellAction(rowIdx: int, colIdx: int, value: string)
    | DragEndAction(drag: Option<DragResult>)
    | RunSuiteAction
    | AddTestCaseAction
    | GenerateSuiteAction(opts: Options)
    | UpdateTestCaseAction(idx: int, edit: TestCaseEdit)
    | RemoveTestCaseAction(idx: int)

  /** What the handlers need of their arguments. */
  predicate Allowed(t: Table, a: Action)
  {
    match a
    case DragEndAction(drag) => Moves(drag) ==> drag.value.source < |t.rows|
    case GenerateSuiteAction(opts) =>
      |t.rows| > 0 && |t.columns| > 0 && NegativeCap(t.rows, opts) > 0 ==> WideRows(t.columns, View(t))
    case UpdateTestCaseAction(idx, edit) =>
      edit.SetInput? && 0 <= idx < |t.testCases| ==> edit.inputIdx < |t.testCases[idx].inputs|
    case _ => true
  }

  function Apply(t: Table, a: Action): Table
    requires Allowed(t, a)
  {
    match a
    case AddColumnAction => AddColumn(t)
    case RemoveColumnAction(c) => RemoveColumn(t, c)
    case UpdateColumnAction(c, f, v) => UpdateColumn(t, c, f, v)
    case AddRowAction => AddRow(t)
    case RemoveRowAction(i) => RemoveRow(t, i)
    case UpdateCellAction(i, j, v) => UpdateCell(t, i, j, v)
    case DragEndAction(d) => OnDragEnd(t, d)
    case RunSuiteAction => RunSuite(t)
    case AddTestCaseAction => AddTestCase(t)
    case GenerateSuiteAction(o) => GenerateSuite(t, o)
    case UpdateTestCaseAction(i, e) => UpdateTestCase(t, i, e)
    case RemoveTestCaseAction(i) => RemoveTestCase(t, i)
  }

  /** A rename keeps the invariant unless it names a second output column. */
  predicate KeepsOneOutput(t: Table, a: Action)
  {
    a.UpdateColumnAction? ==> AtMostOneOutput(UpdatedColumns(t.columns, a.colIdx, a.field, a.value))
  }

  // ---- The invariant ----

  /** Under the invariant every shown row is wide enough for the generator,
      so generateTestSuite can always be asked for. */
  lemma WellFormedAllowsGenerate(t: Table, opts: Options)
    requires WellFormed(t)
    ensures WideRows(t.columns, View(t)) && Allowed(t, GenerateSuiteAction(opts))
  {
  }

  lemma AddColumnKeepsWellFormed(t: Table)
    requires WellFormed(t)
    ensures WellFormed(AddColumn(t))
  {
    var r := AddColumn(t);
    AddColumnShape(t);
    assert |r.columns| == |t.columns| + 1;
  }

  lemma RemoveColumnKeepsWellFormed(t: Table, colIdx: int)
    requires WellFormed(t)
    ensures WellFormed(RemoveColumn(t, colIdx))
  {
    var r := RemoveColumn(t, colIdx);
    forall k | 0 <= k < |r.rows| ensures |r.rows[k]| == |r.columns| {
      assert |View(t)[k]| == |t.columns|;
    }
  }

  lemma UpdateColumnKeepsWellFormed(t: Table, colIdx: int, field: ColumnField, value: string)
    requires WellFormed(t)
    requires AtMostOneOutput(UpdatedColumns(t.columns, colIdx, field, value))
    ensures WellFormed(UpdateColumn(t, colIdx, field, value))
  {
    EnsureResultLastPutsOutputLast(UpdatedColumns(t.columns, colIdx, field, value));
  }

  lemma AddRowKeepsWellFormed(t: Table)
    requires WellFormed(t)
    ensures WellFormed(AddRow(t))
  {
    var r := AddRow(t);
    forall k | 0 <= k < |r.rows| ensures |r.rows[k]| == |r.columns| {
      assert |r.rows[k]| == |View(r)[k]|;
    }
  }

  lemma RemoveRowKeepsWellFormed(t: Table, rowIdx: int)
    requires WellFormed(t)
    ensures WellFormed(RemoveRow(t, rowIdx))
  {
    var r := RemoveRow(t, rowIdx);
    forall k | 0 <= k < |r.rows| ensures |r.rows[k]| == |r.columns| {
      assert |r.rows[k]| == |View(r)[k]|;
    }
  }

  lemma UpdateCellKeepsWellFormed(t: Table, rowIdx: int, colIdx: int, value: string)
    requires WellFormed(t)
    ensures WellFormed(UpdateCell(t, rowIdx, colIdx, value))
  {
  }

  lemma DragKeepsWellFormed(t: Table, drag: Option<DragResult>)
    requires WellFormed(t) && (Moves(drag) ==> drag.value.source < |t.rows|)
    ensures WellFormed(OnDragEnd(t, drag))
  {
    var r := OnDragEnd(t, drag);
    forall k | 0 <= k < |r.rows| ensures |r.rows[k]| == |r.columns| {
      assert |r.rows[k]| == |View(r)[k]|;
      assert View(r)[k] in multiset(View(t));
      var k' :| 0 <= k' < |View(t)| && View(t)[k'] == View(r)[k];
    }
  }

  lemma RunSuiteKeepsWellFormed(t: Table)
    requires WellFormed(t)
    ensures WellFormed(RunSuite(t))
  {
  }

  lemma AddTestCaseKeepsWellFormed(t: Table)
    requires WellFormed(t)
    ensures WellFormed(AddTestCase(t))
  {
  }

  lemma GenerateSuiteKeepsWellFormed(t: Table, opts: Options)
    requires WellFormed(t)
    ensures WellFormed(GenerateSuite(t, opts))
  {
    GeneratedInputsFit(t.columns, View(t), opts, t.testCases);
  }

  lemma UpdateTestCaseKeepsWellFormed(t: Table, idx: int, edit: TestCaseEdit)
    requires WellFormed(t)
    requires edit.SetInput? && 0 <= idx < |t.testCases| ==> edit.inputIdx < |t.testCases[idx].inputs|
    ensures WellFormed(UpdateTestCase(t, idx, edit))
  {
  }

  lemma RemoveTestCaseKeepsWellFormed(t: Table, idx: int)
    requires WellFormed(t)
    ensures WellFormed(RemoveTestCase(t, idx))
  {
  }

  /** Every handler keeps the invariant, a rename only when it does not
      name a second output column. */
  lemma ApplyKeepsWellFormed(t: Table, a: Action)
    requires WellFormed(t) && Allowed(t, a) && KeepsOneOutput(t, a)
    ensures WellFormed(Apply(t, a))
  {
    match a
    case AddColumnAction => AddColumnKeepsWellFormed(t);
    case RemoveColumnAction(c) => RemoveColumnKeepsWellFormed(t, c);
    case UpdateColumnAction(c, f, v) => UpdateColumnKeepsWellFormed(t, c, f, v);
    case AddRowAction => AddRowKeepsWellFormed(t);
    case RemoveRowAction(i) => RemoveRowKeepsWellFormed(t, i);
    case UpdateCellAction(i, j, v) => UpdateCellKeepsWellFormed(t, i, j, v);
    case DragEndAction(d) => DragKeepsWellFormed(t, d);
    case RunSuiteAction => RunSuiteKeepsWellFormed(t);
    case AddTestCaseAction => AddTestCaseKeepsWellFormed(t);
    case GenerateSuiteAction(o) => GenerateSuiteKeepsWellFormed(t, o);
    case UpdateTestCaseAction(i, e) => UpdateTestCaseKeepsWellFormed(t, i, e);
    case RemoveTestCaseAction(i) => RemoveTestCaseKeepsWellFormed(t, i);
  }
}

=== FILE: form.dfy ===
/** The evaluation form (DecisionForm): how a field of a model's input
    schema is rendered and edited, which model is selected first, the
    initial form data and the preset payloads. */
module Form {
  import opened Base
  import opened Text
  import opened Dmn
  import opened Controller

  /** A value of the form data: `undefined`, `null`, a string, an array of
      strings (a collection field) or an object of named values. */
  datatype FormValue = FUndefined | FNull | FText(s: string) | FList(items: seq<string>) | FObject(fields: map<string, FormValue>)

  predicate Truthy(v: FormValue)
  {
    !(v.FUndefined? || v.FNull? || v == FText(""))
  }

  /** The schema a field is rendered from: `type`, the `isCollection` flag
      and, for a complex type, its fields. */
  datatype RenderSchema = RenderSchema(typ: string, isCollection: bool, fields: Option<seq<FieldSchema>>)

  /** The renderer's view of an expanded type: the service never sets the flag there. */
  function FromType(ts: TypeSchema): RenderSchema
  {
    RenderSchema(ts.typ, false, ts.fields)
  }

  /** `schema.type || 'string'`. */
  function TypeName(s: RenderSchema): string
  {
    if s.typ == "" then "string" else s.typ
  }

  /** A schema is edited as a comma-separated list when it is flagged as a
      collection, or its type starts with "List", or its lower-cased type
      contains "[]". */
  predicate IsCollectionSchema(s: RenderSchema)
  {
    s.isCollection || StartsWith(TypeName(s), "List") || Contains(ToLower(TypeName(s)), "[]")
  }

  datatype FieldKind = Composite(fields: seq<FieldSchema>) | Collection | Scalar

  /** What FieldRenderer draws: one sub-form per field when the schema has a
      field list (even an empty one), else a list input or a plain input. */
  function Kind(s: RenderSchema): (r: FieldKind)
    ensures r.Composite? <==> s.fields.Some?
    ensures r == Collection <==> s.fields.None? && IsCollectionSchema(s)
    ensures r == Scalar <==> s.fields.None? && !IsCollectionSchema(s)
  {
    match s.fields
    case Some(fs) => Composite(fs)
    case None => if IsCollectionSchema(s) then Collection else Scalar
  }

  /** An expanded type renders as a sub-form exactly when it is an item
      definition, and a missing type is a plain input. */
  lemma ResolvedKind(defs: map<string, Node>, typeRef: string, fuel: nat)
    requires ResolveType(defs, typeRef, fuel).Some?
    ensures Kind(FromType(ResolveType(defs, typeRef, fuel).value)).Composite? <==> typeRef != "" && typeRef in defs
    ensures typeRef == "" ==> Kind(FromType(ResolveType(defs, typeRef, fuel).value)) == Scalar
  {
    if typeRef == "" {
      var s := FromType(ResolveType(defs, typeRef, fuel).value);
      assert TypeName(s) == "string";
      assert !StartsWith("string", "List") by { assert "string"[0] != "List"[0]; }
      StringHasNoBrackets();
    }
  }

  lemma StringHasNoBrackets()
    ensures !Contains(ToLower("string"), "[]")
  {
    var s := ToLower("string");
    assert forall i :: 0 <= i < |s| ==> s[i] != '[';
    forall j | 0 <= j <= |s| ensures !StartsWith(s[j..], "[]") {
      if j < |s| {
        assert s[j..][0] == s[j];
      }
    }
  }

  /** The schema FieldRenderer gives a field, as written: its expanded
      schema, or `{type: f.type}`, which drops the field's `isCollection`. */
  function ChildSchema(f: FieldSchema): (r: RenderSchema)
    ensures f.schema.None? ==> !r.isCollection && r.typ == f.typ && r.fields.None?
    ensures f.schema.Some? ==> r == FromType(f.schema.value)
  {
    match f.schema
    case Some(ts) => FromType(ts)
    case None => RenderSchema(f.typ, false, None)
  }

  /** A string field the service marks as a collection is drawn as a plain
      input, so its value is sent as one string instead of a list. */
  lemma CollectionFieldDrawnPlain()
    ensures Kind(ChildSchema(FieldSchema("modifierCode", true, "string", None))) == Scalar
  {
    var s := ChildSchema(FieldSchema("modifierCode", true, "string", None));
    assert TypeName(s) == "string";
    assert !StartsWith("string", "List") by { assert "string"[0] != "List"[0]; }
    StringHasNoBrackets();
  }

  /** The schema a field is rendered from, keeping the field's own
      collection flag when it has no expanded schema. */
  function ChildSchemaKeepingCollection(f: FieldSchema): (r: RenderSchema)
    ensures f.schema.None? ==> r.isCollection == f.isCollection && r.typ == f.typ && r.fields.None?
    ensures f.schema.Some? ==> r == FromType(f.schema.value)
  {
    match f.schema
    case Some(ts) => FromType(ts)
    case None => RenderSchema(f.typ, f.isCollection, None)
  }

  /** With the flag kept, a field marked as a collection without nested
      schema is drawn as a list input, and an unmarked one as before. */
  lemma KeptCollectionDrawnAsList(f: FieldSchema)
    ensures f.schema.None? && f.isCollection ==> Kind(ChildSchemaKeepingCollection(f)) == Collection
    ensures !f.isCollection ==> ChildSchemaKeepingCollection(f) == ChildSchema(f)
  {
  }

  // ------------------------------------------------------- values shown

  /** `String(v)` for the values an input can be given. */
  function Shown(v: FormValue): string
  {
    match v
    case FUndefined => "undefined"
    case FNull => "null"
    case FText(s) => s
    case FList(xs) => Join(xs, ',')
    case FObject(_) => "[object Object]"
  }

  /** The text of a list input: an array joined with ',', otherwise the
      value, or '' when it is falsy. */
  function CollectionText(v: FormValue): (r: string)
    ensures v.FList? ==> r == Join(v.items, ',')
    ensures !Truthy(v) ==> r == ""
  {
    if v.FList? then Join(v.items, ',') else if Truthy(v) then Shown(v) else ""
  }

  /** The text of a plain input: '' for null and undefined. */
  function ScalarText(v: FormValue): (r: string)
    ensures v.FUndefined? || v.FNull? ==> r == ""
    ensures v.FText? ==> r == v.s
  {
    if v.FUndefined? || v.FNull? then "" else Shown(v)
  }

  /** What a list input yields for its text: [] for an empty text,
      otherwise the comma-separated pieces, each trimmed. */
  function ParseList(text: string): (r: seq<string>)
    ensures text == "" ==> r == []
    ensures text != "" ==> (|r| == |Split(text, ',')| &&
                            forall i :: 0 <= i < |r| ==> r[i] == JsTrim(Split(text, ',')[i]))
  {
    if text == "" then []
    else
      var pieces := Split(text, ',');
      seq(|pieces|, i requires 0 <= i < |pieces| => JsTrim(pieces[i]))
  }

  /** A list whose items hold no comma and no surrounding blanks comes back
      from its text, unless it is the one-item list [""]. */
  lemma ParseListOfJoin(xs: seq<string>)
    requires |xs| >= 1 && xs != [""]
    requires forall x :: x in xs ==> ',' !in x && JsTrim(x) == x
    ensures ParseList(Join(xs, ',')) == xs
  {
    SplitJoin(xs, ',');
    JoinNonEmpty(xs, ',');
    var r := ParseList(Join(xs, ','));
    forall i | 0 <= i < |xs| ensures r[i] == xs[i] {
      assert xs[i] in xs;
    }
  }

  /** The join of a list other than [] and [""] is not empty. */
  lemma {:induction false} JoinNonEmpty(xs: seq<string>, sep: char)
    requires |xs| >= 1 && xs != [""]
    ensures Join(xs, sep) != ""
  {
    if |xs| == 1 {
      assert xs == [xs[0]];
    } else {
      assert |Join(xs, sep)| >= |xs[0]| + 1;
    }
  }

  /** The one-item list [""] comes back as the empty list. */
  lemma ParseListLosesEmptyItem()
    ensures ParseList(Join([""], ',')) == []
  {
  }

  /** A text whose pieces have no surrounding blanks is shown again as
      itself after it was parsed. */
  lemma ShowParsedText(text: string)
    requires forall p :: p in Split(text, ',') ==> JsTrim(p) == p
    ensures CollectionText(FList(ParseList(text))) == text
  {
    if text != "" {
      var pieces := Split(text, ',');
      var r := ParseList(text);
      forall i | 0 <= i < |pieces| ensures r[i] == pieces[i] {
        assert pieces[i] in pieces;
      }
      assert r == pieces;
    }
  }

  // ------------------------------------------------------ editing a field

  /** The property name of index `i` of a string or an array. */
  function IndexKey(i: nat): string
  {
    NatToString(i)
  }

  /** The entries an array-like value spreads into an object: its items
      under the keys "0", "1", ... */
  function IndexEntries(items: seq<FormValue>): (r: map<string, FormValue>)
    ensures forall k :: k in r <==> exists i :: 0 <= i < |items| && IndexKey(i) == k
    ensures forall i :: 0 <= i < |items| ==> IndexKey(i) in r && r[IndexKey(i)] == items[i]
  {
    NatToStringDistinct(|items|);
    map i | 0 <= i < |items| :: IndexKey(i) := items[i]
  }

  /** The first `n` numbers print to different texts. */
  lemma NatToStringDistinct(n: nat)
    ensures forall i, j :: 0 <= i < n && 0 <= j < n && NatToString(i) == NatToString(j) ==> i == j
  {
    forall i, j | 0 <= i < n && 0 <= j < n && NatToString(i) == NatToString(j) ensures i == j {
      NatToStringInjective(i, j);
    }
  }

  /** The one-character strings of a string, in order. */
  function Chars(s: string): (r: seq<string>)
    ensures |r| == |s| && forall i :: 0 <= i < |s| ==> r[i] == [s[i]]
  {
    seq(|s|, i requires 0 <= i < |s| => [s[i]])
  }

  /** Strings as form values. */
  function Texts(xs: seq<string>): (r: seq<FormValue>)
    ensures |r| == |xs| && forall i :: 0 <= i < |xs| ==> r[i] == FText(xs[i])
  {
    seq(|xs|, i requires 0 <= i < |xs| => FText(xs[i]))
  }

  /** The object spread by `{ ...(value || {}) }`: nothing for a falsy value,
      an object's own entries, and the characters of a string or the items
      of an array under their indices. */
  function SpreadBase(v: FormValue): (r: map<string, FormValue>)
    ensures !Truthy(v) ==> r == map[]
    ensures v.FObject? ==> r == v.fields
    ensures v.FText? ==> forall k :: k in r <==> exists i :: 0 <= i < |v.s| && IndexKey(i) == k
    ensures v.FText? ==> forall i :: 0 <= i < |v.s| ==> IndexKey(i) in r && r[IndexKey(i)] == FText([v.s[i]])
    ensures v.FList? ==> forall k :: k in r <==> exists i :: 0 <= i < |v.items| && IndexKey(i) == k
    ensures v.FList? ==> forall i :: 0 <= i < |v.items| ==> IndexKey(i) in r && r[IndexKey(i)] == FText(v.items[i])
  {
    if !Truthy(v) then map[]
    else match v
      case FObject(fields) => fields
      case FText(s) => IndexEntries(Texts(Chars(s)))
      case FList(xs) => IndexEntries(Texts(xs))
  }

  /** `onChange({ ...(value || {}), [name]: v })`: the spread value with
      only the entry `name` replaced. */
  function EditField(value: FormValue, name: string, v: FormValue): (r: FormValue)
    ensures r.FObject? && name in r.fields && r.fields[name] == v
    ensures forall k :: k != name ==> (k in r.fields <==> k in SpreadBase(value))
    ensures forall k :: k != name && k in r.fields ==> r.fields[k] == SpreadBase(value)[k]
    ensures !Truthy(value) ==> r.fields == map[name := v]
  {
    FObject(SpreadBase(value)[name := v])
  }

  /** `value ? value[name] : undefined`: the value a sub-field is drawn with;
      an index of a string or an array reads its character or item. */
  function FieldValue(value: FormValue, name: string): (r: FormValue)
    ensures !Truthy(value) ==> r == FUndefined
    ensures value.FObject? ==> r == (if name in value.fields then value.fields[name] else FUndefined)
  {
    if Truthy(value) && name in SpreadBase(value) then SpreadBase(value)[name] else FUndefined
  }

  /** A sub-field shows what was just entered in it, and every other
      sub-field of an object keeps its value. */
  lemma EditThenRead(value: FormValue, name: string, v: FormValue, other: string)
    requires other != name
    ensures FieldValue(EditField(value, name, v), name) == v
    ensures FieldValue(EditField(value, name, v), other) == FieldValue(value, other)
  {
  }

  // ------------------------------------------------------ model selection

  /** The model picked by name: non-empty and "quickwins" once lower-cased. */
  predicate IsQuickwins(m: ModelInfo)
  {
    m.name != "" && ToLower(m.name) == "quickwins"
  }

  /** The model selected when the list arrives: the first quickwins model,
      otherwise the first model, otherwise none. */
  function DefaultModel(models: seq<ModelInfo>): (r: Option<ModelInfo>)
    ensures r.None? <==> |models| == 0
    ensures r.Some? ==> r.value in models
    ensures forall k :: (0 <= k < |models| && IsQuickwins(models[k]) &&
                         forall j :: 0 <= j < k ==> !IsQuickwins(models[j])) ==> r == Some(models[k])
    ensures (forall j :: 0 <= j < |models| ==> !IsQuickwins(models[j])) && |models| > 0 ==>
              r == Some(models[0])
  {
    match FindIndex(models, IsQuickwins)
    case Some(k) => Some(models[k])
    case None => if |models| > 0 then Some(models[0]) else None
  }

  lemma QuickwinsLower()
    ensures ToLower("quickwins") == "quickwins"
  {
    var s := ToLower("quickwins");
    assert s[0] == 'q' && s[1] == 'u' && s[2] == 'i' && s[3] == 'c' && s[4] == 'k';
    assert s[5] == 'w' && s[6] == 'i' && s[7] == 'n' && s[8] == 's';
  }

  /** A model the form selects by name is one the evaluation endpoint
      prefers too. */
  lemma QuickwinsPreferred(m: ModelInfo)
    requires IsQuickwins(m)
    ensures Preferred(RuntimeModel(Some(m.name), Some(m.namespace)))
  {
    QuickwinsLower();
  }

  // ------------------------------------------------- initial data, presets

  /** The form data after a schema loads: every top-level input name mapped
      to an empty object (`s.inputs || []`). */
  function InitialData(inputs: Option<seq<string>>): (r: map<string, FormValue>)
    ensures inputs.None? ==> r == map[]
    ensures inputs.Some? ==> forall k :: k in r <==> k in inputs.value
    ensures forall k :: k in r ==> r[k] == FObject(map[])
  {
    match inputs
    case None => map[]
    case Some(names) => EmptyObjects(names)
  }

  function EmptyObjects(names: seq<string>): (r: map<string, FormValue>)
    ensures forall k :: k in r <==> k in names
    ensures forall k :: k in r ==> r[k] == FObject(map[])
    decreases |names|
  {
    if |names| == 0 then map[]
    else
      var n := |names| - 1;
      assert forall k :: k in names <==> k in names[..n] || k == names[n] by {
        assert names == names[..n] + [names[n]];
      }
      EmptyObjects(names[..n])[names[n] := FObject(map[])]
  }

  datatype Preset = Preset(name: string, payload: FormValue)

  function Obj2(k1: string, v1: FormValue, k2: string, v2: FormValue): FormValue
  {
    FObject(map[k1 := v1, k2 := v2])
  }

  function Line(auth: string, preAuth: string, modifiers: seq<string>, procedure: string, labels: seq<string>): FormValue
  {
    FObject(map["authorizationIndicator" := FText(auth), "preAuthorizationPassIndicator" := FText(preAuth),
                "modifierCode" := FList(modifiers), "procedureCode" := FText(procedure),
                "businessLabel" := FList(labels)])
  }

  const AuthorizationY: Preset :=
    Preset("Preset: Authorization Y",
           FObject(map["Data" := Obj2("Claim", Obj2("companyCode", FText("01"), "claimType", FText("I")),
                                      "Line", Line("Y", "N", ["26"], "12345", ["A"]))]))

  const AuthorizationN: Preset :=
    Preset("Preset: Authorization N (different proc)",
           FObject(map["Data" := Obj2("Claim", Obj2("companyCode", FText("02"), "claimType", FText("P")),
                                      "Line", Line("N", "Y", [], "99999", ["B"]))]))

  /** The presets offered for a model: two for quickwins (any case), none
      for any other name. */
  function PresetsFor(modelName: string): (r: seq<Preset>)
    ensures |r| == 2 <==> modelName != "" && ToLower(modelName) == "quickwins"
    ensures |r| == 0 <==> !(modelName != "" && ToLower(modelName) == "quickwins")
    ensures forall p :: p in r ==> p.payload.FObject? && p.payload.fields.Keys == {"Data"}
  {
    if modelName != "" && ToLower(modelName) == "quickwins" then [AuthorizationY, AuthorizationN] else []
  }

  /** Presets depend on the model name only up to case. */
  lemma PresetsIgnoreCase(a: string, b: string)
    requires ToLower(a) == ToLower(b)
    ensures PresetsFor(a) == PresetsFor(b)
  {
    assert |a| == |ToLower(a)| == |ToLower(b)| == |b|;
  }

  /** When the list holds a quickwins model, the model the form selects
      first is offered both presets. */
  lemma SelectedModelHasPresets(models: seq<ModelInfo>)
    requires exists k :: 0 <= k < |models| && IsQuickwins(models[k])
    ensures DefaultModel(models).Some? && |PresetsFor(DefaultModel(models).value.name)| == 2
  {
    var first := FindIndex(models, IsQuickwins);
    assert first.Some?;
    assert DefaultModel(models) == Some(models[first.value]);
  }
}

=== FILE: generator.dfy ===
/** generateTestSuite: one positive test case per table row, then negative
    test cases that change one input of a row to another value seen in the
    same column, up to a cap of rows x maxNegativesPerRule for the whole
    suite. */
module Generator {
  import opened Base
  import opened Text
  import opened Columns
  import opened Cells
  import opened TestCases
  import opened Runner

  datatype Options = Options(includeNegative: bool, maxNegativesPerRule: int)

  /** `{ includeNegative: true, maxNegativesPerRule: 1 }`. */
  const DefaultOptions: Options := Options(true, 1)

  const PositiveDescription: string := "Positive - should match rule"

  /** The value a negative test case falls back to when a column offers no
      other value. */
  const Sentinel: string := "-"

  /** The number of input columns: every column but the last. */
  function InCount(cols: seq<Column>): (r: nat)
    ensures |cols| > 0 ==> r == |cols| - 1
    ensures |cols| == 0 ==> r == 0
  {
    Max(0, |cols| - 1)
  }

  /** `r.slice(0, inCount)` with missing cells read as "". */
  function RowInputs(row: Row, n: nat): (r: seq<string>)
    ensures |r| == Min(n, |row|)
    ensures forall j :: 0 <= j < |r| ==> r[j] == row[j]
  {
    row[..Min(n, |row|)]
  }

  /** The positive test case built from row `ri`: its input cells and its
      output cell as the expected value. */
  function Positive(cols: seq<Column>, rows: seq<Row>, ri: nat): (r: TestCase)
    requires ri < |rows|
    ensures r.inputs == RowInputs(rows[ri], InCount(cols))
    ensures r.expected == CellOrEmpty(rows[ri], |cols| - 1)
    ensures r.sourceRowIndex == Some(ri) && r.description == Some(PositiveDescription)
    ensures r.result.None? && r.status.None? && r.matchedRow.None?
  {
    TestCase(RowInputs(rows[ri], InCount(cols)), CellOrEmpty(rows[ri], |cols| - 1),
             None, None, Some(ri), None, Some(PositiveDescription))
  }

  /** The cells of column `idx`, one per row. */
  function ColumnCells(rows: seq<Row>, idx: nat): (r: seq<string>)
    ensures |r| == |rows|
    ensures forall k :: 0 <= k < |r| ==> r[k] == CellOrEmpty(rows[k], idx)
  {
    seq(|rows|, k requires 0 <= k < |rows| => CellOrEmpty(rows[k], idx))
  }

  /** `uniqueValuesPerCol[idx]`: the distinct non-empty cells of column
      `idx`, without repetition. */
  function ColumnValues(rows: seq<Row>, idx: nat): (r: seq<string>)
    ensures forall v :: v in r <==> v != "" && v in ColumnCells(rows, idx)
    ensures forall i, j :: 0 <= i < j < |r| ==> r[i] != r[j]
    ensures InFirstSeenOrder(r, ColumnCells(rows, idx))
  {
    var cells := ColumnCells(rows, idx);
    var unique := KeepFirstByKey(cells, (v: string) => v);
    KeptInFirstSeenOrder(cells, (v: string) => v, (v: string) => v != "");
    KeepFirstKeys(cells, (v: string) => v);
    KeepFirstDistinct(cells, (v: string) => v);
    assert forall v :: v in cells ==> v in KeysOf(cells, (v: string) => v);
    assert forall v :: v in unique <==> v in KeysOf(unique, (v: string) => v);
    FilterDistinct(unique, (v: string) => v != "");
    Filter(unique, (v: string) => v != "")
  }

  /** Filtering keeps distinct elements distinct. */
  lemma {:induction false} FilterDistinct(s: seq<string>, p: string -> bool)
    requires DistinctKeys(s, (v: string) => v)
    ensures forall i, j :: 0 <= i < j < |Filter(s, p)| ==> Filter(s, p)[i] != Filter(s, p)[j]
    decreases |s|
  {
    if |s| > 0 {
      var n := |s| - 1;
      var prefix := s[..n];
      assert DistinctKeys(prefix, (v: string) => v);
      FilterDistinct(prefix, p);
      var f := Filter(prefix, p);
      if p(s[n]) {
        assert s[n] !in prefix;
        assert s[n] !in f;
        var r := Filter(s, p);
        assert r == f + [s[n]];
        forall i, j | 0 <= i < j < |r| ensures r[i] != r[j] {
          if j == |f| {
            assert r[i] == f[i] && r[i] in f;
          } else {
            assert r[i] == f[i] && r[j] == f[j];
          }
        }
      }
    }
  }

  /** Row `k`'s cell in column `ci` is neither empty nor `current`. */
  predicate OtherCell(rows: seq<Row>, ci: nat, current: string, k: nat)
    requires k < |rows|
  {
    CellOrEmpty(rows[k], ci) != "" && CellOrEmpty(rows[k], ci) != current
  }

  /** Column `ci` holds a non-empty value other than `current`. */
  predicate HasOtherValue(rows: seq<Row>, ci: nat, current: string)
  {
    exists k :: 0 <= k < |rows| && OtherCell(rows, ci, current, k)
  }

  /** The first row, in table order, whose cell in column `ci` is neither
      empty nor `current`. */
  function FirstOtherRow(rows: seq<Row>, ci: nat, current: string): (r: Option<nat>)
    ensures r.Some? <==> HasOtherValue(rows, ci, current)
    ensures r.Some? ==> r.value < |rows| && OtherCell(rows, ci, current, r.value)
    ensures r.Some? ==> forall j :: 0 <= j < r.value ==> !OtherCell(rows, ci, current, j)
  {
    var cells := ColumnCells(rows, ci);
    var r := FindIndex(cells, (v: string) => v != "" && v != current);
    assert r.Some? ==> OtherCell(rows, ci, current, r.value) by {
      if r.Some? {
        assert cells[r.value] == CellOrEmpty(rows[r.value], ci);
      }
    }
    assert r.None? ==> !HasOtherValue(rows, ci, current) by {
      if r.None? {
        forall k | 0 <= k < |rows| ensures !OtherCell(rows, ci, current, k) {
          assert cells[k] == CellOrEmpty(rows[k], ci);
        }
      }
    }
    r
  }

  /** `uniqueValuesPerCol[ci].filter(v => v !== current)`: the column's other
      values, in the order in which they first occur. */
  function Candidates(rows: seq<Row>, ci: nat, current: string): (r: seq<string>)
    ensures forall v :: v in r <==> v in ColumnValues(rows, ci) && v != current
    ensures InFirstSeenOrder(r, ColumnCells(rows, ci))
  {
    FilterKeepsOrder(ColumnValues(rows, ci), ColumnCells(rows, ci), (v: string) => v != current);
    Filter(ColumnValues(rows, ci), (v: string) => v != current)
  }

  /** The first candidate is the cell of the first row that offers one. */
  lemma FirstCandidate(rows: seq<Row>, ci: nat, current: string)
    requires HasOtherValue(rows, ci, current)
    ensures |Candidates(rows, ci, current)| > 0
    ensures Candidates(rows, ci, current)[0] == CellOrEmpty(rows[FirstOtherRow(rows, ci, current).value], ci)
  {
    var cells := ColumnCells(rows, ci);
    var c := Candidates(rows, ci, current);
    var k := FirstOtherRow(rows, ci, current).value;
    var v := CellOrEmpty(rows[k], ci);
    assert cells[k] == v;
    assert v in c;
    CandidateFirstSeenAtOtherRow(rows, ci, current, v);
    assert FirstPos(cells, v) == k;
    var i :| 0 <= i < |c| && c[i] == v;
    assert c[0] in c;
    CandidateFirstSeenAtOtherRow(rows, ci, current, c[0]);
    assert i == 0;
  }

  /** A candidate first appears down the column in a row that offers another
      value. */
  lemma CandidateFirstSeenAtOtherRow(rows: seq<Row>, ci: nat, current: string, v: string)
    requires v in Candidates(rows, ci, current)
    ensures v in ColumnCells(rows, ci) && FirstPos(ColumnCells(rows, ci), v) < |rows|
    ensures OtherCell(rows, ci, current, FirstPos(ColumnCells(rows, ci), v))
  {
    var cells := ColumnCells(rows, ci);
    assert v in ColumnValues(rows, ci);
    var m := FirstPos(cells, v);
    assert cells[m] == CellOrEmpty(rows[m], ci);
  }

  /** The replacement value for column `ci` of a row whose cell there is
      `current`: `candidates[0]`, the other value of the first row that has
      one, else "-". */
  function Pick(rows: seq<Row>, ci: nat, current: string): (r: string)
    ensures HasOtherValue(rows, ci, current) ==> r != "" && r != current && r in ColumnCells(rows, ci)
    ensures HasOtherValue(rows, ci, current) ==>
              r == CellOrEmpty(rows[FirstOtherRow(rows, ci, current).value], ci)
    ensures !HasOtherValue(rows, ci, current) ==> r == Sentinel
  {
    var candidates := Candidates(rows, ci, current);
    assert HasOtherValue(rows, ci, current) ==>
             |candidates| > 0 && candidates[0] == CellOrEmpty(rows[FirstOtherRow(rows, ci, current).value], ci) by {
      if HasOtherValue(rows, ci, current) {
        FirstCandidate(rows, ci, current);
      }
    }
    assert !HasOtherValue(rows, ci, current) ==> |candidates| == 0 by {
      if |candidates| > 0 {
        var v := candidates[0];
        assert v in candidates && v in ColumnCells(rows, ci);
        var k :| 0 <= k < |rows| && ColumnCells(rows, ci)[k] == v;
        assert OtherCell(rows, ci, current, k);
      }
    }
    if |candidates| > 0 then
      assert candidates[0] in candidates;
      candidates[0]
    else Sentinel
  }

  /** Every row has a cell for each input column. */
  predicate WideRows(cols: seq<Column>, rows: seq<Row>)
  {
    forall k :: 0 <= k < |rows| ==> InCount(cols) <= |rows[k]|
  }

  /** The negative test case for row `ri` and input column `ci`: the row's
      inputs with column `ci` replaced, expecting no match. */
  function Negative(cols: seq<Column>, rows: seq<Row>, ri: nat, ci: nat): (r: TestCase)
    requires ri < |rows| && ci < InCount(cols) <= |rows[ri]|
    ensures |r.inputs| == InCount(cols)
    ensures forall j :: 0 <= j < |r.inputs| && j != ci ==> r.inputs[j] == rows[ri][j]
    ensures HasOtherValue(rows, ci, rows[ri][ci]) ==>
              r.inputs[ci] != rows[ri][ci] && r.inputs[ci] != "" && r.inputs[ci] in ColumnCells(rows, ci)
    ensures HasOtherValue(rows, ci, rows[ri][ci]) ==>
              r.inputs[ci] == CellOrEmpty(rows[FirstOtherRow(rows, ci, rows[ri][ci]).value], ci)
    ensures !HasOtherValue(rows, ci, rows[ri][ci]) ==> r.inputs[ci] == Sentinel
    ensures r.expected == NoMatch && r.sourceRowIndex == Some(ri)
    ensures r.description == Some("Negative - change column " + NatToString(ci + 1))
    ensures r.result.None? && r.status.None? && r.matchedRow.None?
  {
    var base := RowInputs(rows[ri], InCount(cols));
    TestCase(base[ci := Pick(rows, ci, base[ci])], NoMatch, None, None, Some(ri), None,
             Some("Negative - change column " + NatToString(ci + 1)))
  }

  /** The negative test cases of row `ri`, one per input column. */
  function RowNegatives(cols: seq<Column>, rows: seq<Row>, ri: nat): (r: seq<TestCase>)
    requires ri < |rows| && InCount(cols) <= |rows[ri]|
    ensures |r| == InCount(cols)
    ensures forall ci :: 0 <= ci < |r| ==> r[ci] == Negative(cols, rows, ri, ci)
  {
    seq(InCount(cols), ci requires 0 <= ci < InCount(cols) => Negative(cols, rows, ri, ci))
  }

  /** The negative test cases of the first `n` rows, before the cap. */
  function NegativesUpTo(cols: seq<Column>, rows: seq<Row>, n: nat): (r: seq<TestCase>)
    requires n <= |rows| && WideRows(cols, rows)
    decreases n
  {
    if n == 0 then [] else NegativesUpTo(cols, rows, n - 1) + RowNegatives(cols, rows, n - 1)
  }

  lemma MulCancel(a: int, b: int, c: int)
    requires c > 0 && a * c < b * c
    ensures a < b
  {
  }

  /** `k` lies in row `k / c` of a layout with `c` entries per row. */
  lemma DivModInRow(k: int, row: nat, c: nat)
    requires c > 0 && row * c <= k < row * c + c
    ensures k / c == row && k % c == k - row * c
  {
    var q, m := k / c, k % c;
    assert k == q * c + m && 0 <= m < c;
    assert row * c < (q + 1) * c;
    MulCancel(row, q + 1, c);
    assert q * c < (row + 1) * c;
    MulCancel(q, row + 1, c);
  }

  /** The `k`-th negative test case before the cap: row `k / c`, input
      column `k % c`, with `c` input columns. */
  function NthNegative(cols: seq<Column>, rows: seq<Row>, k: nat): (r: TestCase)
    requires WideRows(cols, rows) && k < |rows| * InCount(cols)
    ensures k / InCount(cols) < |rows| && k % InCount(cols) < InCount(cols)
    ensures r == Negative(cols, rows, k / InCount(cols), k % InCount(cols))
  {
    var c := InCount(cols);
    assert c > 0;
    assert k / c * c <= k < |rows| * c;
    MulCancel(k / c, |rows|, c);
    Negative(cols, rows, k / c, k % c)
  }

  lemma MulMono(a: nat, b: nat, c: nat)
    requires a <= b
    ensures a * c <= b * c
  {
  }

  /** The first `n` rows' negatives are the first `n * c` entries of the
      row-by-row layout, with `c` input columns. */
  predicate LaidOut(cols: seq<Column>, rows: seq<Row>, n: nat)
    requires n <= |rows| && WideRows(cols, rows)
  {
    var c := InCount(cols);
    |NegativesUpTo(cols, rows, n)| == n * c && n * c <= |rows| * c &&
    forall k :: 0 <= k < n * c ==> NegativesUpTo(cols, rows, n)[k] == NthNegative(cols, rows, k)
  }

  /** Row by row, each row contributes one negative per input column. */
  lemma {:induction false} NegativesUpToLayout(cols: seq<Column>, rows: seq<Row>, n: nat)
    requires n <= |rows| && WideRows(cols, rows)
    ensures LaidOut(cols, rows, n)
    decreases n
  {
    var c := InCount(cols);
    MulMono(n, |rows|, c);
    if n > 0 {
      NegativesUpToLayout(cols, rows, n - 1);
      var prev := NegativesUpTo(cols, rows, n - 1);
      var r := NegativesUpTo(cols, rows, n);
      assert r == prev + RowNegatives(cols, rows, n - 1);
      forall k | 0 <= k < n * c
        ensures r[k] == NthNegative(cols, rows, k)
      {
        if k < (n - 1) * c {
          assert r[k] == prev[k];
        } else {
          LastRowEntry(cols, rows, n, k);
        }
      }
    }
  }

  /** An entry of the `n`-th row's block is that row's negative for input
      column `k % c`. */
  lemma LastRowEntry(cols: seq<Column>, rows: seq<Row>, n: nat, k: nat)
    requires 0 < n <= |rows| && WideRows(cols, rows)
    requires LaidOut(cols, rows, n - 1)
    requires (n - 1) * InCount(cols) <= k < n * InCount(cols)
    ensures k < |rows| * InCount(cols)
    ensures NegativesUpTo(cols, rows, n)[k] == NthNegative(cols, rows, k)
  {
    var c := InCount(cols);
    var prev := NegativesUpTo(cols, rows, n - 1);
    var last := RowNegatives(cols, rows, n - 1);
    assert NegativesUpTo(cols, rows, n) == prev + last;
    MulMono(n, |rows|, c);
    DivModInRow(k, n - 1, c);
    var j := k - (n - 1) * c;
    assert |prev| == (n - 1) * c && 0 <= j < |last|;
    assert (prev + last)[k] == last[j];
    assert last[j] == Negative(cols, rows, n - 1, j);
    assert NthNegative(cols, rows, k) == Negative(cols, rows, k / c, k % c);
  }

  /** The cap on negative test cases for the whole suite. */
  function NegativeCap(rows: seq<Row>, opts: Options): int
  {
    if opts.includeNegative then |rows| * opts.maxNegativesPerRule else 0
  }

  /** The negative test cases the generator keeps. */
  function Negatives(cols: seq<Column>, rows: seq<Row>, opts: Options): (r: seq<TestCase>)
    requires WideRows(cols, rows)
    ensures |r| == Min(|rows| * InCount(cols), Max(NegativeCap(rows, opts), 0))
    ensures forall k :: 0 <= k < |r| ==> k < |rows| * InCount(cols) && r[k] == NthNegative(cols, rows, k)
  {
    NegativesUpToLayout(cols, rows, |rows|);
    Take(NegativesUpTo(cols, rows, |rows|), NegativeCap(rows, opts))
  }

  /** The generator's nested loops: rows in order, input columns in order,
      stopping as soon as the cap is reached. */
  method CollectNegatives(cols: seq<Column>, rows: seq<Row>, opts: Options) returns (neg: seq<TestCase>)
    requires WideRows(cols, rows)
    ensures neg == Negatives(cols, rows, opts)
  {
    var cap := NegativeCap(rows, opts);
    neg := [];
    if !opts.includeNegative {
      return;
    }
    var ri := 0;
    while ri < |rows|
      invariant 0 <= ri <= |rows|
      invariant neg == Take(NegativesUpTo(cols, rows, ri), cap)
    {
      neg := CollectRow(cols, rows, ri, cap, neg);
      ri := ri + 1;
    }
  }

  /** The inner loop over the input columns of row `ri`. */
  method CollectRow(cols: seq<Column>, rows: seq<Row>, ri: nat, cap: int, neg0: seq<TestCase>)
    returns (neg: seq<TestCase>)
    requires ri < |rows| && WideRows(cols, rows)
    requires neg0 == Take(NegativesUpTo(cols, rows, ri), cap)
    ensures neg == Take(NegativesUpTo(cols, rows, ri + 1), cap)
  {
    neg := AppendBelowCap(NegativesUpTo(cols, rows, ri), RowNegatives(cols, rows, ri), cap, neg0);
  }

  /** Appends the items of `row` one at a time while fewer than `cap` are
      kept: the kept prefix of `done` grows into that of `done + row`. */
  method AppendBelowCap<T>(done: seq<T>, row: seq<T>, cap: int, neg0: seq<T>) returns (neg: seq<T>)
    requires neg0 == Take(done, cap)
    ensures neg == Take(done + row, cap)
  {
    neg := neg0;
    var ci := 0;
    assert done + row[..0] == done;
    while ci < |row| && |neg| < cap
      invariant 0 <= ci <= |row|
      invariant neg == Take(done + row[..ci], cap)
    {
      TakeStep(done + row[..ci], row[ci], cap);
      neg := neg + [row[ci]];
      PrefixStep(done, row, ci);
      ci := ci + 1;
    }
    TakeRest(done, row, ci, cap);
  }

  /** Below the cap, appending one element appends it to the taken prefix. */
  lemma TakeStep<T>(s: seq<T>, x: T, cap: int)
    requires |Take(s, cap)| < cap
    ensures Take(s + [x], cap) == Take(s, cap) + [x]
  {
  }

  /** One more element of `row` taken after `done`. */
  lemma PrefixStep<T>(done: seq<T>, row: seq<T>, ci: nat)
    requires ci < |row|
    ensures done + row[..ci + 1] == (done + row[..ci]) + [row[ci]]
  {
    assert row[..ci + 1] == row[..ci] + [row[ci]];
  }

  /** Once the inner loop stops, the taken prefix is that of the whole row. */
  lemma TakeRest<T>(done: seq<T>, row: seq<T>, ci: nat, cap: int)
    requires ci <= |row|
    requires ci == |row| || |Take(done + row[..ci], cap)| >= cap
    ensures Take(done + row[..ci], cap) == Take(done + row, cap)
  {
    if ci == |row| {
      assert row[..ci] == row;
    } else {
      assert done + row == (done + row[..ci]) + row[ci..];
      TakeSaturated(done + row[..ci], row[ci..], cap);
    }
  }

  /** Rows are present, columns are present, and the negatives are defined. */
  predicate CanGenerate(cols: seq<Column>, rows: seq<Row>, opts: Options)
  {
    |rows| > 0 && |cols| > 0 && (NegativeCap(rows, opts) > 0 ==> WideRows(cols, rows))
  }

  /** generateTestSuite: with no rows or no columns the test cases stay as
      they are; otherwise they are replaced by every row's positive test
      case followed by the capped negatives. */
  function GenerateTestSuite(cols: seq<Column>, rows: seq<Row>, opts: Options,
                             current: seq<TestCase>): (r: seq<TestCase>)
    requires |rows| > 0 && |cols| > 0 && NegativeCap(rows, opts) > 0 ==> WideRows(cols, rows)
    ensures (|rows| == 0 || |cols| == 0) ==> r == current
    ensures |rows| > 0 && |cols| > 0 ==>
              |r| >= |rows| &&
              (forall ri :: 0 <= ri < |rows| ==> r[ri] == Positive(cols, rows, ri)) &&
              (forall k :: |rows| <= k < |r| ==> r[k].expected == NoMatch && r[k].description.Some?)
    ensures |rows| > 0 && |cols| > 0 && NegativeCap(rows, opts) > 0 ==>
              |r| == |rows| + Min(|rows| * InCount(cols), NegativeCap(rows, opts))
    ensures |rows| > 0 && |cols| > 0 && NegativeCap(rows, opts) > 0 ==>
              r[|rows|..] == Negatives(cols, rows, opts)
    ensures |rows| > 0 && |cols| > 0 && NegativeCap(rows, opts) <= 0 ==> |r| == |rows|
    ensures forall k :: 0 <= k < |r| && !(|rows| == 0 || |cols| == 0) ==>
              r[k].result.None? && r[k].status.None? && r[k].matchedRow.None?
  {
    if |rows| == 0 || |cols| == 0 then current
    else
      var pos := seq(|rows|, ri requires 0 <= ri < |rows| => Positive(cols, rows, ri));
      if NegativeCap(rows, opts) <= 0 then pos
      else pos + Negatives(cols, rows, opts)
  }

  /** With every row wide enough, each generated test case has one input
      per input column, as the test cases it replaces had. */
  lemma GeneratedInputsFit(cols: seq<Column>, rows: seq<Row>, opts: Options, current: seq<TestCase>)
    requires WideRows(cols, rows)
    requires forall k :: 0 <= k < |current| ==> |current[k].inputs| == InCount(cols)
    ensures forall k :: 0 <= k < |GenerateTestSuite(cols, rows, opts, current)| ==>
              |GenerateTestSuite(cols, rows, opts, current)[k].inputs| == InCount(cols)
  {
    var r := GenerateTestSuite(cols, rows, opts, current);
    if |rows| > 0 && |cols| > 0 {
      forall k | 0 <= k < |r| ensures |r[k].inputs| == InCount(cols) {
        if k < |rows| {
          assert r[k] == Positive(cols, rows, k);
        } else {
          var negs := Negatives(cols, rows, opts);
          assert r[k] == negs[k - |rows|];
        }
      }
    }
  }

  /** A positive test case, run against the table it came from, matches
      its own row unless an earlier row has the same inputs; run on a table
      whose input rows are all different, it passes whenever it expects a
      value. */
  lemma {:induction false} PositivePasses(cols: seq<Column>, rows: seq<Row>, ri: nat)
    requires DistinctColumnNames(cols) && OutputIsLast(cols) && |cols| > 0
    requires WideRows(cols, rows) && ri < |rows|
    requires forall j :: 0 <= j < ri ==> rows[j][..InCount(cols)] != rows[ri][..InCount(cols)]
    ensures RunCase(cols, rows, Positive(cols, rows, ri)).matchedRow == Some(ri)
    ensures RunCase(cols, rows, Positive(cols, rows, ri)).status != Some(Fail)
  {
    var tc := Positive(cols, rows, ri);
    var n := InCount(cols);
    RowMatchesItsOwnInputs(cols, rows, tc, ri);
    assert tc.inputs == rows[ri][..n];
    forall j | 0 <= j < ri ensures !RowMatchesCase(cols, rows[j], tc.inputs) {
      if RowMatchesCase(cols, rows[j], tc.inputs) {
        MatchMeansSameInputs(cols, rows[j], tc.inputs);
      }
    }
    FindIndexAt(rows, row => RowMatchesCase(cols, row, tc.inputs), ri);
    var r := RunCase(cols, rows, tc);
    assert r.matchedRow == Some(ri);
    assert r.result == OutputCell(cols, rows[ri]);
    assert tc.expected == CellOrEmpty(rows[ri], |cols| - 1);
  }

  /** A wide row matches a test case only when its input cells are the
      test case's inputs. */
  lemma MatchMeansSameInputs(cols: seq<Column>, row: Row, inputs: seq<string>)
    requires DistinctColumnNames(cols) && OutputIsLast(cols) && |cols| > 0
    requires InCount(cols) <= |row| && |inputs| == InCount(cols)
    requires RowMatchesCase(cols, row, inputs)
    ensures row[..InCount(cols)] == inputs
  {
    var ins := InputColumns(cols);
    forall idx | 0 <= idx < InCount(cols) ensures row[idx] == inputs[idx] {
      InputColumnPosition(cols, idx);
      assert Stringified(row, ColumnIndexByName(cols, ins[idx].name)) == inputs[idx];
    }
  }
}

=== FILE: graph.dfy ===
/** The DMN diagram editor's node and edge lists and the edits on them that
    carry logic: removing a node together with its edges, and drawing an
    edge from the node a connection was started at. Positions, dragging and
    the node palette are not modelled. */
module Graph {
  import opened Base

  /** A diagram node: its numeric id, its kind ('input', 'decision', ...)
      and its label (`caption`). */
  datatype DiagramNode = DiagramNode(id: int, kind: string, caption: string)

  /** An edge `{ from, to }` between two node ids. */
  datatype Edge = Edge(source: int, target: int)

  /** The part of the diagram that is saved with a model. */
  datatype Diagram = Diagram(nodes: seq<DiagramNode>, edges: seq<Edge>)

  /** The editor's state: the diagram, the selected node and the node a
      connection was started at (`null` when none). */
  datatype Canvas = Canvas(diagram: Diagram, selected: Option<int>, connectingFrom: Option<int>)

  /** `if (connectingFrom)`: a numeric id is falsy only when it is 0. */
  predicate Connecting(c: Canvas)
  {
    c.connectingFrom.Some? && c.connectingFrom.value != 0
  }

  predicate Touches(e: Edge, id: int)
  {
    e.source == id || e.target == id
  }

  predicate IsNode(d: Diagram, id: int)
  {
    exists n :: n in d.nodes && n.id == id
  }

  /** Every edge joins two nodes of the diagram. */
  predicate Closed(d: Diagram)
  {
    forall e :: e in d.edges ==> IsNode(d, e.source) && IsNode(d, e.target)
  }

  /** No edge leads from a node to itself. */
  predicate NoSelfLoops(d: Diagram)
  {
    forall e :: e in d.edges ==> e.source != e.target
  }

  /** removeNode: the node goes, and so does every edge that touches it;
      every other node and edge stays, and the selection is cleared. */
  function RemoveNode(c: Canvas, id: int): (r: Canvas)
    ensures forall n :: n in r.diagram.nodes <==> n in c.diagram.nodes && n.id != id
    ensures forall e :: e in r.diagram.edges <==> e in c.diagram.edges && !Touches(e, id)
    ensures SubsequenceOf(r.diagram.nodes, c.diagram.nodes) && SubsequenceOf(r.diagram.edges, c.diagram.edges)
    ensures forall n :: multiset(r.diagram.nodes)[n] == if n.id != id then multiset(c.diagram.nodes)[n] else 0
    ensures forall e :: multiset(r.diagram.edges)[e] == if !Touches(e, id) then multiset(c.diagram.edges)[e] else 0
    ensures r.selected.None? && r.connectingFrom == c.connectingFrom
  {
    var d := c.diagram;
    var keepNode := (n: DiagramNode) => n.id != id;
    var keepEdge := (e: Edge) => !Touches(e, id);
    FilterSubsequence(d.nodes, keepNode);
    FilterSubsequence(d.edges, keepEdge);
    FilterCounts(d.nodes, keepNode);
    FilterCounts(d.edges, keepEdge);
    Canvas(Diagram(Filter(d.nodes, keepNode), Filter(d.edges, keepEdge)), None, c.connectingFrom)
  }

  /** startConnecting. */
  function StartConnecting(c: Canvas, id: int): (r: Canvas)
    ensures r.diagram == c.diagram && r.selected == c.selected
    ensures r.connectingFrom == Some(id)
  {
    c.(connectingFrom := Some(id))
  }

  /** finishConnecting: an edge from the start node to `id` is appended
      only when a connection is under way and `id` is another node; the
      pending connection is dropped either way. */
  function FinishConnecting(c: Canvas, id: int): (r: Canvas)
    ensures r.diagram.nodes == c.diagram.nodes && r.selected == c.selected
    ensures r.connectingFrom.None?
    ensures Connecting(c) && c.connectingFrom.value != id ==>
              r.diagram.edges == c.diagram.edges + [Edge(c.connectingFrom.value, id)]
    ensures !(Connecting(c) && c.connectingFrom.value != id) ==> r.diagram.edges == c.diagram.edges
  {
    var edges :=
      if Connecting(c) && c.connectingFrom.value != id
      then c.diagram.edges + [Edge(c.connectingFrom.value, id)]
      else c.diagram.edges;
    Canvas(Diagram(c.diagram.nodes, edges), c.selected, None)
  }

  /** Removing a node leaves no edge dangling. */
  lemma RemoveNodeKeepsClosed(c: Canvas, id: int)
    requires Closed(c.diagram)
    ensures Closed(RemoveNode(c, id).diagram)
  {
    var r := RemoveNode(c, id).diagram;
    forall e | e in r.edges ensures IsNode(r, e.source) && IsNode(r, e.target) {
      var a :| a in c.diagram.nodes && a.id == e.source;
      var b :| b in c.diagram.nodes && b.id == e.target;
      assert a in r.nodes && b in r.nodes;
    }
  }

  /** No edit ever introduces a self-loop. */
  lemma EditsKeepNoSelfLoops(c: Canvas, id: int)
    requires NoSelfLoops(c.diagram)
    ensures NoSelfLoops(RemoveNode(c, id).diagram)
    ensures NoSelfLoops(FinishConnecting(c, id).diagram)
  {
  }

  /** Finishing at the node the connection started from adds nothing. */
  lemma FinishOnStartAddsNothing(c: Canvas, id: int)
    requires c.connectingFrom == Some(id)
    ensures FinishConnecting(c, id).diagram == c.diagram
  {
  }

  /** A connection started at one node and finished at another, both in the
      diagram, keeps every edge between nodes of the diagram. */
  lemma ConnectKeepsClosed(c: Canvas, start: int, id: int)
    requires Closed(c.diagram) && IsNode(c.diagram, start) && IsNode(c.diagram, id)
    ensures Closed(FinishConnecting(StartConnecting(c, start), id).diagram)
  {
    var s := StartConnecting(c, start);
    var r := FinishConnecting(s, id).diagram;
    assert r.nodes == c.diagram.nodes;
    forall e | e in r.edges ensures IsNode(r, e.source) && IsNode(r, e.target) {
      if e !in c.diagram.edges {
        assert e == Edge(start, id);
      }
    }
  }
}

=== FILE: hash.dfy ===
/** hashCode: the 32-bit string hash `h = 31 * h + c` over the UTF-16 code
    units of a string, which the workspace uses to key the table editor on
    the table's content. */
module Hash {

  /** A UTF-16 code unit, what `charCodeAt` returns. */
  newtype CodeUnit = x: int | 0 <= x < 0x1_0000

  const Modulus: int := 0x1_0000_0000
  const Half: int := 0x8000_0000

  /** The ToInt32 conversion of ECMAScript (applied by `x | 0` and to the
      left operand of `<<`): the integer congruent to `x` modulo 2^32 that
      lies in [-2^31, 2^31). */
  function ToInt32(x: int): (r: int)
    ensures -Half <= r < Half
    ensures (r - x) % Modulus == 0
  {
    (x + Half) % Modulus - Half
  }

  /** ToInt32 depends only on the residue modulo 2^32. */
  lemma ToInt32Congruent(x: int, y: int, k: int)
    requires x == y + k * Modulus
    ensures ToInt32(x) == ToInt32(y)
  {
    var q := (y + Half) / Modulus;
    var rem := (y + Half) % Modulus;
    assert x + Half == (q + k) * Modulus + rem;
    assert 0 <= rem < Modulus;
  }

  /** `ToInt32(x)` differs from `x` by a multiple of 2^32, named here. */
  lemma ToInt32Offset(x: int) returns (k: int)
    ensures ToInt32(x) == x + k * Modulus
  {
    k := -((x + Half) / Modulus);
  }

  /** The UTF-16 encoding of a string: one code unit for a character of the
      Basic Multilingual Plane, a surrogate pair for any other. */
  function Utf16(s: string): (r: seq<CodeUnit>)
    ensures |s| <= |r| <= 2 * |s|
    ensures (forall i :: 0 <= i < |s| ==> (s[i] as int) < 0x1_0000) ==> |r| == |s|
    decreases |s|
  {
    if |s| == 0 then []
    else
      var c := s[|s| - 1] as int;
      var units: seq<CodeUnit> :=
        if c < 0x1_0000 then [c as CodeUnit]
        else [(0xD800 + (c - 0x1_0000) / 0x400) as CodeUnit, (0xDC00 + (c - 0x1_0000) % 0x400) as CodeUnit];
      Utf16(s[..|s| - 1]) + units
  }

  /** The reference: the polynomial sum of c[i] * 31^(n-1-i) over the code
      units, in unbounded integers (what Java's String.hashCode reduces
      modulo 2^32). */
  function Poly(s: seq<CodeUnit>): int
    decreases |s|
  {
    if |s| == 0 then 0 else 31 * Poly(s[..|s| - 1]) + s[|s| - 1] as int
  }

  /** One step of the loop as written, `((hash << 5) - hash) + chr` then
      `| 0`, agrees with the reference step `31 * p + c` modulo 2^32. */
  lemma StepAgrees(h: int, p: int, c: int)
    requires h == ToInt32(p)
    ensures ToInt32(ToInt32(h * 32) - h + c) == ToInt32(31 * p + c)
  {
    var a := ToInt32Offset(p);
    var b := ToInt32Offset(h * 32);
    assert ToInt32(h * 32) - h + c == 31 * p + c + (31 * a + b) * Modulus;
    ToInt32Congruent(ToInt32(h * 32) - h + c, 31 * p + c, 31 * a + b);
  }

  /** hashCode: 0 for the empty string; otherwise the loop over the code
      units. The result is the reference polynomial reduced to a signed
      32-bit integer. */
  method HashCode(s: seq<CodeUnit>) returns (hash: int)
    ensures hash == ToInt32(Poly(s))
    ensures -Half <= hash < Half
  {
    hash := 0;
    if |s| == 0 {
      return;
    }
    var i := 0;
    while i < |s|
      invariant 0 <= i <= |s|
      invariant hash == ToInt32(Poly(s[..i]))
    {
      var chr := s[i] as int;
      assert s[..i + 1][..i] == s[..i];
      StepAgrees(hash, Poly(s[..i]), chr);
      hash := ToInt32(ToInt32(hash * 32) - hash + chr);
      i := i + 1;
    }
    assert s[..|s|] == s;
  }

  /** The hash is not injective: "Aa" and "BB" hash alike, so a content
      change between them keeps the editor's key. */
  lemma AaCollidesWithBB()
    ensures Poly([65 as CodeUnit, 97 as CodeUnit]) == Poly([66 as CodeUnit, 66 as CodeUnit])
    ensures Utf16("Aa") == [65 as CodeUnit, 97 as CodeUnit] && Utf16("BB") == [66 as CodeUnit, 66 as CodeUnit]
  {
    var ab: seq<CodeUnit> := [65 as CodeUnit, 97 as CodeUnit];
    var bb: seq<CodeUnit> := [66 as CodeUnit, 66 as CodeUnit];
    assert ab[..1] == [65 as CodeUnit] && bb[..1] == [66 as CodeUnit];
    assert "Aa"[..1] == "A" && "BB"[..1] == "B";
  }
}

=== FILE: realign.dfy ===
/** realignTestCases: after the columns change, every test case gets one
    input per new input column. A value recorded under the same column name
    is kept; otherwise the value is taken from the first table row that
    agrees with the test case on the other input columns. */
module Realign {
  import opened Base
  import opened Columns
  import opened Cells
  import opened TestCases

  /** The test `pattern[i] !== null && pattern[i] !== row[i]` passes: an
      absent entry matches anything, an `undefined` entry matches only a
      missing cell, a value matches an equal cell. */
  predicate Fits(rec: Recorded, row: Row, i: nat)
  {
    match rec
    case Absent => true
    case Undefined => |row| <= i
    case Value(s) => i < |row| && row[i] == s
  }

  /** `row` agrees with the recorded inputs on every new input column but `idx`. */
  predicate RowFits(names: seq<string>, prevNames: seq<string>, inputs: seq<string>, row: Row, idx: nat)
  {
    forall i :: 0 <= i < |names| && i != idx ==> Fits(Lookup(prevNames, inputs, names[i]), row, i)
  }

  /** `row` is the first of `rows` that fits. */
  predicate FirstFit(names: seq<string>, prevNames: seq<string>, inputs: seq<string>,
                     rows: seq<Row>, idx: nat, k: nat)
  {
    k < |rows| && RowFits(names, prevNames, inputs, rows[k], idx) &&
    forall j :: 0 <= j < k ==> !RowFits(names, prevNames, inputs, rows[j], idx)
  }

  /** The autofill value for input column `idx`: the cell of the first
      fitting row in that column, or "" when no row fits or that cell is
      missing or empty. */
  function Autofill(names: seq<string>, prevNames: seq<string>, inputs: seq<string>,
                    rows: seq<Row>, idx: nat): (r: string)
    ensures forall k: nat :: FirstFit(names, prevNames, inputs, rows, idx, k) ==>
              r == CellOrEmpty(rows[k], idx)
    ensures (forall k :: 0 <= k < |rows| ==> !RowFits(names, prevNames, inputs, rows[k], idx)) ==>
              r == ""
  {
    match FindIndex(rows, row => RowFits(names, prevNames, inputs, row, idx))
    case None => ""
    case Some(k) =>
      assert FirstFit(names, prevNames, inputs, rows, idx, k);
      CellOrEmpty(rows[k], idx)
  }

  /** The new value of input `idx`: a non-empty value recorded under the
      column's name is kept, anything else is autofilled. */
  function ResolveInput(names: seq<string>, prevNames: seq<string>, inputs: seq<string>,
                        rows: seq<Row>, idx: nat): (r: string)
    requires idx < |names|
    ensures Lookup(prevNames, inputs, names[idx]).Value? &&
            Lookup(prevNames, inputs, names[idx]).s != "" ==>
              r == Lookup(prevNames, inputs, names[idx]).s
    ensures !(Lookup(prevNames, inputs, names[idx]).Value? &&
              Lookup(prevNames, inputs, names[idx]).s != "") ==>
              r == Autofill(names, prevNames, inputs, rows, idx)
  {
    match Lookup(prevNames, inputs, names[idx])
    case Value(s) => if s != "" then s else Autofill(names, prevNames, inputs, rows, idx)
    case _ => Autofill(names, prevNames, inputs, rows, idx)
  }

  function RealignCase(names: seq<string>, prevNames: seq<string>, rows: seq<Row>,
                       tc: TestCase): (r: TestCase)
    ensures |r.inputs| == |names|
    ensures r == tc.(inputs := r.inputs)
    ensures forall idx :: 0 <= idx < |names| ==>
              r.inputs[idx] == ResolveInput(names, prevNames, tc.inputs, rows, idx)
  {
    tc.(inputs := seq(|names|, idx requires 0 <= idx < |names| =>
                        ResolveInput(names, prevNames, tc.inputs, rows, idx)))
  }

  /** realignTestCases(newColumns, prevColumns, testCases), reading the table
      rows (`rows` in the source's closure) as an explicit argument. */
  function RealignTestCases(newColumns: seq<Column>, prevColumns: seq<Column>,
                            tcs: seq<TestCase>, rows: seq<Row>): (r: seq<TestCase>)
    ensures |r| == |tcs|
    ensures forall k :: 0 <= k < |r| ==>
              r[k] == tcs[k].(inputs := r[k].inputs) &&
              |r[k].inputs| == |InputColumns(newColumns)|
    ensures forall k, idx :: 0 <= k < |r| && 0 <= idx < |InputNames(newColumns)| ==>
              var rec := Lookup(InputNames(prevColumns), tcs[k].inputs, InputNames(newColumns)[idx]);
              rec.Value? && rec.s != "" ==> r[k].inputs[idx] == rec.s
    ensures forall k, idx :: 0 <= k < |r| && 0 <= idx < |InputNames(newColumns)| ==>
              var rec := Lookup(InputNames(prevColumns), tcs[k].inputs, InputNames(newColumns)[idx]);
              !(rec.Value? && rec.s != "") ==>
                r[k].inputs[idx] == Autofill(InputNames(newColumns), InputNames(prevColumns), tcs[k].inputs, rows, idx)
  {
    var names := InputNames(newColumns);
    var prevNames := InputNames(prevColumns);
    seq(|tcs|, k requires 0 <= k < |tcs| => RealignCase(names, prevNames, rows, tcs[k]))
  }

  /** Realigning against the same columns keeps every non-empty input of a
      test case that has one input per input column, when the input column
      names are distinct. */
  lemma RealignSameColumnsKeeps(cols: seq<Column>, tcs: seq<TestCase>, rows: seq<Row>,
                                k: nat, idx: nat)
    requires DistinctNames(InputNames(cols))
    requires k < |tcs| && idx < |tcs[k].inputs| == |InputNames(cols)|
    requires tcs[k].inputs[idx] != ""
    ensures RealignTestCases(cols, cols, tcs, rows)[k].inputs[idx] == tcs[k].inputs[idx]
  {
    LookupDistinct(InputNames(cols), tcs[k].inputs, idx);
  }

  /** A test case whose inputs are all non-empty and line up with the input
      columns is left exactly as it is by a same-columns realignment. */
  lemma RealignSameColumnsCase(cols: seq<Column>, tcs: seq<TestCase>, rows: seq<Row>, k: nat)
    requires DistinctNames(InputNames(cols))
    requires k < |tcs| && |tcs[k].inputs| == |InputNames(cols)|
    requires forall idx :: 0 <= idx < |tcs[k].inputs| ==> tcs[k].inputs[idx] != ""
    ensures RealignTestCases(cols, cols, tcs, rows)[k] == tcs[k]
  {
    var r := RealignTestCases(cols, cols, tcs, rows)[k];
    forall idx | 0 <= idx < |tcs[k].inputs| ensures r.inputs[idx] == tcs[k].inputs[idx] {
      RealignSameColumnsKeeps(cols, tcs, rows, k, idx);
    }
  }

  /** Realignment against the same columns leaves a suite of such test
      cases unchanged. */
  lemma RealignSameColumnsStable(cols: seq<Column>, tcs: seq<TestCase>, rows: seq<Row>)
    requires DistinctNames(InputNames(cols))
    requires forall k :: 0 <= k < |tcs| ==> |tcs[k].inputs| == |InputNames(cols)|
    requires forall k, idx :: 0 <= k < |tcs| && 0 <= idx < |tcs[k].inputs| ==> tcs[k].inputs[idx] != ""
    ensures RealignTestCases(cols, cols, tcs, rows) == tcs
  {
    forall k | 0 <= k < |tcs| ensures RealignTestCases(cols, cols, tcs, rows)[k] == tcs[k] {
      RealignSameColumnsCase(cols, tcs, rows, k);
    }
  }

  /** An input whose column name is not among the previous input columns is
      autofilled, whatever the test case held at that position. */
  lemma RealignNewNameAutofills(newColumns: seq<Column>, prevColumns: seq<Column>,
                                tcs: seq<TestCase>, rows: seq<Row>, k: nat, idx: nat)
    requires k < |tcs| && idx < |InputNames(newColumns)|
    requires InputNames(newColumns)[idx] !in InputNames(prevColumns)
    ensures RealignTestCases(newColumns, prevColumns, tcs, rows)[k].inputs[idx] ==
            Autofill(InputNames(newColumns), InputNames(prevColumns), tcs[k].inputs, rows, idx)
  {
  }
}

=== FILE: runner.dfy ===
/** runTestSuite: each test case is run against the table by finding the
    first row whose input cells equal the test case's inputs, reading that
    row's output cell and comparing it with the expected value. */
module Runner {
  import opened Base
  import opened Columns
  import opened Cells
  import opened TestCases

  /** The result recorded when no row matches. */
  const NoMatch: string := "No match found"

  /** `columns.findIndex(c => c.name === name)`, -1 when no column has that name. */
  function ColumnIndexByName(cols: seq<Column>, name: string): (r: int)
    ensures -1 <= r < |cols|
    ensures r == -1 <==> forall j :: 0 <= j < |cols| ==> cols[j].name != name
    ensures 0 <= r ==> cols[r].name == name && forall j :: 0 <= j < r ==> cols[j].name != name
  {
    match FindIndex(cols, (c: Column) => c.name == name)
    case None => -1
    case Some(j) => j
  }

  /** `String(row[k])`: a missing cell reads as "undefined". */
  function Stringified(row: Row, k: int): (r: string)
    ensures 0 <= k < |row| ==> r == row[k]
    ensures !(0 <= k < |row|) ==> r == "undefined"
  {
    CellOr(row, k, "undefined")
  }

  /** Every input column's cell, located by the column's name, equals the
      test input at the same position; a missing test input never matches. */
  predicate RowMatchesCase(cols: seq<Column>, row: Row, inputs: seq<string>)
  {
    var ins := InputColumns(cols);
    forall idx :: 0 <= idx < |ins| ==>
      idx < |inputs| && Stringified(row, ColumnIndexByName(cols, ins[idx].name)) == inputs[idx]
  }

  /** The output cell of a matched row: the last column's position, absent
      when the row is too short or there are no columns. */
  function OutputCell(cols: seq<Column>, row: Row): (r: Option<string>)
    ensures r.Some? <==> 0 < |cols| <= |row|
    ensures r.Some? ==> r.value == row[|cols| - 1]
  {
    if 0 < |cols| && |cols| - 1 < |row| then Some(row[|cols| - 1]) else None
  }

  /** The verdict for an actual result: none when nothing is expected. */
  function Judge(expected: string, result: Option<string>): (r: Option<Verdict>)
    ensures r.None? <==> expected == ""
    ensures r == Some(Pass) <==> expected != "" && result == Some(expected)
    ensures r == Some(Fail) <==> expected != "" && result != Some(expected)
  {
    if expected == "" then None
    else if result == Some(expected) then Some(Pass)
    else Some(Fail)
  }

  /** One test case of runTestSuite. */
  function RunCase(cols: seq<Column>, rows: seq<Row>, tc: TestCase): (r: TestCase)
    ensures r == tc.(result := r.result, status := r.status, matchedRow := r.matchedRow)
    ensures r.matchedRow.Some? ==>
              r.matchedRow.value < |rows| &&
              RowMatchesCase(cols, rows[r.matchedRow.value], tc.inputs) &&
              (forall j :: 0 <= j < r.matchedRow.value ==> !RowMatchesCase(cols, rows[j], tc.inputs)) &&
              r.result == OutputCell(cols, rows[r.matchedRow.value])
    ensures r.matchedRow.None? <==> forall j :: 0 <= j < |rows| ==> !RowMatchesCase(cols, rows[j], tc.inputs)
    ensures r.matchedRow.None? ==> r.result == Some(NoMatch)
    ensures r.status == Judge(tc.expected, r.result)
  {
    match FindIndex(rows, row => RowMatchesCase(cols, row, tc.inputs))
    case None =>
      tc.(result := Some(NoMatch), status := Judge(tc.expected, Some(NoMatch)), matchedRow := None)
    case Some(k) =>
      var out := OutputCell(cols, rows[k]);
      tc.(result := out, status := Judge(tc.expected, out), matchedRow := Some(k))
  }

  /** runTestSuite over all test cases. */
  function RunTestSuite(cols: seq<Column>, rows: seq<Row>, tcs: seq<TestCase>): (r: seq<TestCase>)
    ensures |r| == |tcs|
    ensures forall k :: 0 <= k < |r| ==>
              r[k].inputs == tcs[k].inputs && r[k].expected == tcs[k].expected &&
              r[k].description == tcs[k].description &&
              r[k].sourceRowIndex == tcs[k].sourceRowIndex
    ensures forall k :: 0 <= k < |r| ==> r[k].status == Judge(r[k].expected, r[k].result)
    ensures forall k :: 0 <= k < |r| ==> r[k] == RunCase(cols, rows, tcs[k])
  {
    seq(|tcs|, k requires 0 <= k < |tcs| => RunCase(cols, rows, tcs[k]))
  }

  /** Running the suite twice gives the same results as running it once: a
      run reads only inputs and expected values, which it does not change. */
  lemma RunTestSuiteIdempotent(cols: seq<Column>, rows: seq<Row>, tcs: seq<TestCase>)
    ensures RunTestSuite(cols, rows, RunTestSuite(cols, rows, tcs)) == RunTestSuite(cols, rows, tcs)
  {
    var once := RunTestSuite(cols, rows, tcs);
    var twice := RunTestSuite(cols, rows, once);
    forall k | 0 <= k < |tcs| ensures twice[k] == once[k] {
      assert once[k] == RunCase(cols, rows, tcs[k]);
      assert once[k].inputs == tcs[k].inputs;
    }
  }

  /** Column names are distinct. */
  predicate DistinctColumnNames(cols: seq<Column>)
  {
    forall i, j :: 0 <= i < j < |cols| ==> cols[i].name != cols[j].name
  }

  /** With distinct names and the output column last, the name lookup of an
      input column finds that column's own position. */
  lemma InputColumnPosition(cols: seq<Column>, idx: nat)
    requires DistinctColumnNames(cols) && OutputIsLast(cols)
    requires idx < |InputColumns(cols)|
    ensures ColumnIndexByName(cols, InputColumns(cols)[idx].name) == idx
  {
    EnsureResultLastFixesOutputIsLast(cols);
    assert InputColumns(cols)[idx] == cols[idx];
  }

  /** A row matches the test case made of its own input cells, so a run of
      that test case stops at this row or at an earlier one. */
  lemma {:induction false} RowMatchesItsOwnInputs(cols: seq<Column>, rows: seq<Row>, tc: TestCase, k: nat)
    requires DistinctColumnNames(cols) && OutputIsLast(cols)
    requires k < |rows| && |cols| - 1 <= |rows[k]|
    requires tc.inputs == rows[k][..Max(0, |cols| - 1)]
    ensures RowMatchesCase(cols, rows[k], tc.inputs)
    ensures RunCase(cols, rows, tc).matchedRow.Some?
    ensures RunCase(cols, rows, tc).matchedRow.value <= k
  {
    var ins := InputColumns(cols);
    forall idx | 0 <= idx < |ins|
      ensures idx < |tc.inputs| && Stringified(rows[k], ColumnIndexByName(cols, ins[idx].name)) == tc.inputs[idx]
    {
      InputColumnPosition(cols, idx);
    }
  }
}

=== FILE: save.dfy ===
/** Saving an edited table from the rule editor (doSave): the update request
    goes to the decision service, and the editor shows a message, the build
    errors, and reloads the table after a successful save. The service
    reports a failed build as a `status` of "build_failed", while the editor
    looks for a `build_failed` key, so as written every answered save shows
    "Saved successfully"; `SaveCorrected` reads the status instead. */
module Save {
  import opened Base
  import opened Api
  import opened Dmn
  import opened Controller

  /** The JSON object the service answers an update with. */
  function ResponseBody(s: UpdateStatus): (r: map<string, JsValue>)
    ensures "status" in r && r["status"].JsString?
    ensures r["status"] == JsString("build_failed") <==> s.BuildFailed?
    ensures r["status"] == JsString("ok") <==> s.Updated?
    ensures s.BuildFailed? ==> "errors" in r && r["errors"] == JsString(s.errors)
    ensures s.RebuildFailed? ==> "error" in r && r["error"] == JsString(s.error)
    ensures "build_failed" !in r
  {
    match s
    case BuildFailed(errors) => map["status" := JsString("build_failed"), "errors" := JsString(errors)]
    case RebuildFailed(error) => map["status" := JsString("rebuild_failed"), "error" := JsString(error)]
    case Updated(model, decision) =>
      map["status" := JsString("ok"), "model" := JsString(model), "decision" := JsString(decision)]
  }

  /** What the request resolves to: the answered body, or a rejected request
      with the client library's message and the error response's data when
      that is an object. */
  datatype Response = Answered(body: map<string, JsValue>) | Rejected(message: string, data: Option<map<string, JsValue>>)

  /** The request for a service result; a service error becomes a rejection
      whose message and data the HTTP layer supplies. */
  function Respond(r: Result<UpdateStatus>, message: string, data: Option<map<string, JsValue>>): (resp: Response)
    ensures resp.Answered? <==> r.Ok?
    ensures r.Ok? ==> resp.body == ResponseBody(r.value)
  {
    match r
    case Ok(s) => Answered(ResponseBody(s))
    case Error(_) => Rejected(message, data)
  }

  datatype MessageKind = Success | Failure

  datatype Message = Message(kind: MessageKind, text: string)

  /** The build-errors panel after the save: left as it was, cleared, a
      value of the response, or a whole object shown as its JSON text. */
  datatype ErrorsPanel = Unchanged | Cleared | Value(v: JsValue) | WholeObject(body: map<string, JsValue>)

  /** What the editor shows after a save, and whether it reloads the table. */
  datatype SaveView = SaveView(message: Message, panel: ErrorsPanel, reloads: bool)

  const SavedText: string := "Saved successfully"
  const BuildFailedText: string := "Build failed \U{2014} see errors below"
  const SaveFailedText: string := "Save failed"

  /** `obj[key]`, undefined when absent. */
  function Get(body: map<string, JsValue>, key: string): (v: JsValue)
    ensures key !in body ==> v == JsUndefined
  {
    if key in body then body[key] else JsUndefined
  }

  /** `a || b`: the first operand when truthy, else the second. */
  function Or(a: JsValue, b: JsValue): (v: JsValue)
    ensures Truthy(v) <==> Truthy(a) || Truthy(b)
  {
    if Truthy(a) then a else b
  }

  /** The view after a rejected request: the library's message (or the
      fallback) and the error data when it is an object. */
  function RejectedView(message: string, data: Option<map<string, JsValue>>): (v: SaveView)
    ensures v.message.kind == Failure && !v.reloads
    ensures v.message.text == (if message != "" then message else SaveFailedText)
    ensures data.None? <==> v.panel == Unchanged
  {
    SaveView(Message(Failure, if message != "" then message else SaveFailedText),
             if data.Some? then WholeObject(data.value) else Unchanged, false)
  }

  /** doSave as written: an answered request is a failed build only when the
      body has a truthy `build_failed` key. */
  function SaveAsWritten(resp: Response): (v: SaveView)
    ensures resp.Answered? ==>
              (v.message.kind == Failure <==> Truthy(Get(resp.body, "build_failed")))
    ensures resp.Answered? && v.message.kind == Success ==>
              v == SaveView(Message(Success, SavedText), Cleared, true)
    ensures resp.Rejected? ==> v == RejectedView(resp.message, resp.data)
  {
    match resp
    case Answered(body) =>
      if Truthy(Get(body, "build_failed")) then
        var shown := Or(Get(body, "build_errors"), Get(body, "errors"));
        SaveView(Message(Failure, BuildFailedText),
                 if Truthy(shown) then Value(shown) else WholeObject(body), false)
      else SaveView(Message(Success, SavedText), Cleared, true)
    case Rejected(message, data) => RejectedView(message, data)
  }

  /** No answer of the service makes the editor as written report a failure:
      a failed build is shown as saved and the table is reloaded. */
  lemma AnsweredAlwaysSaved(s: UpdateStatus)
    ensures SaveAsWritten(Answered(ResponseBody(s))) == SaveView(Message(Success, SavedText), Cleared, true)
  {
  }

  /** End to end: an update whose rebuild reports errors is answered with a
      failed build, and the editor says "Saved successfully" and hides the
      errors. */
  lemma BuildFailureShownAsSaved(docs: seq<Option<Node>>, modelName: string, decisionName: string,
                                 body: map<string, JsValue>, messages: seq<string>,
                                 message: string, data: Option<map<string, JsValue>>)
    requires BodyXml(body).Some? && exists i :: 0 <= i < |docs| && Updatable(docs[i], modelName, decisionName)
    ensures UpdateDecisionTable(docs, modelName, decisionName, body, true, Built(true, messages)).Ok?
    ensures UpdateDecisionTable(docs, modelName, decisionName, body, true, Built(true, messages)).value.BuildFailed?
    ensures SaveAsWritten(Respond(UpdateDecisionTable(docs, modelName, decisionName, body, true, Built(true, messages)),
                                  message, data)).message == Message(Success, SavedText)
  {
    var r := UpdateDecisionTable(docs, modelName, decisionName, body, true, Built(true, messages));
    AnsweredAlwaysSaved(r.value);
  }

  /** doSave reading the status the service sends: "build_failed" shows the
      build errors, "rebuild_failed" shows the rebuild error, and only "ok"
      counts as saved and reloads the table. */
  function SaveCorrected(resp: Response): (v: SaveView)
    ensures resp.Answered? ==>
              (v.message.kind == Success <==> Get(resp.body, "status") == JsString("ok"))
    ensures resp.Answered? && v.message.kind == Success ==>
              v == SaveView(Message(Success, SavedText), Cleared, true)
    ensures resp.Answered? && Get(resp.body, "status") == JsString("build_failed") ==>
              v.message == Message(Failure, BuildFailedText) && !v.reloads
    ensures resp.Rejected? ==> v == RejectedView(resp.message, resp.data)
  {
    match resp
    case Answered(body) =>
      var status := Get(body, "status");
      if status == JsString("ok") then SaveView(Message(Success, SavedText), Cleared, true)
      else if status == JsString("build_failed") then
        var shown := Get(body, "errors");
        SaveView(Message(Failure, BuildFailedText), if Truthy(shown) then Value(shown) else WholeObject(body), false)
      else
        var shown := Get(body, "error");
        SaveView(Message(Failure, SaveFailedText), if Truthy(shown) then Value(shown) else WholeObject(body), false)
    case Rejected(message, data) => RejectedView(message, data)
  }

  /** With the status read, a save is reported as saved exactly when the
      service updated the table, and a failed build shows the builder's
      messages whenever there are any. */
  lemma CorrectedSaveReportsFailures(r: Result<UpdateStatus>, message: string, data: Option<map<string, JsValue>>)
    ensures var v := SaveCorrected(Respond(r, message, data));
            v.message.kind == Success <==> r.Ok? && r.value.Updated?
    ensures var v := SaveCorrected(Respond(r, message, data));
            r.Ok? && r.value.BuildFailed? && r.value.errors != "" ==>
              v == SaveView(Message(Failure, BuildFailedText), Value(JsString(r.value.errors)), false)
  {
    if r.Ok? {
      var body := ResponseBody(r.value);
      assert Get(body, "status") == body["status"];
    }
  }
}

=== FILE: scenarios.dfy ===
/** Behaviour of the editor on the shapes of the seed decision table: a
    '-' cell is a literal value and not a wildcard, renaming an input column
    to an output name moves its header away from its cells, and the
    "no output column" warning shows only for an empty column list. */
module Scenarios {
  import opened Base
  import opened Columns
  import opened Cells
  import opened TestCases
  import opened Runner
  import opened Editor

  /** Two input columns and then the first output-named column, with
      distinct names, as in the seed table "Authorization Indicator",
      "UM Core Edit", "Result". */
  predicate SeedShape(cols: seq<Column>)
  {
    |cols| == 3 && FindOutput(cols) == Some(2) && DistinctColumnNames(cols)
  }

  lemma SeedShapeFacts(cols: seq<Column>)
    requires SeedShape(cols)
    ensures OutputIsLast(cols)
    ensures InputColumns(cols) == cols[..2]
  {
    EnsureResultLastFixesOutputIsLast(cols);
  }

  /** A blank test case with these inputs and this expected value. */
  function Case(inputs: seq<string>, expected: string): TestCase
  {
    TestCase(inputs, expected, None, None, None, None, None)
  }

  /** On the seed rule ['Y', 'TRUE', r1] first, inputs ['Y', 'TRUE'] with
      expected r1 match that rule and pass. */
  lemma SeedTableMatch(cols: seq<Column>, rows: seq<Row>, r1: string)
    requires SeedShape(cols)
    requires |rows| >= 1 && rows[0] == ["Y", "TRUE", r1] && r1 != ""
    ensures var run := RunCase(cols, rows, Case(["Y", "TRUE"], r1));
            run.matchedRow == Some(0) && run.result == Some(r1) && run.status == Some(Pass)
  {
    SeedShapeFacts(cols);
    assert rows[0][..2] == ["Y", "TRUE"];
    RowMatchesItsOwnInputs(cols, rows, Case(["Y", "TRUE"], r1), 0);
  }

  /** On seed rules whose first cells are 'Y' and '-', a case whose first
      input is 'N' matches no rule: '-' is compared literally and is not a
      wildcard, so the case fails with "No match found" even when it expects
      the '-' rule's result, as the seed's own third test case does. */
  lemma SeedTableDashIsLiteral(cols: seq<Column>, rows: seq<Row>, tc: TestCase)
    requires SeedShape(cols)
    requires |rows| == 2 && |rows[0]| == 3 && |rows[1]| == 3
    requires rows[0][0] == "Y" && rows[1][0] == "-"
    requires |tc.inputs| == 2 && tc.inputs[0] == "N"
    requires tc.expected == rows[1][2] && tc.expected != "" && tc.expected != NoMatch
    ensures RunCase(cols, rows, tc).matchedRow.None?
    ensures RunCase(cols, rows, tc).result == Some(NoMatch)
    ensures RunCase(cols, rows, tc).status == Some(Fail)
  {
    SeedShapeFacts(cols);
    FirstInputMismatch(cols, rows[0], tc.inputs);
    FirstInputMismatch(cols, rows[1], tc.inputs);
    NoRowMatchFails(cols, rows, tc);
  }

  /** A case that no rule matches fails, whatever it expects. */
  lemma NoRowMatchFails(cols: seq<Column>, rows: seq<Row>, tc: TestCase)
    requires |rows| == 2 && !RowMatchesCase(cols, rows[0], tc.inputs) && !RowMatchesCase(cols, rows[1], tc.inputs)
    requires tc.expected != "" && tc.expected != NoMatch
    ensures RunCase(cols, rows, tc).matchedRow.None?
    ensures RunCase(cols, rows, tc).result == Some(NoMatch)
    ensures RunCase(cols, rows, tc).status == Some(Fail)
  {
    assert forall j :: 0 <= j < |rows| ==> !RowMatchesCase(cols, rows[j], tc.inputs) by {
      forall j | 0 <= j < |rows| ensures !RowMatchesCase(cols, rows[j], tc.inputs) {
        assert j == 0 || j == 1;
      }
    }
  }

  /** A row whose first cell differs from the first input matches no case
      with those inputs. */
  lemma FirstInputMismatch(cols: seq<Column>, row: Row, inputs: seq<string>)
    requires DistinctColumnNames(cols) && OutputIsLast(cols) && |cols| >= 2
    requires |row| >= 1 && |inputs| >= 1 && row[0] != inputs[0]
    ensures !RowMatchesCase(cols, row, inputs)
  {
    InputColumnPosition(cols, 0);
  }

  /** A rename rewrites no cell when no column is Boolean-typed: only the
      Boolean columns' cells are normalized, and a rename changes no type. */
  lemma RenameKeepsRows(t: Table, colIdx: int, name: string)
    requires forall j :: 0 <= j < |t.columns| ==> !IsBooleanColumn(t.columns[j])
    ensures UpdateColumn(t, colIdx, NameField, name).rows == t.rows
  {
    var updated := UpdatedColumns(t.columns, colIdx, NameField, name);
    var cols := EnsureResultLast(updated);
    forall j | 0 <= j ensures !IsBooleanAt(cols, j) {
      if j < |cols| {
        assert cols[j] in multiset(updated);
        var i :| 0 <= i < |updated| && updated[i] == cols[j];
        assert updated[i].dataType == t.columns[i].dataType;
      }
    }
    NormalizeTextFixesCanonical(cols, t.rows);
  }

  /** Renaming the first input column to an output name: the renamed header
      moves last and the other two shift left, while every row keeps its
      cells where they were, so each header now stands over the cells of the
      column that used to be to its left. */
  lemma RenameToOutputMisaligns(t: Table, name: string)
    requires SeedShape(t.columns)
    requires forall j :: 0 <= j < 3 ==> !IsBooleanColumn(t.columns[j])
    requires IsOutputName(name)
    ensures var r := UpdateColumn(t, 0, NameField, name);
            |r.columns| == 3 && r.columns[0] == t.columns[1] && r.columns[1] == t.columns[2] &&
            r.columns[2] == t.columns[0].(name := name)
    ensures UpdateColumn(t, 0, NameField, name).rows == t.rows
  {
    RenameFirstToOutput(t.columns, name);
    RenameKeepsRows(t, 0, name);
  }

  lemma RenameFirstToOutput(cols: seq<Column>, name: string)
    requires |cols| == 3 && IsOutputName(name)
    ensures var r := EnsureResultLast(UpdatedColumns(cols, 0, NameField, name));
            |r| == 3 && r[0] == cols[1] && r[1] == cols[2] && r[2] == cols[0].(name := name)
  {
    var u := UpdatedColumns(cols, 0, NameField, name);
    assert u[0] == cols[0].(name := name);
    FindIndexAt(u, IsOutputColumn, 0);
  }

  /** The output column's index as the editor computes it: the last index
      after the output column was moved last, -1 for no columns. */
  function OutputColumnIndex(cols: seq<Column>): (r: int)
    ensures r == -1 <==> |cols| == 0
    ensures |cols| > 0 ==> r == |cols| - 1
    ensures |cols| > 0 && FindOutput(cols).Some? ==> IsOutputColumn(EnsureResultLast(cols)[r])
  {
    |EnsureResultLast(cols)| - 1
  }
}

=== FILE: suggestions.dfy ===
/** Merging an assistant's suggestion into the active model: suggested test
    cases are re-keyed to the current input columns by name and merged
    without duplicates; suggested columns are spliced in before the output
    column and the rows realigned by column name, or padded. */
module Suggestions {
  import opened Base
  import opened Columns
  import opened Cells
  import opened TestCases
  import opened Workspace

  /** A suggested test case, with the column names its inputs follow when
      it names them (`tc.columnNames`). */
  datatype SuggestedCase = SuggestedCase(tc: TestCase, columnNames: Option<seq<string>>)

  /** What a suggestion can carry once parsed: an object with a
      `testCases` key (a single case counts as a batch of one), a bare
      array of test cases, an object with `columns` and/or `rows`, a value
      the handler drops before it looks at the active model (a falsy one,
      or text that does not parse), or a truthy value no branch accepts
      (an empty or invalid array, a number, an object without those keys),
      which still reads the active model's columns first. */
  datatype Suggestion =
    | CaseBatch(cases: seq<SuggestedCase>, columnNames: Option<seq<string>>)
    | CaseList(cases: seq<SuggestedCase>)
    | TableEdit(columns: Option<seq<Column>>, rows: Option<seq<Row>>)
    | Ignored
    | Inert

  /** `columns.slice(0, columns.length - 1).map(col => col.name)`. */
  function CurrentInputNames(cols: seq<Column>): (r: seq<string>)
    ensures |r| == Max(0, |cols| - 1)
    ensures forall i :: 0 <= i < |r| ==> r[i] == cols[i].name
  {
    if |cols| == 0 then []
    else seq(|cols| - 1, i requires 0 <= i < |cols| - 1 => cols[i].name)
  }

  /** The value recorded under a name, or '' when there is none. */
  function RecordedOrEmpty(rec: Recorded): string
  {
    if rec.Value? then rec.s else ""
  }

  /** remapTestCaseInputs: the inputs, keyed by `colNames`, read back in
      the order of `current`; a name with no recorded value gives ''. */
  function RemapInputs(inputs: seq<string>, colNames: seq<string>, current: seq<string>): (r: seq<string>)
    ensures |r| == |current|
    ensures forall i :: 0 <= i < |current| && current[i] !in colNames ==> r[i] == ""
    ensures DistinctNames(colNames) ==>
              forall i, j :: (0 <= i < |current| && 0 <= j < |colNames| && j < |inputs| &&
                              current[i] == colNames[j]) ==> r[i] == inputs[j]
  {
    var r := seq(|current|, i requires 0 <= i < |current| => RecordedOrEmpty(Lookup(colNames, inputs, current[i])));
    assert DistinctNames(colNames) ==>
             forall i, j :: (0 <= i < |current| && 0 <= j < |colNames| && j < |inputs| &&
                             current[i] == colNames[j]) ==> r[i] == inputs[j] by {
      if DistinctNames(colNames) {
        forall i, j | 0 <= i < |current| && 0 <= j < |colNames| && j < |inputs| && current[i] == colNames[j]
          ensures r[i] == inputs[j]
        {
          LookupDistinct(colNames, inputs, j);
        }
      }
    }
    r
  }

  /** Inputs already in the current column order come back unchanged. */
  lemma RemapIdentity(inputs: seq<string>, current: seq<string>)
    requires DistinctNames(current) && |current| <= |inputs|
    ensures RemapInputs(inputs, current, current) == inputs[..|current|]
  {
    var r := RemapInputs(inputs, current, current);
    forall i | 0 <= i < |current| ensures r[i] == inputs[i] {
      assert current[i] == current[i];
    }
  }

  /** The case with its inputs re-keyed: its own column names, else the
      batch's, else the current input columns. */
  function Remapped(sc: SuggestedCase, batchNames: Option<seq<string>>, current: seq<string>): (r: TestCase)
    ensures r.(inputs := sc.tc.inputs) == sc.tc
    ensures |r.inputs| == |current|
  {
    var names := if sc.columnNames.Some? then sc.columnNames.value else batchNames.GetOr(current);
    sc.tc.(inputs := RemapInputs(sc.tc.inputs, names, current))
  }

  function RemapAll(cases: seq<SuggestedCase>, batchNames: Option<seq<string>>, current: seq<string>): (r: seq<TestCase>)
    ensures |r| == |cases| && forall k :: 0 <= k < |cases| ==> r[k] == Remapped(cases[k], batchNames, current)
  {
    seq(|cases|, k requires 0 <= k < |cases| => Remapped(cases[k], batchNames, current))
  }

  /** Two test cases are duplicates when their inputs and expected values
      agree. */
  function CaseKey(tc: TestCase): (seq<string>, string)
  {
    (tc.inputs, tc.expected)
  }

  /** The existing cases followed by the incoming ones, keeping the first
      case of each (inputs, expected) pair. */
  function MergeCases(existing: seq<TestCase>, incoming: seq<TestCase>): (r: seq<TestCase>)
    ensures DistinctKeys(r, CaseKey)
    ensures KeysOf(r, CaseKey) == KeysOf(existing + incoming, CaseKey)
    ensures forall x :: x in r ==> x in existing || x in incoming
  {
    KeepFirstDistinct(existing + incoming, CaseKey);
    KeepFirstKeys(existing + incoming, CaseKey);
    KeepFirstByKey(existing + incoming, CaseKey)
  }

  /** De-duplicating a list whose keys are already distinct keeps it. */
  lemma {:induction false} KeepFirstOfDistinct(s: seq<TestCase>)
    requires DistinctKeys(s, CaseKey)
    ensures KeepFirstByKey(s, CaseKey) == s
    decreases |s|
  {
    if |s| > 0 {
      var n := |s| - 1;
      assert DistinctKeys(s[..n], CaseKey);
      KeepFirstOfDistinct(s[..n]);
      assert FirstOfKey(s, CaseKey, n);
      assert s == s[..n] + [s[n]];
    }
  }

  /** Appending cases whose keys are all known changes nothing. */
  lemma {:induction false} KeepFirstKnown(a: seq<TestCase>, b: seq<TestCase>)
    requires DistinctKeys(a, CaseKey)
    requires forall i :: 0 <= i < |b| ==> CaseKey(b[i]) in KeysOf(a, CaseKey)
    ensures KeepFirstByKey(a + b, CaseKey) == a
    decreases |b|
  {
    if |b| == 0 {
      assert a + b == a;
      KeepFirstOfDistinct(a);
    } else {
      var n := |b| - 1;
      var pre, x := b[..n], b[n];
      assert forall i :: 0 <= i < |pre| ==> pre[i] == b[i];
      assert CaseKey(x) in KeysOf(a, CaseKey);
      KeepFirstKnown(a, pre);
      KeepFirstKnownStep(a, pre, x);
      AppendSplit(a, b);
    }
  }

  lemma KeepFirstKnownStep(a: seq<TestCase>, pre: seq<TestCase>, x: TestCase)
    requires KeepFirstByKey(a + pre, CaseKey) == a
    requires CaseKey(x) in KeysOf(a, CaseKey)
    ensures KeepFirstByKey((a + pre) + [x], CaseKey) == a
  {
    KeepFirstStep(a + pre, x, CaseKey);
    KeysOfPrefix(a, pre);
  }

  lemma KeysOfPrefix(a: seq<TestCase>, b: seq<TestCase>)
    ensures KeysOf(a, CaseKey) <= KeysOf(a + b, CaseKey)
  {
    forall k | k in KeysOf(a, CaseKey) ensures k in KeysOf(a + b, CaseKey) {
      var x :| x in a && CaseKey(x) == k;
      assert x in a + b;
    }
  }

  /** Merging the same incoming cases a second time changes nothing. */
  lemma MergeCasesIdempotent(existing: seq<TestCase>, incoming: seq<TestCase>)
    ensures MergeCases(MergeCases(existing, incoming), incoming) == MergeCases(existing, incoming)
  {
    var m := MergeCases(existing, incoming);
    forall i | 0 <= i < |incoming| ensures CaseKey(incoming[i]) in KeysOf(m, CaseKey) {
      assert incoming[i] in existing + incoming;
    }
    KeepFirstKnown(m, incoming);
  }

  /** Existing cases with distinct keys all survive, in front and in order. */
  lemma MergeCasesKeepsExisting(existing: seq<TestCase>, incoming: seq<TestCase>)
    requires DistinctKeys(existing, CaseKey)
    ensures |existing| <= |MergeCases(existing, incoming)|
    ensures MergeCases(existing, incoming)[..|existing|] == existing
  {
    KeepFirstPrefix(existing, incoming);
    KeepFirstOfDistinct(existing);
  }

  lemma {:induction false} KeepFirstPrefix(a: seq<TestCase>, b: seq<TestCase>)
    ensures |KeepFirstByKey(a, CaseKey)| <= |KeepFirstByKey(a + b, CaseKey)|
    ensures KeepFirstByKey(a + b, CaseKey)[..|KeepFirstByKey(a, CaseKey)|] == KeepFirstByKey(a, CaseKey)
    decreases |b|
  {
    if |b| == 0 {
      assert a + b == a;
    } else {
      var n := |b| - 1;
      KeepFirstPrefix(a, b[..n]);
      AppendSplit(a, b);
      KeepFirstStep(a + b[..n], b[n], CaseKey);
    }
  }

  // ------------------------------------------------------------------ columns

  predicate HasName(cols: seq<Column>, name: string)
  {
    exists c :: c in cols && c.name == name
  }

  /** The suggested columns whose names the table does not have yet. */
  function NewColumns(existing: seq<Column>, suggested: seq<Column>): (r: seq<Column>)
    ensures forall c :: c in r <==> c in suggested && !HasName(existing, c.name)
  {
    Filter(suggested, (c: Column) => !HasName(existing, c.name))
  }

  /** The new columns inserted before the first output-named column, or
      appended when there is none. */
  function SpliceColumns(existing: seq<Column>, newCols: seq<Column>): (r: seq<Column>)
    ensures |r| == |existing| + |newCols|
    ensures multiset(r) == multiset(existing + newCols)
    ensures FindOutput(existing).None? ==> r == existing + newCols
    ensures FindOutput(existing).Some? ==>
              var o := FindOutput(existing).value;
              r[..o] == existing[..o] && r[o..o + |newCols|] == newCols && r[o + |newCols|..] == existing[o..]
  {
    match FindOutput(existing)
    case None => existing + newCols
    case Some(o) =>
      SpliceParts(existing, o, newCols);
      existing[..o] + newCols + existing[o..]
  }

  /** The merged header: spliced, then the first output-named column moved
      last. */
  function MergeColumns(existing: seq<Column>, suggested: seq<Column>): (r: seq<Column>)
    ensures multiset(r) == multiset(existing + NewColumns(existing, suggested))
    ensures forall c :: c in existing ==> c in r
    ensures forall c :: c in suggested ==> HasName(r, c.name)
  {
    var r := EnsureResultLast(SpliceColumns(existing, NewColumns(existing, suggested)));
    MergedMembers(existing, suggested, r);
    r
  }

  lemma MergedMembers(existing: seq<Column>, suggested: seq<Column>, r: seq<Column>)
    requires multiset(r) == multiset(existing + NewColumns(existing, suggested))
    ensures forall c :: c in existing ==> c in r
    ensures forall c :: c in suggested ==> HasName(r, c.name)
  {
    var newCols := NewColumns(existing, suggested);
    forall c | c in existing ensures c in r {
      assert c in existing + newCols;
      assert c in multiset(r);
    }
    forall c | c in suggested ensures HasName(r, c.name) {
      if HasName(existing, c.name) {
        var e :| e in existing && e.name == c.name;
        assert e in existing + newCols;
        assert e in multiset(r);
      } else {
        assert c in newCols;
        assert c in existing + newCols;
        assert c in multiset(r);
      }
    }
  }

  /** A suggestion that brings no new column name leaves a header whose
      output column is already last as it is. */
  lemma MergeColumnsKnown(existing: seq<Column>, suggested: seq<Column>)
    requires OutputIsLast(existing)
    requires forall c :: c in suggested ==> HasName(existing, c.name)
    ensures MergeColumns(existing, suggested) == existing
  {
    var newCols := NewColumns(existing, suggested);
    assert newCols == [];
    assert existing + newCols == existing;
    EnsureResultLastFixesOutputIsLast(existing);
  }

  /** With at most one output-named column among the existing and new
      columns, the merged header ends with it. */
  lemma MergeColumnsOutputLast(existing: seq<Column>, suggested: seq<Column>)
    requires AtMostOneOutput(SpliceColumns(existing, NewColumns(existing, suggested)))
    ensures OutputIsLast(MergeColumns(existing, suggested))
  {
    EnsureResultLastPutsOutputLast(SpliceColumns(existing, NewColumns(existing, suggested)));
  }

  /** A suggested output-named column whose name is new lands before the
      existing output column and is then moved last, so the old output
      column ends up among the inputs (a suggested "Output" next to an
      existing "Result", say). */
  lemma SuggestedOutputDemotes(a: Column, result: Column, output: Column)
    requires !IsOutputColumn(a) && IsOutputColumn(result) && IsOutputColumn(output)
    requires output.name != a.name && output.name != result.name
    ensures MergeColumns([a, result], [output]) == [a, result, output]
  {
    DemoteNewColumns(a, result, output);
    DemoteMerge([a, result], output);
  }

  /** The merge of one new output-named column into an input column and an
      output column. */
  lemma DemoteMerge(e: seq<Column>, output: Column)
    requires |e| == 2 && !IsOutputColumn(e[0]) && IsOutputColumn(e[1]) && IsOutputColumn(output)
    requires NewColumns(e, [output]) == [output]
    ensures MergeColumns(e, [output]) == [e[0], e[1], output]
  {
    OutputAtOne(e);
    DemoteSplice(e, output);
    var m := SpliceColumns(e, [output]);
    OutputAtOne(m);
    DemoteMove(m);
  }

  lemma OutputAtOne(s: seq<Column>)
    requires |s| >= 2 && !IsOutputColumn(s[0]) && IsOutputColumn(s[1])
    ensures FindOutput(s) == Some(1)
  {
    var r := FindOutput(s);
    assert r != None by { assert IsOutputColumn(s[1]); }
    assert r.value != 0 && !(r.value > 1);
  }

  lemma DemoteNewColumns(a: Column, result: Column, output: Column)
    requires output.name != a.name && output.name != result.name
    ensures NewColumns([a, result], [output]) == [output]
  {
    assert !HasName([a, result], output.name);
    var n := NewColumns([a, result], [output]);
    assert output in n;
    assert forall c :: c in n ==> c == output;
    assert |n| <= 1;
  }

  lemma DemoteSplice(e: seq<Column>, output: Column)
    requires |e| == 2 && FindOutput(e) == Some(1)
    ensures SpliceColumns(e, [output]) == [e[0], output, e[1]]
  {
    var r := SpliceColumns(e, [output]);
    assert e[..1] == [e[0]] && e[1..] == [e[1]];
    ThreeParts(r, e[0], output, e[1]);
  }

  lemma DemoteMove(m: seq<Column>)
    requires |m| == 3 && FindOutput(m) == Some(1)
    ensures EnsureResultLast(m) == [m[0], m[2], m[1]]
  {
    var r := EnsureResultLast(m);
    assert r[0] == m[0] && r[1] == m[2] && r[2] == m[1];
  }

  // --------------------------------------------------------------------- rows

  function NamesOf(cols: seq<Column>): (r: seq<string>)
    ensures |r| == |cols| && forall i :: 0 <= i < |cols| ==> r[i] == cols[i].name
  {
    seq(|cols|, i requires 0 <= i < |cols| => cols[i].name)
  }

  /** A suggested row in the merged column order: each cell is read from
      the suggested column of the same name (the last one, when names
      repeat), or '' when the suggestion has no such column. */
  function SuggestedRow(merged: seq<Column>, suggested: seq<Column>, row: Row): (r: Row)
    ensures |r| == |merged|
    ensures forall j :: 0 <= j < |merged| && !HasName(suggested, merged[j].name) ==> r[j] == ""
    ensures DistinctNames(NamesOf(suggested)) ==>
              forall j, i :: (0 <= j < |merged| && 0 <= i < |suggested| && i < |row| &&
                              merged[j].name == suggested[i].name) ==> r[j] == row[i]
  {
    var names := NamesOf(suggested);
    var r := seq(|merged|, j requires 0 <= j < |merged| => RecordedOrEmpty(Lookup(names, row, merged[j].name)));
    assert forall j :: 0 <= j < |merged| && !HasName(suggested, merged[j].name) ==> r[j] == "" by {
      forall j | 0 <= j < |merged| && !HasName(suggested, merged[j].name) ensures r[j] == "" {
        assert merged[j].name !in names;
      }
    }
    assert DistinctNames(names) ==>
             forall j, i :: (0 <= j < |merged| && 0 <= i < |suggested| && i < |row| &&
                             merged[j].name == suggested[i].name) ==> r[j] == row[i] by {
      if DistinctNames(names) {
        forall j, i | 0 <= j < |merged| && 0 <= i < |suggested| && i < |row| && merged[j].name == suggested[i].name
          ensures r[j] == row[i]
        {
          LookupDistinct(names, row, i);
        }
      }
    }
    r
  }

  function SuggestedRows(merged: seq<Column>, suggested: seq<Column>, rows: seq<Row>): (r: seq<Row>)
    ensures |r| == |rows| && forall k :: 0 <= k < |rows| ==> r[k] == SuggestedRow(merged, suggested, rows[k])
  {
    seq(|rows|, k requires 0 <= k < |rows| => SuggestedRow(merged, suggested, rows[k]))
  }

  /** When the merged header is the suggested one, a row at least as wide
      keeps its leading cells in place. */
  lemma SuggestedRowSameHeader(cols: seq<Column>, row: Row)
    requires DistinctNames(NamesOf(cols)) && |cols| <= |row|
    ensures SuggestedRow(cols, cols, row) == row[..|cols|]
  {
    var r := SuggestedRow(cols, cols, row);
    forall j | 0 <= j < |cols| ensures r[j] == row[j] {
      assert cols[j].name == cols[j].name;
    }
  }

  /** An existing row padded with '' up to `width` cells; a wider row is
      kept as it is. */
  function PadRow(row: Row, width: nat): (r: Row)
    ensures |r| == Max(|row|, width)
    ensures r[..|row|] == row
    ensures forall j :: |row| <= j < |r| ==> r[j] == ""
  {
    if width > |row| then row + seq(width - |row|, _ => "") else row
  }

  function PadRows(rows: seq<Row>, width: nat): (r: seq<Row>)
    ensures |r| == |rows| && forall k :: 0 <= k < |rows| ==> r[k] == PadRow(rows[k], width)
  {
    seq(|rows|, k requires 0 <= k < |rows| => PadRow(rows[k], width))
  }

  /** Padding twice to the same width is padding once. */
  lemma PadRowsIdempotent(rows: seq<Row>, width: nat)
    ensures PadRows(PadRows(rows, width), width) == PadRows(rows, width)
  {
  }

  /** Rows no wider than `width` all end up exactly `width` wide. */
  lemma PadRowsFit(rows: seq<Row>, width: nat)
    requires forall k :: 0 <= k < |rows| ==> |rows[k]| <= width
    ensures forall k :: 0 <= k < |rows| ==> |PadRows(rows, width)[k]| == width
  {
  }

  // ------------------------------------------------------------ the handler

  /** Reading `.columns` of the undefined active model. */
  const NoActiveModel: string := "Cannot read properties of undefined (reading 'columns')"

  /** The patch a suggestion that reaches the branches makes to the active
      model `m`. */
  function SuggestionPatch(m: DecisionModel, sug: Suggestion): (p: Patch)
    requires !sug.Ignored?
    ensures p.title.None? && p.diagram.None?
    ensures sug.Inert? ==> p == EmptyPatch
    ensures sug.CaseList? && |sug.cases| == 0 ==> p == EmptyPatch
    ensures sug.TableEdit? && sug.columns.None? ==> p == EmptyPatch
  {
    var current := CurrentInputNames(m.columns);
    match sug
    case Inert => EmptyPatch
    case CaseBatch(cases, names) =>
      Patch(None, None, None, Some(MergeCases(m.testCases, RemapAll(cases, names, current))), None)
    case CaseList(cases) =>
      if |cases| == 0 then EmptyPatch
      else Patch(None, None, None, Some(MergeCases(m.testCases, RemapAll(cases, None, current))), None)
    case TableEdit(cols, rows) =>
      if cols.None? then EmptyPatch
      else
        var merged := MergeColumns(m.columns, cols.value);
        var newRows := if rows.Some? then SuggestedRows(merged, cols.value, rows.value)
                       else PadRows(m.rows, |merged|);
        Patch(None, Some(merged), Some(newRows), None, None)
  }

  /** onSuggestion: a falsy or unparsable suggestion is dropped; any other
      reads the active model, which fails when there is none, and updates it
      through updateModel. A truthy value no branch accepts changes nothing. */
  function ApplySuggestion(s: State, sug: Suggestion): (r: Result<State>)
    ensures sug.Ignored? ==> r == Ok(s)
    ensures r.Error? <==> !sug.Ignored? && ActiveModel(s).None?
    ensures r.Error? ==> r.message == NoActiveModel
    ensures r.Ok? && !sug.Ignored? ==>
              r.value == UpdateModel(s, s.active, SuggestionPatch(ActiveModel(s).value, sug))
    ensures r.Ok? && sug.Inert? ==> r.value == s
  {
    if sug.Ignored? then Ok(s)
    else match ActiveModel(s)
      case None => Error(NoActiveModel)
      case Some(m) =>
        EmptyPatchChangesNothing(s, s.active);
        Ok(UpdateModel(s, s.active, SuggestionPatch(m, sug)))
  }

  /** An update with nothing in it leaves every model as it was. */
  lemma EmptyPatchChangesNothing(s: State, idx: int)
    ensures UpdateModel(s, idx, EmptyPatch) == s
  {
    var r := UpdateModel(s, idx, EmptyPatch);
    assert r.models == s.models;
  }

  /** Applying the same batch of suggested test cases twice leaves the
      active model as applying it once. */
  lemma ApplyCasesTwice(s: State, cases: seq<SuggestedCase>, names: Option<seq<string>>)
    requires DistinctIds(ModelsForRepo(s)) && ActiveModel(s).Some?
    ensures var once := ApplySuggestion(s, CaseBatch(cases, names));
            once.Ok? && ApplySuggestion(once.value, CaseBatch(cases, names)).Ok? &&
            ActiveModel(ApplySuggestion(once.value, CaseBatch(cases, names)).value) == ActiveModel(once.value)
  {
    var m := ActiveModel(s).value;
    var sug := CaseBatch(cases, names);
    var p := SuggestionPatch(m, sug);
    var once := UpdateModel(s, s.active, p);
    UpdateModelReadBack(s, s.active, p);
    var m1 := Merge(m, p);
    assert ActiveModel(once) == Some(m1);
    var current := CurrentInputNames(m.columns);
    var incoming := RemapAll(cases, names, current);
    assert m1.columns == m.columns;
    MergeCasesIdempotent(m.testCases, incoming);
    var p2 := SuggestionPatch(m1, sug);
    assert Merge(m1, p2) == m1;
    UpdateModelKeepsDistinct(s, s.active, p);
    UpdateModelReadBack(once, once.active, p2);
  }

  /** An update keeps the repository's ids distinct. */
  lemma UpdateModelKeepsDistinct(s: State, idx: nat, p: Patch)
    requires DistinctIds(ModelsForRepo(s)) && idx < |ModelsForRepo(s)|
    ensures DistinctIds(ModelsForRepo(UpdateModel(s, idx, p)))
  {
    UpdateModelReadBack(s, idx, p);
  }

  /** A suggested header without rows keeps the table rectangular: every
      row of a well-shaped table is padded to the merged width. */
  lemma ApplyColumnsPadsRows(s: State, cols: seq<Column>)
    requires DistinctIds(ModelsForRepo(s)) && ActiveModel(s).Some?
    requires forall k :: 0 <= k < |ActiveModel(s).value.rows| ==>
               |ActiveModel(s).value.rows[k]| == |ActiveModel(s).value.columns|
    ensures var r := ApplySuggestion(s, TableEdit(Some(cols), None));
            r.Ok? && ActiveModel(r.value).Some? &&
            var m := ActiveModel(r.value).value;
            |m.rows| == |ActiveModel(s).value.rows| &&
            forall k :: 0 <= k < |m.rows| ==> |m.rows[k]| == |m.columns|
  {
    var m := ActiveModel(s).value;
    var p := SuggestionPatch(m, TableEdit(Some(cols), None));
    UpdateModelReadBack(s, s.active, p);
    var merged := MergeColumns(m.columns, cols);
    assert |merged| >= |m.columns| by {
      assert |multiset(merged)| == |multiset(m.columns + NewColumns(m.columns, cols))|;
    }
    PadRowsFit(m.rows, |merged|);
  }
}

=== FILE: testcases.dfy ===
/** Test cases of a decision table and the name-keyed view of their inputs
    that realignment and suggestion merging build (`inputMap`). */
module TestCases {
  import opened Base

  datatype Verdict = Pass | Fail

  /** One test case. `result`, `status`, `sourceRowIndex`, `matchedRow` and
      `description` are null or absent until something fills them. */
  datatype TestCase = TestCase(
    inputs: seq<string>,
    expected: string,
    result: Option<string>,
    status: Option<Verdict>,
    sourceRowIndex: Option<nat>,
    matchedRow: Option<nat>,
    description: Option<string>)

  /** What `inputMap[name]` holds once the inputs were keyed by column name:
      no entry, an entry whose input was missing (`undefined`), or a value. */
  datatype Recorded = Absent | Undefined | Value(s: string)

  /** `i` is the last position at which `key` occurs in `names`. */
  predicate IsLastIndex(names: seq<string>, key: string, i: nat)
  {
    i < |names| && names[i] == key && forall j :: i < j < |names| ==> names[j] != key
  }

  /** `names.forEach((name, idx) => { inputMap[name] = inputs[idx]; })`,
      then a lookup: a later duplicate name overwrites an earlier one. */
  function Lookup(names: seq<string>, inputs: seq<string>, key: string): (r: Recorded)
    ensures r.Absent? <==> key !in names
    ensures r.Value? ==> exists i: nat :: IsLastIndex(names, key, i) && i < |inputs| && inputs[i] == r.s
    ensures r.Undefined? ==> exists i: nat :: IsLastIndex(names, key, i) && |inputs| <= i
  {
    match FindLastIndex(names, n => n == key)
    case None => Absent
    case Some(i) =>
      assert IsLastIndex(names, key, i);
      if i < |inputs| then Value(inputs[i]) else Undefined
  }

  /** No name occurs twice. */
  predicate DistinctNames(names: seq<string>)
  {
    forall i, j :: 0 <= i < j < |names| ==> names[i] != names[j]
  }

  /** With distinct names, the entry for `names[i]` is the `i`-th input. */
  lemma LookupDistinct(names: seq<string>, inputs: seq<string>, i: nat)
    requires DistinctNames(names) && i < |names|
    ensures i < |inputs| ==> Lookup(names, inputs, names[i]) == Value(inputs[i])
    ensures |inputs| <= i ==> Lookup(names, inputs, names[i]) == Undefined
  {
    var r := Lookup(names, inputs, names[i]);
    assert names[i] in names;
    if r.Value? {
      var i': nat :| IsLastIndex(names, names[i], i') && i' < |inputs| && inputs[i'] == r.s;
      assert i' == i;
    } else if r.Undefined? {
      var i': nat :| IsLastIndex(names, names[i], i') && |inputs| <= i';
      assert i' == i;
    }
  }
}

=== FILE: text.dfy ===
/** String operations of JavaScript and Java that the source relies on.
    Case mapping covers ASCII letters only; trimming follows each language's
    own definition of whitespace. */
module Text {
  import opened Base

  function LowerChar(c: char): char
  {
    if 'A' <= c <= 'Z' then (c as int + 32) as char else c
  }

  function UpperChar(c: char): char
  {
    if 'a' <= c <= 'z' then (c as int - 32) as char else c
  }

  /** String.prototype.toLowerCase (ASCII letters). */
  function ToLower(s: string): (r: string)
    ensures |r| == |s|
    ensures forall i :: 0 <= i < |s| ==> r[i] == LowerChar(s[i])
  {
    seq(|s|, i requires 0 <= i < |s| => LowerChar(s[i]))
  }

  /** String.prototype.toUpperCase (ASCII letters). */
  function ToUpper(s: string): (r: string)
    ensures |r| == |s|
    ensures forall i :: 0 <= i < |s| ==> r[i] == UpperChar(s[i])
  {
    seq(|s|, i requires 0 <= i < |s| => UpperChar(s[i]))
  }

  lemma ToUpperIdempotent(s: string)
    ensures ToUpper(ToUpper(s)) == ToUpper(s)
  {
  }

  /** Java's String.equalsIgnoreCase (ASCII letters). */
  predicate EqualsIgnoreCase(a: string, b: string)
  {
    ToLower(a) == ToLower(b)
  }

  /** The characters String.prototype.trim removes: WhiteSpace and LineTerminator. */
  predicate IsJsSpace(c: char)
  {
    c == ' ' || c == '\t' || c == '\n' || c == '\r' || c == '\U{B}' || c == '\U{C}' ||
    c == '\U{A0}' || c == '\U{1680}' || ('\U{2000}' <= c <= '\U{200A}') ||
    c == '\U{2028}' || c == '\U{2029}' || c == '\U{202F}' || c == '\U{205F}' ||
    c == '\U{3000}' || c == '\U{FEFF}'
  }

  /** The characters Java's String.trim removes: every code point up to U+0020. */
  predicate IsJavaSpace(c: char)
  {
    c <= ' '
  }

  /** Removes the longest prefix of characters satisfying `ws`. */
  function TrimStart(s: string, ws: char -> bool): (r: string)
    ensures |r| <= |s| && r == s[|s| - |r|..]
    ensures forall i :: 0 <= i < |s| - |r| ==> ws(s[i])
    ensures |r| > 0 ==> !ws(r[0])
    decreases |s|
  {
    if |s| > 0 && ws(s[0]) then TrimStart(s[1..], ws) else s
  }

  /** Removes the longest suffix of characters satisfying `ws`. */
  function TrimEnd(s: string, ws: char -> bool): (r: string)
    ensures |r| <= |s| && r == s[..|r|]
    ensures forall i :: |r| <= i < |s| ==> ws(s[i])
    ensures |r| > 0 ==> !ws(r[|r| - 1])
    decreases |s|
  {
    if |s| > 0 && ws(s[|s| - 1]) then TrimEnd(s[..|s| - 1], ws) else s
  }

  function Trim(s: string, ws: char -> bool): (r: string)
    ensures |r| <= |s|
    ensures |r| > 0 ==> !ws(r[0]) && !ws(r[|r| - 1])
  {
    TrimEnd(TrimStart(s, ws), ws)
  }

  /** String.prototype.trim. */
  function JsTrim(s: string): (r: string)
    ensures |r| <= |s|
  {
    Trim(s, IsJsSpace)
  }

  /** Java's String.trim. */
  function JavaTrim(s: string): (r: string)
    ensures |r| <= |s|
  {
    Trim(s, IsJavaSpace)
  }

  /** A string whose ends are not whitespace is its own trim. */
  lemma TrimOfTrimmed(s: string, ws: char -> bool)
    requires |s| > 0 ==> !ws(s[0]) && !ws(s[|s| - 1])
    ensures Trim(s, ws) == s
  {
  }

  lemma TrimIdempotent(s: string, ws: char -> bool)
    ensures Trim(Trim(s, ws), ws) == Trim(s, ws)
  {
    TrimOfTrimmed(Trim(s, ws), ws);
  }

  predicate StartsWith(s: string, prefix: string)
  {
    |prefix| <= |s| && s[..|prefix|] == prefix
  }

  /** String.prototype.indexOf / Java's String.indexOf: the least position at
      which `sub` occurs in `s`. */
  function IndexOf(s: string, sub: string): (r: Option<nat>)
    ensures r.Some? ==> r.value + |sub| <= |s| && StartsWith(s[r.value..], sub)
    ensures r.Some? ==> forall j :: 0 <= j < r.value ==> !StartsWith(s[j..], sub)
    ensures r.None? ==> forall j :: 0 <= j <= |s| ==> !StartsWith(s[j..], sub)
  {
    IndexOfFrom(s, sub, 0)
  }

  function IndexOfFrom(s: string, sub: string, i: nat): (r: Option<nat>)
    requires i <= |s|
    ensures r.Some? ==> i <= r.value && r.value + |sub| <= |s| && StartsWith(s[r.value..], sub)
    ensures r.Some? ==> forall j :: i <= j < r.value ==> !StartsWith(s[j..], sub)
    ensures r.None? ==> forall j :: i <= j <= |s| ==> !StartsWith(s[j..], sub)
    decreases |s| - i
  {
    if StartsWith(s[i..], sub) then Some(i)
    else if i == |s| then None
    else IndexOfFrom(s, sub, i + 1)
  }

  /** The first occurrence at or after `i` is at `k`. */
  lemma {:induction false} IndexOfFromAt(s: string, sub: string, i: nat, k: nat)
    requires i <= k <= |s| && StartsWith(s[k..], sub)
    requires forall j :: i <= j < k ==> !StartsWith(s[j..], sub)
    ensures IndexOfFrom(s, sub, i) == Some(k)
    decreases k - i
  {
    if i < k {
      IndexOfFromAt(s, sub, i + 1, k);
    }
  }

  lemma IndexOfFirstAt(s: string, sub: string, k: nat)
    requires k <= |s| && StartsWith(s[k..], sub)
    requires forall j :: 0 <= j < k ==> !StartsWith(s[j..], sub)
    ensures IndexOf(s, sub) == Some(k)
  {
    IndexOfFromAt(s, sub, 0, k);
  }

  /** String.prototype.includes / Java's String.contains. */
  predicate Contains(s: string, sub: string)
  {
    IndexOf(s, sub).Some?
  }

  /** `xs.join(sep)` for a one-character separator. */
  function Join(xs: seq<string>, sep: char): string
    decreases |xs|
  {
    if |xs| == 0 then ""
    else if |xs| == 1 then xs[0]
    else xs[0] + [sep] + Join(xs[1..], sep)
  }

  /** The position of the first occurrence of character `c`. */
  function IndexOfChar(s: string, c: char): (r: Option<nat>)
    ensures r.Some? ==> r.value < |s| && s[r.value] == c && c !in s[..r.value]
    ensures r.None? ==> c !in s
  {
    FindIndex(s, x => x == c)
  }

  /** `s.split(sep)` for a one-character separator: the pieces between
      separators, never an empty list. */
  function Split(s: string, sep: char): (r: seq<string>)
    ensures |r| >= 1
    ensures forall piece :: piece in r ==> sep !in piece
    ensures Join(r, sep) == s
    decreases |s|
  {
    match IndexOfChar(s, sep)
    case None => [s]
    case Some(i) =>
      assert s == s[..i] + [sep] + s[i + 1..];
      [s[..i]] + Split(s[i + 1..], sep)
  }

  /** The first separator of `a + [sep] + rest` is the one after `a`. */
  lemma SplitFirstPiece(a: string, sep: char, rest: string)
    requires sep !in a
    ensures IndexOfChar(a + [sep] + rest, sep) == Some(|a|)
    ensures (a + [sep] + rest)[..|a|] == a && (a + [sep] + rest)[|a| + 1..] == rest
  {
    var s := a + [sep] + rest;
    assert s[|a|] == sep;
    assert s[..|a|] == a;
  }

  /** Splitting a join gives back the pieces when none contains the separator. */
  lemma {:induction false} SplitJoin(xs: seq<string>, sep: char)
    requires |xs| >= 1
    requires forall x :: x in xs ==> sep !in x
    ensures Split(Join(xs, sep), sep) == xs
    decreases |xs|
  {
    assert xs[0] in xs;
    if |xs| > 1 {
      var rest := Join(xs[1..], sep);
      SplitFirstPiece(xs[0], sep, rest);
      SplitJoin(xs[1..], sep);
      assert xs == [xs[0]] + xs[1..];
    }
  }

  function DigitChar(d: nat): char
    requires d < 10
  {
    "0123456789"[d]
  }

  /** Decimal rendering of a natural number, as a template literal prints it. */
  function NatToString(n: nat): (r: string)
    ensures |r| >= 1
    ensures forall i :: 0 <= i < |r| ==> '0' <= r[i] <= '9'
    ensures n > 0 ==> r[0] != '0'
    ensures |r| == 1 <==> n < 10
    decreases n
  {
    if n < 10 then [DigitChar(n)] else NatToString(n / 10) + [DigitChar(n % 10)]
  }

  /** Different numbers are printed differently. */
  lemma {:induction false} NatToStringInjective(n: nat, m: nat)
    requires NatToString(n) == NatToString(m)
    ensures n == m
    decreases n
  {
    var a, b := NatToString(n), NatToString(m);
    assert n < 10 <==> m < 10;
    if n < 10 {
      DigitCharInjective(n, m);
    } else {
      var pa, pb := NatToString(n / 10), NatToString(m / 10);
      assert a == pa + [DigitChar(n % 10)] && b == pb + [DigitChar(m % 10)];
      assert pa == a[..|a| - 1] == b[..|b| - 1] == pb;
      DigitCharInjective(n % 10, m % 10);
      NatToStringInjective(n / 10, m / 10);
      assert n == n / 10 * 10 + n % 10 && m == m / 10 * 10 + m % 10;
    }
  }

  lemma DigitCharInjective(d: nat, e: nat)
    requires d < 10 && e < 10 && DigitChar(d) == DigitChar(e)
    ensures d == e
  {
    forall i | 0 <= i < 10 ensures "0123456789"[i] as int == '0' as int + i {
    }
    assert DigitChar(d) as int == '0' as int + d;
  }
}

=== FILE: workspace.dfy ===
/** The workspace around the editors: decision models grouped by
    repository, the active model of the selected repository, and the list
    operations on them (logChange, addModel, destroyModel, updateModel, the
    effect that keeps the active index in range, and adding a repository). */
module Workspace {
  import opened Base
  import opened Text
  import opened Columns
  import opened Cells
  import opened TestCases
  import opened Graph

  /** One entry of a model's change history. */
  datatype Change = Change(title: string, timestamp: string)

  /** A decision model: a decision table (columns, rows, test cases), an
      optional DMN diagram, and its change history, newest first. */
  datatype DecisionModel = DecisionModel(
    id: int,
    title: string,
    repo: string,
    columns: seq<Column>,
    rows: seq<Row>,
    testCases: seq<TestCase>,
    changeLog: seq<Change>,
    diagram: Option<Diagram>)

  /** The models of every repository, the selected repository and the
      index of the active model among that repository's models. */
  datatype State = State(models: seq<DecisionModel>, selectedRepo: string, active: nat)

  /** `models.filter(m => m.repo === repo)`. */
  function ForRepo(ms: seq<DecisionModel>, repo: string): (r: seq<DecisionModel>)
    ensures |r| <= |ms|
    decreases |ms|
  {
    if |ms| == 0 then []
    else
      var n := |ms| - 1;
      ForRepo(ms[..n], repo) + (if ms[n].repo == repo then [ms[n]] else [])
  }

  /** The repository's models are the models whose repo it is. */
  lemma {:induction false} ForRepoMembers(ms: seq<DecisionModel>, repo: string)
    ensures forall m :: m in ForRepo(ms, repo) <==> m in ms && m.repo == repo
    decreases |ms|
  {
    if |ms| > 0 {
      var n := |ms| - 1;
      ForRepoMembers(ms[..n], repo);
      assert ms == ms[..n] + [ms[n]];
    }
  }

  lemma ForRepoAppend(ms: seq<DecisionModel>, m: DecisionModel, repo: string)
    ensures ForRepo(ms + [m], repo) == ForRepo(ms, repo) + (if m.repo == repo then [m] else [])
  {
    assert (ms + [m])[..|ms|] == ms;
  }

  /** `modelsForRepo`. */
  function ModelsForRepo(s: State): seq<DecisionModel>
  {
    ForRepo(s.models, s.selectedRepo)
  }

  /** `modelsForRepo[activeModelIdx]`, undefined when out of range. */
  function ActiveModel(s: State): (r: Option<DecisionModel>)
    ensures r.Some? <==> s.active < |ModelsForRepo(s)|
    ensures r.Some? ==> r.value in s.models && r.value.repo == s.selectedRepo
  {
    var fr := ModelsForRepo(s);
    if s.active < |fr| then
      ForRepoMembers(s.models, s.selectedRepo);
      assert fr[s.active] in fr;
      Some(fr[s.active])
    else None
  }

  /** No two models in `ms` share an id. */
  predicate DistinctIds(ms: seq<DecisionModel>)
  {
    forall i, j :: 0 <= i < j < |ms| ==> ms[i].id != ms[j].id
  }

  /** The active index points at a model whenever the repository has one. */
  predicate ActiveInRange(s: State)
  {
    |ModelsForRepo(s)| == 0 || s.active < |ModelsForRepo(s)|
  }

  /** The effect run when the repository or the number of models changes:
      the active index falls back to 0 when it points past the end. */
  function ResetActive(s: State): (r: State)
    ensures r.models == s.models && r.selectedRepo == s.selectedRepo
    ensures ActiveInRange(r)
    ensures ActiveInRange(s) && |ModelsForRepo(s)| > 0 ==> r == s
    ensures |ModelsForRepo(s)| == 0 ==> r.active == 0
  {
    var n := |ModelsForRepo(s)|;
    if n == 0 || s.active >= n then s.(active := 0) else s
  }

  /** `models.map(f)`, for the edits that rewrite some models in place. */
  function MapModels(ms: seq<DecisionModel>, f: DecisionModel -> DecisionModel): (r: seq<DecisionModel>)
    ensures |r| == |ms| && forall i :: 0 <= i < |ms| ==> r[i] == f(ms[i])
    decreases |ms|
  {
    if |ms| == 0 then [] else MapModels(ms[..|ms| - 1], f) + [f(ms[|ms| - 1])]
  }

  /** A rewrite that keeps each model in its repository commutes with
      selecting a repository's models. */
  lemma {:induction false} ForRepoMap(ms: seq<DecisionModel>, f: DecisionModel -> DecisionModel, repo: string)
    requires forall m :: f(m).repo == m.repo
    ensures ForRepo(MapModels(ms, f), repo) == MapModels(ForRepo(ms, repo), f)
    decreases |ms|
  {
    if |ms| > 0 {
      var n := |ms| - 1;
      var mapped := MapModels(ms, f);
      assert mapped[..n] == MapModels(ms[..n], f);
      ForRepoMap(ms[..n], f, repo);
      var pre := ForRepo(ms[..n], repo);
      if ms[n].repo == repo {
        assert MapModels(pre + [ms[n]], f)[..|pre|] == MapModels(pre, f);
      }
    }
  }

  // ---------------------------------------------------------------- logChange

  /** Whether logChange writes to `m`: a model of the selected repository,
      and either a broadcast or the active model's id. */
  predicate LogsTo(s: State, broadcast: bool, m: DecisionModel)
  {
    m.repo == s.selectedRepo &&
    (broadcast || (ActiveModel(s).Some? && m.id == ActiveModel(s).value.id))
  }

  function Logger(s: State, change: Change, broadcast: bool): DecisionModel -> DecisionModel
  {
    (m: DecisionModel) =>
      if LogsTo(s, broadcast, m) then m.(changeLog := [change] + m.changeLog) else m
  }

  /** logChange: the change is put in front of the history of every model
      it is meant for; nothing else changes. */
  function LogChange(s: State, change: Change, broadcast: bool): (r: State)
    ensures r.selectedRepo == s.selectedRepo && r.active == s.active
    ensures |r.models| == |s.models|
    ensures forall i :: 0 <= i < |s.models| ==>
              r.models[i].(changeLog := s.models[i].changeLog) == s.models[i]
    ensures forall i :: 0 <= i < |s.models| && LogsTo(s, broadcast, s.models[i]) ==>
              r.models[i].changeLog == [change] + s.models[i].changeLog
    ensures forall i :: 0 <= i < |s.models| && !LogsTo(s, broadcast, s.models[i]) ==>
              r.models[i] == s.models[i]
  {
    State(MapModels(s.models, Logger(s, change, broadcast)), s.selectedRepo, s.active)
  }

  /** Without broadcast and with distinct ids in the repository, exactly the
      active model gains the entry: the repository's models are the same
      list with only the active one's history extended. */
  lemma LogChangeActiveOnly(s: State, change: Change)
    requires DistinctIds(ModelsForRepo(s)) && ActiveModel(s).Some?
    ensures |ModelsForRepo(LogChange(s, change, false))| == |ModelsForRepo(s)|
    ensures ModelsForRepo(LogChange(s, change, false))[s.active] ==
            ActiveModel(s).value.(changeLog := [change] + ActiveModel(s).value.changeLog)
    ensures forall k :: 0 <= k < |ModelsForRepo(s)| && k != s.active ==>
              ModelsForRepo(LogChange(s, change, false))[k] == ModelsForRepo(s)[k]
  {
    var f := Logger(s, change, false);
    ForRepoMap(s.models, f, s.selectedRepo);
    var fr := ModelsForRepo(s);
    forall k | 0 <= k < |fr| && k != s.active
      ensures f(fr[k]) == fr[k]
    {
      assert fr[k].id != fr[s.active].id;
    }
  }

  /** A broadcast reaches every model of the selected repository and no
      model of another. */
  lemma LogChangeBroadcast(s: State, change: Change)
    ensures forall m :: m in ModelsForRepo(s) ==>
              m.(changeLog := [change] + m.changeLog) in ModelsForRepo(LogChange(s, change, true))
    ensures |ModelsForRepo(LogChange(s, change, true))| == |ModelsForRepo(s)|
    ensures forall i :: 0 <= i < |s.models| && s.models[i].repo != s.selectedRepo ==>
              LogChange(s, change, true).models[i] == s.models[i]
  {
    var f := Logger(s, change, true);
    ForRepoMap(s.models, f, s.selectedRepo);
    var fr := ModelsForRepo(s);
    ForRepoMembers(s.models, s.selectedRepo);
    forall m | m in fr
      ensures m.(changeLog := [change] + m.changeLog) in ModelsForRepo(LogChange(s, change, true))
    {
      var k :| 0 <= k < |fr| && fr[k] == m;
      assert MapModels(fr, f)[k] == f(m);
    }
  }

  // ----------------------------------------------------------------- addModel

  /** The model addModel creates: "Condition 1" and "Result" columns, one
      empty row, no test cases and no history. `now` stands for Date.now(). */
  function NewModel(now: int, repo: string): DecisionModel
  {
    DecisionModel(now, "New Decision Table", repo,
                  [Column("Condition 1", "String", "Equals"), Column("Result", "String", "Equals")],
                  [["", ""]], [], [], None)
  }

  /** addModel: the new model is appended and becomes the active one. */
  function AddModel(s: State, now: int): (r: State)
    ensures r.selectedRepo == s.selectedRepo
    ensures |r.models| == |s.models| + 1 && r.models[..|s.models|] == s.models
    ensures ModelsForRepo(r) == ModelsForRepo(s) + [NewModel(now, s.selectedRepo)]
    ensures ActiveModel(r) == Some(NewModel(now, s.selectedRepo))
  {
    var r := State(s.models + [NewModel(now, s.selectedRepo)], s.selectedRepo, |ModelsForRepo(s)|);
    assert r.models[..|s.models|] == s.models;
    ForRepoAppend(s.models, NewModel(now, s.selectedRepo), s.selectedRepo);
    r
  }

  /** A fresh timestamp keeps the repository's ids distinct, and the effect
      that follows leaves the new active index alone. */
  lemma AddModelKeepsInvariants(s: State, now: int)
    requires DistinctIds(ModelsForRepo(s))
    requires forall m :: m in s.models ==> m.id != now
    ensures DistinctIds(ModelsForRepo(AddModel(s, now)))
    ensures ResetActive(AddModel(s, now)) == AddModel(s, now)
  {
    var fr := ModelsForRepo(s);
    var fr' := ModelsForRepo(AddModel(s, now));
    forall i, j | 0 <= i < j < |fr'| ensures fr'[i].id != fr'[j].id {
      if j == |fr| {
        ForRepoMembers(s.models, s.selectedRepo);
        assert fr'[i] == fr[i] && fr[i] in fr;
      }
    }
  }

  // ------------------------------------------------------------- destroyModel

  /** `models.filter(m => m.id !== id)`. */
  function Without(ms: seq<DecisionModel>, id: int): (r: seq<DecisionModel>)
    ensures |r| <= |ms|
    decreases |ms|
  {
    if |ms| == 0 then []
    else
      var n := |ms| - 1;
      Without(ms[..n], id) + (if ms[n].id != id then [ms[n]] else [])
  }

  /** What stays is every model with another id. */
  lemma {:induction false} WithoutMembers(ms: seq<DecisionModel>, id: int)
    ensures forall m :: m in Without(ms, id) <==> m in ms && m.id != id
    decreases |ms|
  {
    if |ms| > 0 {
      var n := |ms| - 1;
      WithoutMembers(ms[..n], id);
      assert ms == ms[..n] + [ms[n]];
    }
  }

  lemma WithoutAppend(ms: seq<DecisionModel>, m: DecisionModel, id: int)
    ensures Without(ms + [m], id) == Without(ms, id) + (if m.id != id then [m] else [])
  {
    assert (ms + [m])[..|ms|] == ms;
  }

  lemma {:induction false} ForRepoWithout(ms: seq<DecisionModel>, id: int, repo: string)
    ensures ForRepo(Without(ms, id), repo) == Without(ForRepo(ms, repo), id)
    decreases |ms|
  {
    if |ms| > 0 {
      var n := |ms| - 1;
      assert ms == ms[..n] + [ms[n]];
      ForRepoWithout(ms[..n], id, repo);
      ForRepoWithoutStep(ms[..n], ms[n], id, repo);
    }
  }

  lemma ForRepoWithoutStep(pre: seq<DecisionModel>, x: DecisionModel, id: int, repo: string)
    requires ForRepo(Without(pre, id), repo) == Without(ForRepo(pre, repo), id)
    ensures ForRepo(Without(pre + [x], id), repo) == Without(ForRepo(pre + [x], repo), id)
  {
    var w := Without(pre, id);
    var fr := ForRepo(pre, repo);
    WithoutAppend(pre, x, id);
    ForRepoAppend(pre, x, repo);
    if x.id != id {
      ForRepoAppend(w, x, repo);
    }
    if x.repo == repo {
      WithoutAppend(fr, x, id);
    }
    if x.id == id {
      assert Without(pre + [x], id) == w;
    }
    if x.repo != repo {
      assert ForRepo(pre + [x], repo) == fr;
    } else if x.id == id {
      assert Without(fr + [x], id) == Without(fr, id);
    }
  }

  /** With distinct ids, removing the id of `t[k]` removes exactly index `k`. */
  lemma {:induction false} WithoutUnique(t: seq<DecisionModel>, k: nat)
    requires DistinctIds(t) && k < |t|
    ensures Without(t, t[k].id) == RemoveAt(t, k)
    decreases |t|
  {
    var n := |t| - 1;
    var pre := t[..n];
    assert t == pre + [t[n]];
    if k == n {
      WithoutAbsent(pre, t[k].id);
    } else {
      WithoutUnique(pre, k);
      assert t[k] == pre[k];
      assert RemoveAt(t, k) == RemoveAt(pre, k) + [t[n]];
    }
  }

  lemma {:induction false} WithoutAbsent(ms: seq<DecisionModel>, id: int)
    requires forall i :: 0 <= i < |ms| ==> ms[i].id != id
    ensures Without(ms, id) == ms
    decreases |ms|
  {
    if |ms| > 0 {
      var n := |ms| - 1;
      WithoutAbsent(ms[..n], id);
      assert ms == ms[..n] + [ms[n]];
    }
  }

  /** Reading `.id` of the undefined `modelsForRepo[activeModelIdx]`. */
  const UndefinedModel: string := "Cannot read properties of undefined (reading 'id')"

  /** destroyModel: refuses when the repository has at most one model;
      otherwise removes every model with the active model's id and steps
      the active index back by one (not below 0). */
  function DestroyModel(s: State): (r: Result<State>)
    ensures |ModelsForRepo(s)| <= 1 ==> r == Ok(s)
    ensures r.Error? <==> |ModelsForRepo(s)| > 1 && s.active >= |ModelsForRepo(s)|
    ensures r.Ok? && |ModelsForRepo(s)| > 1 ==>
              r.value.selectedRepo == s.selectedRepo && r.value.active == Max(0, s.active - 1) &&
              forall m :: m in r.value.models <==> m in s.models && m.id != ActiveModel(s).value.id
  {
    var fr := ModelsForRepo(s);
    if |fr| <= 1 then Ok(s)
    else if s.active >= |fr| then Error(UndefinedModel)
    else
      WithoutMembers(s.models, fr[s.active].id);
      Ok(State(Without(s.models, fr[s.active].id), s.selectedRepo, Max(0, s.active - 1)))
  }

  /** With distinct ids, destroyModel removes exactly the active model from
      its repository's list, never empties it and keeps the active index in
      range. */
  lemma DestroyModelRemovesActive(s: State)
    requires DistinctIds(ModelsForRepo(s))
    requires |ModelsForRepo(s)| > 1 && DestroyModel(s).Ok?
    ensures ModelsForRepo(DestroyModel(s).value) == RemoveAt(ModelsForRepo(s), s.active)
    ensures |ModelsForRepo(DestroyModel(s).value)| >= 1
    ensures ActiveInRange(DestroyModel(s).value)
  {
    var fr := ModelsForRepo(s);
    ForRepoWithout(s.models, fr[s.active].id, s.selectedRepo);
    WithoutUnique(fr, s.active);
  }

  // -------------------------------------------------------------- updateModel

  /** The fields an update carries (`{ ...m, ...updated }`); absent fields
      keep the model's values. */
  datatype Patch = Patch(
    title: Option<string>,
    columns: Option<seq<Column>>,
    rows: Option<seq<Row>>,
    testCases: Option<seq<TestCase>>,
    diagram: Option<Diagram>)

  const EmptyPatch: Patch := Patch(None, None, None, None, None)

  function Merge(m: DecisionModel, p: Patch): (r: DecisionModel)
    ensures r.id == m.id && r.repo == m.repo && r.changeLog == m.changeLog
    ensures p == EmptyPatch ==> r == m
  {
    m.(title := p.title.GetOr(m.title),
       columns := p.columns.GetOr(m.columns),
       rows := p.rows.GetOr(m.rows),
       testCases := p.testCases.GetOr(m.testCases),
       diagram := if p.diagram.Some? then p.diagram else m.diagram)
  }

  function Patcher(target: Option<int>, p: Patch): DecisionModel -> DecisionModel
  {
    (m: DecisionModel) => if target == Some(m.id) then Merge(m, p) else m
  }

  /** updateModel: every model carrying the id of the repository's `idx`-th
      model is merged with the patch; an index out of range reads an
      undefined id, which no model has. */
  function UpdateModel(s: State, idx: int, p: Patch): (r: State)
    ensures r.selectedRepo == s.selectedRepo && r.active == s.active && |r.models| == |s.models|
    ensures !(0 <= idx < |ModelsForRepo(s)|) ==> r == s
    ensures 0 <= idx < |ModelsForRepo(s)| ==>
              forall i :: 0 <= i < |s.models| ==>
                r.models[i] == (if s.models[i].id == ModelsForRepo(s)[idx].id
                                then Merge(s.models[i], p) else s.models[i])
  {
    var fr := ModelsForRepo(s);
    var target := if 0 <= idx < |fr| then Some(fr[idx].id) else None;
    var ms := MapModels(s.models, Patcher(target, p));
    assert target.None? ==> ms == s.models;
    State(ms, s.selectedRepo, s.active)
  }

  /** With distinct ids, reading the repository's `idx`-th model after an
      update gives the merged model, and every other model of the
      repository reads as before. */
  lemma UpdateModelReadBack(s: State, idx: nat, p: Patch)
    requires DistinctIds(ModelsForRepo(s)) && idx < |ModelsForRepo(s)|
    ensures |ModelsForRepo(UpdateModel(s, idx, p))| == |ModelsForRepo(s)|
    ensures ModelsForRepo(UpdateModel(s, idx, p))[idx] == Merge(ModelsForRepo(s)[idx], p)
    ensures forall k :: 0 <= k < |ModelsForRepo(s)| && k != idx ==>
              ModelsForRepo(UpdateModel(s, idx, p))[k] == ModelsForRepo(s)[k]
  {
    var fr := ModelsForRepo(s);
    var f := Patcher(Some(fr[idx].id), p);
    ForRepoMap(s.models, f, s.selectedRepo);
    forall k | 0 <= k < |fr| && k != idx
      ensures f(fr[k]) == fr[k]
    {
      assert fr[k].id != fr[idx].id;
    }
  }

  // ------------------------------------------------------------ repositories

  /** The repository list, the selected repository, whether the "add
      repository" form is open, and the name typed into it. */
  datatype Repos = Repos(names: seq<string>, selected: string, formOpen: bool, draft: string)

  /** Names that are distinct, non-empty and carry no surrounding spaces. */
  predicate GoodNames(names: seq<string>)
  {
    (forall i, j :: 0 <= i < j < |names| ==> names[i] != names[j]) &&
    (forall i :: 0 <= i < |names| ==> names[i] != "" && JsTrim(names[i]) == names[i])
  }

  /** The "Add Repository" button: the trimmed name is appended and
      selected, and the form closed and cleared, when it is non-empty and
      not yet listed; otherwise nothing happens. */
  function AddRepo(r: Repos): (out: Repos)
    ensures var name := JsTrim(r.draft);
            if name != "" && name !in r.names
            then out == Repos(r.names + [name], name, false, "")
            else out == r
  {
    var name := JsTrim(r.draft);
    if name != "" && name !in r.names then Repos(r.names + [name], name, false, "") else r
  }

  /** Adding a repository keeps the names distinct, non-empty and trimmed. */
  lemma AddRepoKeepsGoodNames(r: Repos)
    requires GoodNames(r.names)
    ensures GoodNames(AddRepo(r).names)
  {
    var name := JsTrim(r.draft);
    TrimIdempotent(r.draft, IsJsSpace);
    if name != "" && name !in r.names {
      var ns := r.names + [name];
      forall i, j | 0 <= i < j < |ns| ensures ns[i] != ns[j] {
        if j == |r.names| {
          assert ns[i] == r.names[i] && r.names[i] in r.names;
        }
      }
      forall i | 0 <= i < |ns| ensures ns[i] != "" && JsTrim(ns[i]) == ns[i] {
      }
    }
  }

  /** A second click changes nothing: after a successful add the draft is
      empty. */
  lemma AddRepoIdempotent(r: Repos)
    ensures AddRepo(AddRepo(r)) == AddRepo(r)
  {
    var out := AddRepo(r);
    if out != r {
      assert out.draft == "";
      assert JsTrim(out.draft) == "";
    }
  }
}
